=== FILE: README.md ===
# tg-checker in Dafny

tg-checker is a Telegram bot that watches Google Play listings. Each user
keeps up to 100 app links, 50 proxies and 5 daily check times. A check run
walks the user's links, probes every store page (optionally through the
least recently used proxy), saves one check result per link, shows a progress
message every fifth link and at the last, and ends with one line per app. A
run starts either from a minute tick that dispatches every user with an
active schedule at the current `HH:MM`, or from the check command. Each of
the two runners keeps a per-user "run in progress" guard.

This project models that core as pure functions over immutable data:

- `Types`: the stored entities and the configuration limits 100/50/5.
- `Text` and `Seqs`: the JavaScript string operations and the `where` /
  `orderBy` helpers the model is built from.
- `Repository`: every query and write of the persistence layer, as a
  function of an in-memory `Store`. A write that finds no record returns
  `None`.
- `Rotation`: least-recently-used proxy selection with stamping, and its
  fairness.
- `ProxyCodec`: the `ip:port[:user:pass]` parser, the three proxy-URL
  formatters and the batch proxy insert.
- `Probe`: package-name extraction and the result records the two page
  probes build from what the browser saw.
- `Keyboard` and `Callbacks`: the inline keyboards, the callback data they
  carry, and the `startsWith`/`replace` chains that decode it.
- `CheckRun`: both check runs, with their guard, as transformers of a
  `World`. A `World` holds the store, the two guard sets and a trace of
  sent and edited messages.
- `Trigger`: the minute tick.
- `Jobs`: the scheduler service's cron job list, its `updateSchedule`, its
  own sweep over links and its result-line formatter.
- `ScheduleRules`, `LinkRules` and `ProxyRules`: the dialogs of the
  schedule, link and proxy commands. Each handler maps (store, per-chat
  dialog state) to (store, dialog state, reply).
- `LinkImport`: the older link import and link edit of the single-file
  command module.

Details that come from outside the program are parameters. These are the
page a probe sees, the exceptions a check run, the tick's query and the
sweep can meet (see "Failing reads and Telegram calls" under "Left out"),
a failing individual insert (of a link, a proxy or a schedule, whether the
program catches it or not), the cron validator, the link/proxy/time parsers, the permission check, and where
never-used proxies sort.

Points of the program's behaviour worth knowing when reading the model:

- A run's results go out in one edit of its status message.
- The proxy cap and "delete all proxies" count and delete only active
  proxies.
- `processEditLink` updates the link by id alone, without checking its
  owner.
- The scheduler service's multi-result formatter is not modelled (see
  "Left out").

## Model

| member | source | states |
|---|---|---|
| Repository.FindUser | src/db/repository.ts:21-25 | the lookup by messaging id finds the first user with that id, or reports that none has it |
| Repository.GetOrCreateUser | src/db/repository.ts:15-27 | an existing user keeps its id and the user list its size (only the profile fields are rewritten); an unknown id appends exactly one new user with a fresh id; no other relation changes |
| Repository.GetKnownUser | src/db/repository.ts:21-25 | for a known id without profile fields the lookup returns the stored user and leaves the store untouched |
| Repository.LookupAgain | src/db/repository.ts:15-27 | a second lookup of the same id, with any profile, finds the user the first returned and only rewrites that user's row |
| Repository.GetUserAppLinks | src/db/repository.ts:41-46 | the result is exactly the user's links (as a multiset), newest `createdAt` first |
| Repository.AddAppLink | src/db/repository.ts:30-39 | exactly one link, with a fresh id and the current time, is appended; everything else is unchanged |
| Repository.DeleteAppLink | src/db/repository.ts:48-52 | fails iff no link matches both id and owner; otherwise removes exactly the matching links and nothing else |
| Repository.UpdateAppLink | src/db/repository.ts:54-63 | fails iff no link matches both id and owner; otherwise only the matching link gets the new URL and package |
| Repository.GetUserProxies | src/db/repository.ts:79-84 | the result is exactly the user's active proxies, ordered by `lastUsed` ascending with never-used ones placed by the parameter |
| Repository.AddProxy | src/db/repository.ts:66-77 | exactly one active, never-used proxy of the given type is appended; nothing else changes |
| Repository.DeleteProxy | src/db/repository.ts:86-90 | fails iff no proxy matches id and owner; otherwise removes exactly the matches |
| Repository.UpdateProxy | src/db/repository.ts:92-101 | fails iff no proxy matches id and owner; otherwise only the match gets the new address, port and credentials |
| Repository.UpdateProxyLastUsed | src/db/repository.ts:103-108 | fails iff the id is unknown; otherwise only that proxy is stamped with the current time, and the clock moves forward |
| Repository.GetUserCheckSchedules | src/db/repository.ts:120-125 | the result is exactly the user's schedules, active or not, ordered by time ascending |
| Repository.AddCheckSchedule | src/db/repository.ts:111-118 | exactly one active schedule at the given time is appended; nothing else changes |
| Repository.DeleteCheckSchedule | src/db/repository.ts:127-134 | fails iff no schedule matches id and owner; otherwise removes exactly the matches |
| Repository.UpdateCheckSchedule | src/db/repository.ts:136-145 | fails iff no schedule matches id and owner; otherwise only the match is patched |
| Repository.GetUsersWithSchedule | src/db/repository.ts:182-199 | a user is returned iff they have at least one active schedule at exactly that time |
| Repository.AddCheckResult | src/db/repository.ts:148-157 | exactly one result is appended, stamped with the current time; no other relation changes and the clock advances |
| Repository.DistinctByLinkUnique | src/db/repository.ts:171-173 | keeping the first result of each link leaves at most one result per link |
| Repository.DistinctByLinkCovers | src/db/repository.ts:171-173 | every link that has a result keeps one |
| Repository.DistinctByLinkNewest | src/db/repository.ts:166-173 | on a list sorted newest first, the kept result of a link is its newest |
| Repository.GetLatestCheckResults | src/db/repository.ts:159-179 | one result per link of the user, each the most recent for its link, and every link of the user that has a result is represented |
| Repository.GetUserLinkIds | src/db/repository.ts:160-165 | the ids are exactly those of the user's links |
| Repository.DistinctFitsLinks | src/db/repository.ts:159-179 | the latest results never outnumber the user's links |
| Rotation.NextProxy | src/services/proxyManager.ts:5-19 | none iff the user has no active proxy (and then nothing changes); otherwise the returned pre-update snapshot is an active proxy with least `lastUsed`, and exactly that proxy is stamped |
| Rotation.HeadIsLeast | src/db/repository.ts:79-84 | the head of the ordered active list is not later than any active proxy of the user |
| Rotation.FindLeastUsed | src/services/proxyService.ts:122-130 | the search finds nothing iff the list holds no active proxy of the user; otherwise it finds one of them that is used no later than any other |
| Rotation.ServiceNextProxy | src/services/proxyService.ts:119-147 | none iff the query fails or the user has no active proxy (and then nothing changes); otherwise the proxy is an active one of the user with least `lastUsed`, and exactly that proxy is stamped |
| Rotation.ServiceMatchesManager | src/services/proxyService.ts:119-147 | the service and the manager both find a proxy or neither does, and the two were last used at the same time |
| Rotation.ServiceIsManagerOnDistinctStamps | src/services/proxyService.ts:119-147 | when no two active proxies of the user share a stamp, the service and the manager make the same call |
| Rotation.PickedIsNewest | src/services/proxyManager.ts:12-16 | with a clock ahead of all stamps, after a pick the picked proxy carries the newest stamp and every other stamp is older |
| Rotation.FreshPick | src/services/proxyManager.ts:12-16 | with never-used proxies sorted first, while some active proxy has not been picked since a point in time, the next pick is one of those |
| Rotation.RotationIsFair | src/services/proxyManager.ts:5-19 | with never-used proxies first, as many consecutive picks as there are active proxies return each of them exactly once |
| Rotation.NullsLastStarves | src/db/repository.ts:79-84 | if never-used proxies sort last and some active proxy has been used, a never-used proxy is never picked by later calls |
| ProxyCodec.FromPieces | src/services/proxyService.ts:16-36 | two parts give address and port, four give credentials too, any other count gives null |
| ProxyCodec.ParseProxyString | src/services/proxyService.ts:12-41 | parsing succeeds iff the trimmed text has one or three colons, and the parsed fields joined by colons give back the trimmed text |
| ProxyCodec.ParseProxyLine | src/services/proxyService.ts:12-41 | a proxy whose fields hold no colon and whose line has no outer whitespace is recovered by parsing its line |
| ProxyCodec.ParsedIsTypable | src/services/proxyService.ts:12-41 | every parse result is of that round-trippable kind |
| ProxyCodec.ProxyUrlRoundTrip | src/services/proxyService.ts:152-161 | reading the built URL back gives the scheme, host and port, and credentials iff both username and password are present |
| ProxyCodec.ProxyUrlsAgree | src/services/appChecker.ts:46-54 | the app checker's lower-cased type scheme agrees with the service's `http`/`https` URL for HTTP and HTTPS proxies and uses `socks5://` for SOCKS5; the Play checker's URL is the service's with `http` |
| ProxyCodec.LowerTypeNames | src/services/appChecker.ts:48-50 | lower-casing the three type names gives `http`, `https`, `socks5` |
| ProxyCodec.FirstFailedCreate | src/services/proxyService.ts:176-199 | the index found is the first line that parses and whose create throws, or the end of the lines when there is none |
| ProxyCodec.AddProxiesFromStores | src/services/proxyService.ts:176-199 | the loop appends the lines that parse, in order, each as an active HTTP proxy of the user, up to the first create that throws |
| ProxyCodec.AddProxiesFromCounts | src/services/proxyService.ts:176-202 | the loop resolves iff no create throws, and then counts each parsed line as added and every other line as invalid |
| ProxyCodec.AddProxies | src/services/proxyService.ts:166-202 | the call resolves iff no create of a parsed line throws; then added plus invalid equals the number of lines and every valid line is appended in order as an HTTP proxy of the user; a throwing create rejects the call and keeps the rows created before it |
| Probe.MatchPackage | src/services/googlePlayChecker.ts:122-125 | there is no package iff no `id=` occurrence qualifies; a package is a non-empty run without `&` |
| Probe.PackageOfPlayLink | src/services/googlePlayChecker.ts:122-125 | a details link followed by a package and an optional `&...` tail yields that package under both extraction rules |
| Probe.CheckAppAvailability | src/services/googlePlayChecker.ts:50-120 | no browser, or a page that does not open for a URL with a package, gives no result (the call throws); an unreadable URL gives the fixed invalid-URL record; otherwise available iff the page answered with status 200, and an error message is present iff unavailable |
| Probe.StatusMessagesDistinct | src/services/googlePlayChecker.ts:103-109 | different statuses produce different messages, none equal to the thrown-error message |
| Probe.NoResponseIsStatusZero | src/services/googlePlayChecker.ts:92-109 | a missing response is treated like status 0 |
| Probe.CheckApp | src/services/appChecker.ts:29-105 | the proxy URL is applied iff a proxy is given and the page did not throw before the proxy step; on a loaded page, available iff not marked missing, and the stored name beats the scraped heading; a thrown error gives unavailable with an `Error: ` message |
| Keyboard.LinksKeyboard | src/bot/keyboard.ts:36-46 | one row per link, in order, labelled with the package and carrying `link_` plus the id |
| Keyboard.ProxiesKeyboard | src/bot/keyboard.ts:48-61 | one row per proxy, labelled `ip:port` and carrying `proxy_` plus the id |
| Keyboard.SchedulesKeyboard | src/bot/keyboard.ts:63-73 | one row per schedule, labelled with its time and carrying `schedule_` plus the id |
| Keyboard.Hits | src/bot/commands/appLinks.ts:263-264 | data built as key plus argument passes the key's `startsWith` test and `replace` strips the key to give the argument back |
| Keyboard.StripThenPrepend | src/bot/commands/appLinks.ts:263-264 | putting the stripped key back in front gives the original data |
| Callbacks.RouteLinks | src/bot/commands/appLinks.ts:257-453 | a routed datum is the branch's key followed by its argument, and branches tested with `===` take no argument |
| Callbacks.LinkRoundTrip | src/bot/commands/appLinks.ts:257-453 | every branch of the link chain is reached by exactly its own key plus any argument |
| Callbacks.RouteProxies | src/bot/commands/proxy.ts:263-549 | as for links, over the proxy chain |
| Callbacks.ProxyRoundTrip | src/bot/commands/proxy.ts:263-549 | every branch of the proxy chain is reached by its key plus argument; for selection, any argument not starting with `type_` |
| Callbacks.RouteSchedules | src/bot/commands/scheduler.ts:203-639 | as for links, over the schedule chain |
| Callbacks.ScheduleRoundTrip | src/bot/commands/scheduler.ts:203-639 | every branch of the schedule chain is reached by its key plus argument, despite the overlapping prefixes |
| Callbacks.RouteChecks | src/bot/commands/check.ts:126-142 | as for links, over the check command's two answers |
| Callbacks.CheckRoundTrip | src/bot/commands/check.ts:126-142 | both answers are reached by their own data |
| Callbacks.LinksKeyboardRoutes | src/bot/keyboard.ts:36-46 | each button of the links keyboard selects its own link |
| Callbacks.LinkMenuRoutes | src/bot/commands/appLinks.ts:276-303 | the link menu's buttons reach edit, confirm-delete and back, with the link's id |
| Callbacks.LinkDeleteRoutes | src/bot/keyboard.ts:75-87 | the yes/no keyboard's buttons reach the link's delete-yes and delete-no branches with the id |
| Callbacks.DeleteAllLinksRoutes | src/bot/keyboard.ts:89-103 | the delete-all button and its confirmation reach the link chain's two delete-all branches |
| Callbacks.ProxiesKeyboardRoutes | src/bot/keyboard.ts:48-61 | each button of the proxies keyboard selects its proxy when the id does not start with `type_` |
| Callbacks.CounterIdsFit | src/bot/commands/proxy.ts:269-324 | the store's decimal ids never start with `type_`, so proxy buttons never reach the type branch |
| Callbacks.ProxyMenuRoutes | src/bot/commands/proxy.ts:324-380 | the proxy menu's buttons reach edit, confirm-delete and back |
| Callbacks.ProxyDeleteRoutes | src/bot/keyboard.ts:75-87 | the yes/no keyboard reaches the proxy's delete-yes and delete-no branches |
| Callbacks.DeleteAllProxiesRoutes | src/bot/commands/proxy.ts:442-484 | the delete-all button and its confirmation reach the proxy chain's delete-all branches |
| Callbacks.SchedulesKeyboardRoutes | src/bot/keyboard.ts:63-73 | each button of the schedules keyboard selects its schedule |
| Callbacks.ScheduleMainMenuRoutes | src/bot/commands/scheduler.ts:29-60 | the schedule menu's buttons reach add, list and delete |
| Callbacks.ScheduleListMenuRoutes | src/bot/commands/scheduler.ts:220-275 | the list's buttons reach edit-list and back-to-main |
| Callbacks.ScheduleMenuRoutes | src/bot/commands/scheduler.ts:349-413 | a schedule's menu reaches edit-time, toggle, confirm-delete and back, with its id |
| Callbacks.ScheduleDeleteRoutes | src/bot/keyboard.ts:75-87 | the yes/no keyboard reaches the schedule's delete-yes and delete-no branches |
| Callbacks.DeleteAllSchedulesRoutes | src/bot/commands/scheduler.ts:519-555 | the delete-all button and its confirmation reach the schedule chain's delete-all branches |
| Callbacks.CheckMenuRoutes | src/bot/commands/check.ts:62-80 | the check question's two buttons reach with-proxy and without-proxy |
| Callbacks.CancelRoutes | src/bot/keyboard.ts:89-103 | the `cancel` button is handled only by the link chain; the proxy, schedule and check chains ignore it |
| Callbacks.ProxyIgnoresCancel | src/bot/commands/proxy.ts:263-549 | the proxy chain has no branch for `cancel` |
| Callbacks.DecodeTypeChoice | src/bot/commands/proxy.ts:270-272 | the type name read from the data holds no `_`, and without a type there is no count |
| Callbacks.TypeOfNameOfType | src/bot/commands/proxy.ts:287-308 | reading a type's name back gives the type |
| Callbacks.TypeChoiceJoin | src/bot/commands/proxy.ts:191-204 | the type button's data is `proxy`, `type`, the type name and the count joined by `_` |
| Callbacks.TypeChoiceRoundTrip | src/bot/commands/proxy.ts:191-204 | the type button's data routes to the type branch and decodes back to that type and count |
| CheckRun.WithGuard | src/bot/commands/check.ts:10 | each runner owns its own guard set |
| CheckRun.StopAt | src/services/scheduler.ts:72-131 | the loop completes every link unless an exception is raised before or during the pass of an earlier one, and then it stops at that link |
| CheckRun.LinkStep | src/services/scheduler.ts:72-105 | one pass probes its link, appends exactly one result recording the probe, and leaves proxies alone when no proxy is wanted |
| CheckRun.RunLinks | src/services/scheduler.ts:72-105 | the loop makes one pass per link, in order, up to where a fault stops it, each appending its result |
| CheckRun.CutPass | src/services/scheduler.ts:72-86 | a pass cut short after its proxy lookup stamps that proxy (and may send the no-proxy warning) but stores no result |
| CheckRun.RunBody | src/services/scheduler.ts:51-131 | the body leaves both guards alone and always sends at least one message |
| CheckRun.RunCheck | src/services/scheduler.ts:43-135 | a run for a user already flagged changes nothing and sends nothing; otherwise it sends messages, and both guards end as they began |
| CheckRun.RunCheckLoadFault | src/services/scheduler.ts:51-131 | an exception while loading sends exactly the error message; the store is unchanged, or holds the upserted user when only the links query threw |
| CheckRun.RunCheckNoLinks | src/services/scheduler.ts:55-61 | a user without links gets exactly one message and no result is stored |
| CheckRun.RunCheckStoresResults | src/services/scheduler.ts:72-86 | one result per link, in link order, appended after the existing results; all links when nothing throws |
| CheckRun.RunCheckWithoutProxy | src/bot/commands/check.ts:177-198 | without a proxy requested, no pass uses or stamps a proxy and no warning is sent |
| CheckRun.RunCheckWarnings | src/bot/commands/check.ts:177-189 | a no-proxy warning is sent for a link iff the command asked for a proxy and none was available |
| CheckRun.CadenceCount | src/services/scheduler.ts:89-101 | the completions that show progress are the multiples of five and the last one |
| CheckRun.StepsEventsEdits | src/services/scheduler.ts:89-101 | the passes edit the progress message exactly as often as that cadence counts |
| CheckRun.RunCheckProgress | src/services/scheduler.ts:89-125 | a fault-free run over n links edits its message n/5 times, plus once more if n is not a multiple of 5, plus the final edit |
| CheckRun.RunCheckClosing | src/services/scheduler.ts:108-131 | a fault-free run ends with the final edit; a run stopped by a fault, between passes or inside one, ends with the error message |
| CheckRun.RunCheckProbeFault | src/services/scheduler.ts:72-86 | a fault inside link k's pass leaves the k earlier results stored, link k's proxy stamped with no result for it, and ends with the error message |
| CheckRun.FinalTextLines | src/services/scheduler.ts:108-125 | the final text is the header followed by one line per result, in order |
| CheckRun.HandleStartCheck | src/bot/commands/check.ts:31-83 | a flagged user gets the "already running" warning and nothing else changes; otherwise the question is asked iff the user has links |
| CheckRun.HandleCheckCallback | src/bot/commands/check.ts:126-142 | callback data outside the check chain changes nothing |
| CheckRun.CheckMenuStartsRun | src/bot/commands/check.ts:126-142 | the question's buttons start the command's run with and without a proxy |
| CheckRun.RunnersIndependent | src/bot/commands/check.ts:10 | the tick's guard does not block the command's run and vice versa |
| Trigger.PaddedTwoDigits | src/services/scheduler.ts:20-26 | padding a number below 100 to two characters gives its tens digit then its units digit |
| Trigger.CurrentTime | src/services/scheduler.ts:20-26 | the tick's time string is the two-digit hour, a colon and the two-digit minute |
| Trigger.CurrentTimeReadsBack | src/services/scheduler.ts:20-26 | reading the time string's digit pairs back gives the hour and the minute |
| Trigger.CurrentTimeInjective | src/services/scheduler.ts:20-26 | different minutes of the day give different time strings |
| Trigger.Dispatched | src/services/scheduler.ts:28-39 | the tick dispatches exactly the users with an active schedule at the time, and nobody when the query fails |
| Trigger.RunAll | src/services/scheduler.ts:33-36 | running the dispatched users one after another leaves the guards as they were and only appends messages; when none of them is already flagged, it appends at least one message per user |
| Trigger.Tick | src/services/scheduler.ts:16-41 | a failing query changes nothing; the tick leaves the guards as they were; when none of the dispatched users is already running, it sends at least one message per dispatched user, whatever the order of the runs |
| Jobs.CronOfTime | src/services/schedulerService.ts:45-47 | `HH:MM` becomes `MM HH * * *` |
| Jobs.CronFields | src/services/schedulerService.ts:45-47 | splitting that expression on spaces gives back the minute, the hour and three wildcards |
| Jobs.ScheduleJob | src/services/schedulerService.ts:43-71 | a job is appended and true returned iff the validator accepts the expression; otherwise the list is unchanged |
| Jobs.RemoveUserJobs | src/services/schedulerService.ts:227-241 | exactly the user's jobs are removed, the rest keep their order, and the count removed is returned |
| Jobs.RemoveUndoesSchedule | src/services/schedulerService.ts:43-71 | removing a user's jobs after scheduling one leaves what removing them before would have |
| Jobs.FindSchedule | src/services/schedulerService.ts:256-262 | finds the first schedule of the user at that time, active or not |
| Jobs.UpdateSchedule | src/services/schedulerService.ts:246-298 | a badly formed time or a throwing database call (caught) returns false and changes nothing; otherwise the result is the validator's verdict, the user has an active schedule at that time, at most one schedule row is added and only for (user, time), every other row is kept or only re-activated, other users' and times' jobs are untouched, and exactly one job exists for (user, time) iff the expression is valid |
| Jobs.UpdateScheduleSparesOthers | src/services/schedulerService.ts:246-298 | a schedule that is not the user's at that time is in the table after the update iff it was before |
| Jobs.UpdateScheduleIdempotent | src/services/schedulerService.ts:246-298 | repeating an update changes nothing more |
| Jobs.SecondFindHitsActive | src/services/schedulerService.ts:257-281 | after an update, the first schedule at that time is active |
| Jobs.UpdateScheduleSingleRow | src/services/schedulerService.ts:257-281 | if the user had at most one schedule at that time, afterwards they have exactly one, and it is active |
| Jobs.SelectLinks | src/services/schedulerService.ts:134-138 | the sweep takes the user's links, limited to the requested ids when given |
| Jobs.SweepStep | src/services/schedulerService.ts:140-174 | a pass throws iff there is no browser, the page for a link with a package does not open, or the save fails, and then saves nothing; otherwise it saves one result for its link whose verdict and message are the probe's for the page loaded through the proxy the pass took, and whose proxy id is that proxy's |
| Jobs.FirstThrowSpec | src/services/schedulerService.ts:140-179 | no pass before the first throwing one throws, and that one does |
| Jobs.Sweep | src/services/schedulerService.ts:140-179 | the sweep saves one result per link in order, up to the first pass that throws, each with the probe's verdict and message for that pass's page; the passes before it stay saved, and the sweep is complete iff no pass throws |
| Jobs.CheckAllApps | src/services/schedulerService.ts:126-181 | a failing query returns nothing and saves nothing; otherwise the saved results are one per selected link, in order, each with the probe's verdict and message for its pass, up to the first pass that throws; all of them are returned when no pass throws, and none otherwise |
| Jobs.LinkById | src/services/schedulerService.ts:201-208 | the lookup by id returns a link with that id, or none when no link has it |
| Jobs.FormatSingleResult | src/services/schedulerService.ts:199-222 | a failing lookup and a missing link give their fallback lines |
| Jobs.FormatSingleResultAsRunLine | src/services/schedulerService.ts:210-217 | for a found link the line matches the check runs' result line: icon, package, and available / the error / the default text |
| ScheduleRules.ListedCount | src/db/repository.ts:120-125 | the listed schedules count all of the user's schedules, inactive ones too |
| ScheduleRules.AddTime | src/bot/commands/scheduler.ts:83-144 | at the cap the add is refused; a time the user already has is refused; a failing insert is reported and adds nothing; otherwise exactly one active schedule at that time is added |
| ScheduleRules.EditTime | src/bot/commands/scheduler.ts:147-200 | a time held by another schedule of the user is refused, while the schedule's own time is allowed; an unowned id fails; otherwise only that schedule's time changes |
| ScheduleRules.ScheduleInput | src/bot/commands/scheduler.ts:62-200 | a message without permission, without text or with empty text, or without a dialog is ignored; cancel clears the dialog; a bad time is refused and changes nothing; the dialog closes iff cancelled, added or updated |
| ScheduleRules.AddTimeKeeps | src/bot/commands/scheduler.ts:107-137 | adds keep each user's times distinct and under the cap |
| ScheduleRules.EditTimeKeeps | src/bot/commands/scheduler.ts:165-187 | edits keep times and ids distinct and every user's count unchanged |
| ScheduleRules.ScheduleInputKeeps | src/bot/commands/scheduler.ts:62-200 | typed input keeps times distinct and counts under the cap |
| ScheduleRules.Toggle | src/bot/commands/scheduler.ts:430-470 | an unowned id changes nothing; otherwise only the selected schedule's flag flips |
| ScheduleRules.ToggleOne | src/bot/commands/scheduler.ts:438-452 | with distinct ids, the toggle flips exactly the selected row |
| ScheduleRules.ToggleTwice | src/bot/commands/scheduler.ts:438-452 | toggling twice restores the store |
| ScheduleRules.DeleteOne | src/bot/commands/scheduler.ts:491-511 | deleting succeeds iff the user owns the schedule, and then removes exactly it |
| ScheduleRules.DeleteEach | src/bot/commands/scheduler.ts:541-555 | deleting listed schedules one by one never touches another user's, and on success removes exactly the listed ones |
| ScheduleRules.DeleteEachSucceeds | src/bot/commands/scheduler.ts:541-555 | each delete of distinct owned rows succeeds |
| ScheduleRules.DeleteAll | src/bot/commands/scheduler.ts:541-555 | on success every schedule of the user is removed, reported with their count, and only those |
| ScheduleRules.DeleteAllClears | src/bot/commands/scheduler.ts:541-555 | with distinct ids the delete-all succeeds and leaves the user with no schedule |
| ScheduleRules.ScheduleCallback | src/bot/commands/scheduler.ts:203-639 | unknown data changes nothing; only add and edit-time open a dialog; only toggle, delete-yes and confirm-delete-all touch schedules; selecting a schedule the user does not have is reported as not found |
| ScheduleRules.CallbackSparesOthers | src/bot/commands/scheduler.ts:203-639 | no callback removes another user's schedule |
| ScheduleRules.MenuToggleButton | src/bot/commands/scheduler.ts:414-452 | the menu's toggle button toggles that schedule |
| ScheduleRules.MenuEditButton | src/bot/commands/scheduler.ts:414-429 | the menu's edit button opens the edit dialog for that schedule |
| LinkRules.ListedLinks | src/db/repository.ts:41-46 | the listed links count all the user's links |
| LinkRules.HandleAddLinks | src/bot/commands/appLinks.ts:31-59 | at the cap the add is refused; otherwise the add dialog opens |
| LinkRules.HandleDeleteLinks | src/bot/commands/appLinks.ts:91-133 | without links the user is told so; otherwise the delete dialog opens |
| LinkRules.AppendsLinksCount | src/bot/commands/appLinks.ts:189-200 | appending k links raises the user's count by k and no one else's |
| LinkRules.InsertEach | src/bot/commands/appLinks.ts:189-200 | the inserts that do not fail append their links in order, and the count is their number |
| LinkRules.AddLinksInput | src/bot/commands/appLinks.ts:153-213 | nothing parsed changes nothing; at the cap the add is refused; otherwise only the prefix that fits is tried, and the limit note appears iff fewer than parsed were added |
| LinkRules.AddLinksBounds | src/bot/commands/appLinks.ts:174-200 | added is at most the parsed count and the free slots, and the user stays within the cap |
| LinkRules.AddLinksAllFit | src/bot/commands/appLinks.ts:174-211 | when everything fits and nothing fails, all parsed links are added without a note |
| LinkRules.AddLinksKeeps | src/bot/commands/appLinks.ts:174-200 | adding keeps every user within the cap |
| LinkRules.EditLinkInput | src/bot/commands/appLinks.ts:217-254 | nothing parsed changes nothing; the update succeeds iff the user owns the link, and then only that link takes the first parsed link's URL and package |
| LinkRules.EditLinkKeeps | src/bot/commands/appLinks.ts:225-239 | editing keeps every user's link count |
| LinkRules.LinkInput | src/bot/commands/appLinks.ts:135-255 | a message without text or with empty text, or without a dialog, is ignored; cancel clears the dialog; text in the delete dialog is ignored; the dialog closes iff cancelled, added or updated |
| LinkRules.LinkInputKeeps | src/bot/commands/appLinks.ts:135-255 | typed input keeps every user within the cap |
| LinkRules.DeleteEach | src/bot/commands/appLinks.ts:399-401 | deleting listed links one by one never touches another user's, and on success removes exactly the listed ones |
| LinkRules.DeleteEachSucceeds | src/bot/commands/appLinks.ts:399-401 | each delete of distinct owned rows succeeds |
| LinkRules.DeleteAll | src/bot/commands/appLinks.ts:394-414 | on success every link of the user is removed, reported with their count, and only those |
| LinkRules.DeleteAllClears | src/bot/commands/appLinks.ts:394-414 | with distinct ids the delete-all succeeds and leaves no link of the user |
| LinkRules.Select | src/bot/commands/appLinks.ts:263-310 | a link is shown iff the user owns it |
| LinkRules.DeleteOne | src/bot/commands/appLinks.ts:345-363 | deleting succeeds iff the user owns the link, and then removes exactly it |
| LinkRules.LinkCallback | src/bot/commands/appLinks.ts:257-453 | unknown data changes nothing; only edit opens a dialog; only delete-yes and confirm-delete-all touch links |
| LinkRules.ConfirmThenDelete | src/bot/commands/appLinks.ts:329-363 | the confirmation's yes button deletes the link iff the user owns it |
| LinkImport.TrimAll | src/bot/commands.ts:490-495 | every line is trimmed, in place |
| LinkImport.KeptLines | src/bot/commands.ts:490-495 | a line is kept iff, trimmed, it starts with the details prefix |
| LinkImport.KeptOfJoin | src/bot/commands.ts:490-495 | a message made of such links, one per line, keeps exactly them |
| LinkImport.ImportLine | src/bot/commands.ts:520-557 | a line without a package or with a failing insert is an error; a package the user has is counted existing; otherwise one link is added; the user never gets two links of one package |
| LinkImport.ImportLines | src/bot/commands.ts:519-557 | the three counters add up to the lines; the store grows by the added count; every good line's package ends up present |
| LinkImport.RepeatCountsExisting | src/bot/commands.ts:530-552 | a package repeated within one batch is added at most once and counted existing |
| LinkImport.ProcessAddLinks | src/bot/commands.ts:472-575 | an unknown user or no kept lines changes nothing; otherwise the counters add up to the kept lines and the dialog is cleared; packages stay distinct per user |
| LinkImport.ProcessEditLink | src/bot/commands.ts:688-770 | no editing state is a no-op; text without the prefix is rejected keeping the state; the link is edited iff it has a package and the id exists, and then only that link changes |
| LinkImport.EditWithPlayLink | src/bot/commands.ts:688-770 | a details link with a package edits the link to that URL and package |
| LinkImport.BarePrefixHasNoPackage | src/bot/commands.ts:703-729 | the bare prefix passes the prefix test but has no package, so nothing changes |
| ProxyRules.ListedProxies | src/db/repository.ts:79-84 | the listed proxies count only the user's active proxies |
| ProxyRules.HandleAddProxies | src/bot/commands/proxy.ts:35-60 | at the cap of active proxies the add is refused; otherwise the add dialog opens |
| ProxyRules.HandleDeleteProxies | src/bot/commands/proxy.ts:96-120 | without active proxies the user is told so; otherwise the delete dialog opens |
| ProxyRules.AppendsProxiesCount | src/bot/commands/proxy.ts:287-308 | appending k proxies raises the user's active count by k and no one else's |
| ProxyRules.InsertEach | src/bot/commands/proxy.ts:291-308 | the inserts that do not fail append their proxies in order with the chosen type |
| ProxyRules.AddProxiesInput | src/bot/commands/proxy.ts:158-219 | nothing parsed changes nothing; at the cap the add is refused; otherwise the type is asked and the dialog keeps the parsed list with the free slots |
| ProxyRules.EditProxyInput | src/bot/commands/proxy.ts:222-257 | nothing parsed changes nothing; the update succeeds iff the user owns the proxy, and then only it takes the first parsed proxy |
| ProxyRules.EditProxyKeeps | src/bot/commands/proxy.ts:222-257 | editing keeps every user's active count |
| ProxyRules.ProxyInput | src/bot/commands/proxy.ts:140-260 | a message without text or with empty text, or without a dialog, is ignored; cancel clears the dialog; the delete and type steps ignore text; a type question follows only the add step; proxies change only on an edit |
| ProxyRules.AddTyped | src/bot/commands/proxy.ts:287-308 | an unknown type adds nothing; a known one appends the proxies whose inserts succeed |
| ProxyRules.ChooseTypeStep | src/bot/commands/proxy.ts:269-321 | without a pending list the answer is an error and nothing changes; otherwise the dialog closes, at most the free slots are tried, and the limit note appears iff the count in the button exceeds the added |
| ProxyRules.OfferedButtonAddsAll | src/bot/commands/proxy.ts:191-321 | the offered button, when everything fits and nothing fails, adds the whole list with that type and no note |
| ProxyRules.ChooseTypeKeeps | src/bot/commands/proxy.ts:287-308 | within the free slots the type step keeps every user under the cap |
| ProxyRules.AddThenChooseKeeps | src/bot/commands/proxy.ts:158-321 | typing a list and then choosing a type keeps every user under the cap |
| ProxyRules.Select | src/bot/commands/proxy.ts:324-380 | a proxy is shown iff it is an active proxy of the user |
| ProxyRules.DeleteOne | src/bot/commands/proxy.ts:414-433 | deleting succeeds iff the user owns the proxy, and then removes exactly it |
| ProxyRules.DeleteEach | src/bot/commands/proxy.ts:469-471 | deleting listed proxies one by one never touches another user's, and on success removes exactly the listed ones |
| ProxyRules.DeleteEachSucceeds | src/bot/commands/proxy.ts:469-471 | each delete of distinct owned rows succeeds |
| ProxyRules.DeleteAll | src/bot/commands/proxy.ts:463-484 | on success the user's active proxies are removed, reported with their count, and only those |
| ProxyRules.DeleteAllClears | src/bot/commands/proxy.ts:463-484 | with distinct ids the delete-all succeeds, leaves no active proxy, and keeps the inactive ones |
| ProxyRules.NoActiveTwin | src/bot/commands/proxy.ts:463-484 | with distinct ids an inactive proxy shares its id with no active one |
| ProxyRules.ProxyCallback | src/bot/commands/proxy.ts:263-549 | unknown data changes nothing; only the type choice and edit change the dialog; only the type choice, delete-yes and confirm-delete-all touch proxies |
| ProxyRules.TypeButtonsChooseType | src/bot/commands/proxy.ts:269 | type buttons reach the type step, not proxy selection |
| Text.JoinSplit | src/services/proxyService.ts:14 | joining the pieces of a split gives the text back |
| Text.SplitJoin | src/services/proxyService.ts:14 | splitting pieces without the separator, joined by it, gives the pieces back |
| Text.ParseIntOfNatToString | src/bot/commands/proxy.ts:270-272 | reading a count's decimal text back gives the count |
| Seqs.SortBySorted | src/db/repository.ts:41-46 | sorting by a total preorder gives a sorted permutation |

## Left out

- Telegram I/O: sent and edited messages are events in a trace, or a reply
  tag naming which message is sent. Their wording is kept only for the
  result lines. `answerCallbackQuery` and `setMyCommands` are not modelled.
- The database engine: every query is a function of an in-memory store.
  Where never-used proxies sort under `lastUsed asc` depends on the
  database, so it is a parameter. Rows that tie on the order key stay in
  insertion order.
- Cron timers: a job is only its (user, time) pair, and the cron
  validator is a parameter. The service's `initialize` is database
  plumbing and is not modelled.
- Puppeteer: navigation, user agents, selectors and name scraping are
  inputs. These are the page a probe sees (`Navigation`, `PageOutcome`),
  whether the browser started and whether a page opened.
- Closing a page or the browser: `page.close()` in the Play probe's
  `finally` and `browser.close()` in `checkApp`'s `finally`
  (src/services/appChecker.ts:102-103) are taken not to throw, so a
  finished probe never rejects while closing.
- Failing reads and Telegram calls: outside the check runs, the tick and
  the sweep, store reads that the handlers make outside any `try` (the user
  upsert and the link, proxy and schedule queries of the command handlers)
  and the replies they send are taken not to throw; the unhandled rejection
  and the missing reply that such a throw gives are not modelled. In
  particular ScheduleRules.AddTime does not model a success reply that
  throws after the schedule was inserted. Inside a run, a failed start
  message or progress edit is modelled as the fault at the next stage, and
  the trace keeps the attempted event; a failed final edit is
  `StageFault` at the number of links, and the trace then records the
  error message instead of the edit.
- Delays and randomness are no-ops.
- Dates: the tick takes the local hour and minute as integers. Locale
  formatting of times and of `handleCheckStatus` is not modelled.
- Concurrency: the tick's runs are not awaited, so they are modelled as
  runs one after another in any order. Each run is one atomic step.
- `handleCheckStatus`: a read-only status message, not modelled.
- Jobs.FormatSingleResult: its contract states only the fallback lines,
  because the found-link line is stated through
  Jobs.FormatSingleResultAsRunLine.
- The service's `formatCheckResults`: it maps the async single-line
  formatter and joins the resulting Promises. Only the single-line
  formatter is modelled.
- `runScheduledCheck`: the sweep it calls (`checkAllApps`) is modelled.
  The message it sends is not.
- Abstract helpers: the link, proxy-list and time parsers and the
  permission check are not part of this model. They are parameters. The
  permission check, `repository.isUserPermitted`, is called by the
  handlers but src/db/repository.ts does not define it.
- `testProxy`: a network probe, not modelled.
- Menu-only handlers: the handlers that only show lists or pages are
  routed but not modelled. These are the edit-list handlers, the list
  menus and the page callbacks.
- The single-file command module: only `processAddLinks` and
  `processEditLink` are modelled. Its duplicated handler block and menus
  are not.
- The proxy type is an unchecked cast in the source. The model reads the
  name back and adds nothing for an unknown name.
- ProxyRules.ChooseTypeStep: the free-slot count is the one computed when
  the list was typed, as in the source. A proxy added in between can make
  it stale. ChooseTypeKeeps therefore assumes the slots still fit.
- Listing all users is not used by the core and is not modelled.
- Login and web-app flows, startup and browser setup are not modelled.

=== FILE: callbacks.dfy ===
/**
 The callback chains of the command classes. Every class listens to every
 callback query, so a button built by one class also passes through the
 chains of the others. Each chain is an `if`/`else if` sequence of
 `startsWith(key)` and `=== key` tests; a branch reached by a prefix test
 hands on `data.replace(key, "")` as its argument. For each chain the route
 and the encoding `key + argument` are inverse to each other.
 */
module Callbacks {
  import opened Types
  import opened Text
  import opened Keyboard

  /** The argument after `key`, as `data.replace(key, "")` leaves it. */
  function After(data: string, key: string): (x: string)
    requires StartsWith(data, key)
    ensures key + x == data
  {
    StripThenPrepend(data, key);
    ReplaceFirst(data, key)
  }

  // ------------------------------------------------------------------ link chain

  datatype LinkBranch = SelectLink | EditLink | ConfirmDeleteLink | DeleteLinkYes | DeleteLinkNo
                      | DeleteAllLinks | ConfirmDeleteAllLinks | BackToLinks | CancelAction

  /** The callback data that selects each branch; an argument follows a prefix key. */
  function LinkKey(b: LinkBranch): string {
    match b
    case SelectLink => "link_"
    case EditLink => "edit_link_"
    case ConfirmDeleteLink => "confirm_delete_link_"
    case DeleteLinkYes => "delete_link_yes_"
    case DeleteLinkNo => "delete_link_no_"
    case DeleteAllLinks => "delete_all_links"
    case ConfirmDeleteAllLinks => "confirm_delete_all_links"
    case BackToLinks => "back_to_links"
    case CancelAction => "cancel"
  }

  /** The branches reached by a prefix test, which carry an argument. */
  predicate LinkTakesArg(b: LinkBranch) {
    b in {SelectLink, EditLink, ConfirmDeleteLink, DeleteLinkYes, DeleteLinkNo}
  }

  /** The link commands' callback handler: which branch runs, and with what argument. */
  function RouteLinks(data: string): (r: Option<(LinkBranch, string)>)
    ensures r.Some? ==> LinkKey(r.value.0) + r.value.1 == data
    ensures r.Some? && !LinkTakesArg(r.value.0) ==> r.value.1 == ""
  {
    if data == "" then None
    else if StartsWith(data, "link_") then Some((SelectLink, After(data, "link_")))
    else if StartsWith(data, "edit_link_") then Some((EditLink, After(data, "edit_link_")))
    else if StartsWith(data, "confirm_delete_link_") then Some((ConfirmDeleteLink, After(data, "confirm_delete_link_")))
    else if StartsWith(data, "delete_link_yes_") then Some((DeleteLinkYes, After(data, "delete_link_yes_")))
    else if StartsWith(data, "delete_link_no_") then Some((DeleteLinkNo, After(data, "delete_link_no_")))
    else if data == "delete_all_links" then Some((DeleteAllLinks, ""))
    else if data == "confirm_delete_all_links" then Some((ConfirmDeleteAllLinks, ""))
    else if data == "back_to_links" then Some((BackToLinks, ""))
    else if data == "cancel" then Some((CancelAction, ""))
    else None
  }

  // One lemma per branch: its key passes its own test and misses every earlier one.

  lemma ReachSelectLink(id: string)
    ensures RouteLinks("link_" + id) == Some((SelectLink, id))
  {
    Hits("link_", id);
  }

  lemma ReachEditLink(id: string)
    ensures RouteLinks("edit_link_" + id) == Some((EditLink, id))
  {
    Hits("edit_link_", id);
    MissesAt("edit_link_", "link_", id, 0);
  }

  lemma ReachConfirmDeleteLink(id: string)
    ensures RouteLinks("confirm_delete_link_" + id) == Some((ConfirmDeleteLink, id))
  {
    Hits("confirm_delete_link_", id);
    MissesAt("confirm_delete_link_", "link_", id, 0);
    MissesAt("confirm_delete_link_", "edit_link_", id, 0);
  }

  lemma ReachDeleteLinkYes(id: string)
    ensures RouteLinks("delete_link_yes_" + id) == Some((DeleteLinkYes, id))
  {
    Hits("delete_link_yes_", id);
    MissesAt("delete_link_yes_", "link_", id, 0);
    MissesAt("delete_link_yes_", "edit_link_", id, 0);
    MissesAt("delete_link_yes_", "confirm_delete_link_", id, 0);
  }

  lemma ReachDeleteLinkNo(id: string)
    ensures RouteLinks("delete_link_no_" + id) == Some((DeleteLinkNo, id))
  {
    Hits("delete_link_no_", id);
    MissesAt("delete_link_no_", "link_", id, 0);
    MissesAt("delete_link_no_", "edit_link_", id, 0);
    MissesAt("delete_link_no_", "confirm_delete_link_", id, 0);
    MissesAt("delete_link_no_", "delete_link_yes_", id, 12);
  }

  lemma ReachDeleteAllLinks()
    ensures RouteLinks("delete_all_links") == Some((DeleteAllLinks, ""))
  {
    DiffersAt("delete_all_links", "link_", 0);
    DiffersAt("delete_all_links", "edit_link_", 0);
    DiffersAt("delete_all_links", "confirm_delete_link_", 0);
    DiffersAt("delete_all_links", "delete_link_yes_", 7);
    DiffersAt("delete_all_links", "delete_link_no_", 7);
  }

  lemma ReachConfirmDeleteAllLinks()
    ensures RouteLinks("confirm_delete_all_links") == Some((ConfirmDeleteAllLinks, ""))
  {
    DiffersAt("confirm_delete_all_links", "link_", 0);
    DiffersAt("confirm_delete_all_links", "edit_link_", 0);
    DiffersAt("confirm_delete_all_links", "confirm_delete_link_", 15);
    DiffersAt("confirm_delete_all_links", "delete_link_yes_", 0);
    DiffersAt("confirm_delete_all_links", "delete_link_no_", 0);
    DiffersAt("confirm_delete_all_links", "delete_all_links", 0);
  }

  lemma ReachBackToLinks()
    ensures RouteLinks("back_to_links") == Some((BackToLinks, ""))
  {
    DiffersAt("back_to_links", "link_", 0);
    DiffersAt("back_to_links", "edit_link_", 0);
    DiffersAt("back_to_links", "confirm_delete_link_", 0);
    DiffersAt("back_to_links", "delete_link_yes_", 0);
    DiffersAt("back_to_links", "delete_link_no_", 0);
    DiffersAt("back_to_links", "delete_all_links", 0);
    DiffersAt("back_to_links", "confirm_delete_all_links", 0);
  }

  lemma ReachCancelAction()
    ensures RouteLinks("cancel") == Some((CancelAction, ""))
  {
    DiffersAt("cancel", "link_", 0);
    DiffersAt("cancel", "edit_link_", 0);
    DiffersAt("cancel", "confirm_delete_link_", 1);
    DiffersAt("cancel", "delete_link_yes_", 0);
    DiffersAt("cancel", "delete_link_no_", 0);
    DiffersAt("cancel", "delete_all_links", 0);
    DiffersAt("cancel", "confirm_delete_all_links", 1);
    DiffersAt("cancel", "back_to_links", 0);
  }

  /** Every branch is reached by its own key followed by its argument: the route inverts the encoding. */
  lemma LinkRoundTrip(b: LinkBranch, arg: string)
    requires LinkTakesArg(b) || arg == ""
    ensures RouteLinks(LinkKey(b) + arg) == Some((b, arg))
  {
    match b
    case SelectLink => ReachSelectLink(arg);
    case EditLink => ReachEditLink(arg);
    case ConfirmDeleteLink => ReachConfirmDeleteLink(arg);
    case DeleteLinkYes => ReachDeleteLinkYes(arg);
    case DeleteLinkNo => ReachDeleteLinkNo(arg);
    case DeleteAllLinks => assert LinkKey(b) + arg == "delete_all_links"; ReachDeleteAllLinks();
    case ConfirmDeleteAllLinks => assert LinkKey(b) + arg == "confirm_delete_all_links"; ReachConfirmDeleteAllLinks();
    case BackToLinks => assert LinkKey(b) + arg == "back_to_links"; ReachBackToLinks();
    case CancelAction => assert LinkKey(b) + arg == "cancel"; ReachCancelAction();
  }

  // ------------------------------------------------------------------ proxy chain

  datatype ProxyBranch = ChooseType | SelectProxy | EditProxy | ConfirmDeleteProxy | DeleteProxyYes
                       | DeleteProxyNo | DeleteAllProxies | ConfirmDeleteAllProxies | BackToProxies
                       | ProxiesPage

  /** The callback data that selects each branch; an argument follows a prefix key. */
  function ProxyKey(b: ProxyBranch): string {
    match b
    case ChooseType => "proxy_type_"
    case SelectProxy => "proxy_"
    case EditProxy => "edit_proxy_"
    case ConfirmDeleteProxy => "confirm_delete_proxy_"
    case DeleteProxyYes => "delete_proxy_yes_"
    case DeleteProxyNo => "delete_proxy_no_"
    case DeleteAllProxies => "delete_all_proxies"
    case ConfirmDeleteAllProxies => "confirm_delete_all_proxies"
    case BackToProxies => "back_to_proxies"
    case ProxiesPage => "proxies_page_"
  }

  /** The branches reached by a prefix test, which carry an argument. */
  predicate ProxyTakesArg(b: ProxyBranch) {
    b in {ChooseType, SelectProxy, EditProxy, ConfirmDeleteProxy, DeleteProxyYes, DeleteProxyNo, ProxiesPage}
  }

  /** The proxy commands' callback handler: which branch runs, and with what argument. */
  function RouteProxies(data: string): (r: Option<(ProxyBranch, string)>)
    ensures r.Some? ==> ProxyKey(r.value.0) + r.value.1 == data
    ensures r.Some? && !ProxyTakesArg(r.value.0) ==> r.value.1 == ""
  {
    if data == "" then None
    else if StartsWith(data, "proxy_type_") then Some((ChooseType, After(data, "proxy_type_")))
    else if StartsWith(data, "proxy_") then Some((SelectProxy, After(data, "proxy_")))
    else if StartsWith(data, "edit_proxy_") then Some((EditProxy, After(data, "edit_proxy_")))
    else if StartsWith(data, "confirm_delete_proxy_") then Some((ConfirmDeleteProxy, After(data, "confirm_delete_proxy_")))
    else if StartsWith(data, "delete_proxy_yes_") then Some((DeleteProxyYes, After(data, "delete_proxy_yes_")))
    else if StartsWith(data, "delete_proxy_no_") then Some((DeleteProxyNo, After(data, "delete_proxy_no_")))
    else if data == "delete_all_proxies" then Some((DeleteAllProxies, ""))
    else if data == "confirm_delete_all_proxies" then Some((ConfirmDeleteAllProxies, ""))
    else if data == "back_to_proxies" then Some((BackToProxies, ""))
    else if StartsWith(data, "proxies_page_") then Some((ProxiesPage, After(data, "proxies_page_")))
    else None
  }

  // One lemma per branch: its key passes its own test and misses every earlier one.

  lemma ReachChooseType(id: string)
    ensures RouteProxies("proxy_type_" + id) == Some((ChooseType, id))
  {
    Hits("proxy_type_", id);
  }

  lemma ReachSelectProxy(id: string)
    requires !StartsWith(id, "type_")
    ensures RouteProxies("proxy_" + id) == Some((SelectProxy, id))
  {
    Hits("proxy_", id);
    assert "proxy_type_" == "proxy_" + "type_";
    ShiftPrefix("proxy_", "type_", id);
  }

  lemma ReachEditProxy(id: string)
    ensures RouteProxies("edit_proxy_" + id) == Some((EditProxy, id))
  {
    Hits("edit_proxy_", id);
    MissesAt("edit_proxy_", "proxy_type_", id, 0);
    MissesAt("edit_proxy_", "proxy_", id, 0);
  }

  lemma ReachConfirmDeleteProxy(id: string)
    ensures RouteProxies("confirm_delete_proxy_" + id) == Some((ConfirmDeleteProxy, id))
  {
    Hits("confirm_delete_proxy_", id);
    MissesAt("confirm_delete_proxy_", "proxy_type_", id, 0);
    MissesAt("confirm_delete_proxy_", "proxy_", id, 0);
    MissesAt("confirm_delete_proxy_", "edit_proxy_", id, 0);
  }

  lemma ReachDeleteProxyYes(id: string)
    ensures RouteProxies("delete_proxy_yes_" + id) == Some((DeleteProxyYes, id))
  {
    Hits("delete_proxy_yes_", id);
    MissesAt("delete_proxy_yes_", "proxy_type_", id, 0);
    MissesAt("delete_proxy_yes_", "proxy_", id, 0);
    MissesAt("delete_proxy_yes_", "edit_proxy_", id, 0);
    MissesAt("delete_proxy_yes_", "confirm_delete_proxy_", id, 0);
  }

  lemma ReachDeleteProxyNo(id: string)
    ensures RouteProxies("delete_proxy_no_" + id) == Some((DeleteProxyNo, id))
  {
    Hits("delete_proxy_no_", id);
    MissesAt("delete_proxy_no_", "proxy_type_", id, 0);
    MissesAt("delete_proxy_no_", "proxy_", id, 0);
    MissesAt("delete_proxy_no_", "edit_proxy_", id, 0);
    MissesAt("delete_proxy_no_", "confirm_delete_proxy_", id, 0);
    MissesAt("delete_proxy_no_", "delete_proxy_yes_", id, 13);
  }

  lemma ReachDeleteAllProxies()
    ensures RouteProxies("delete_all_proxies") == Some((DeleteAllProxies, ""))
  {
    DiffersAt("delete_all_proxies", "proxy_type_", 0);
    DiffersAt("delete_all_proxies", "proxy_", 0);
    DiffersAt("delete_all_proxies", "edit_proxy_", 0);
    DiffersAt("delete_all_proxies", "confirm_delete_proxy_", 0);
    DiffersAt("delete_all_proxies", "delete_proxy_yes_", 7);
    DiffersAt("delete_all_proxies", "delete_proxy_no_", 7);
  }

  lemma ReachConfirmDeleteAllProxies()
    ensures RouteProxies("confirm_delete_all_proxies") == Some((ConfirmDeleteAllProxies, ""))
  {
    DiffersAt("confirm_delete_all_proxies", "proxy_type_", 0);
    DiffersAt("confirm_delete_all_proxies", "proxy_", 0);
    DiffersAt("confirm_delete_all_proxies", "edit_proxy_", 0);
    DiffersAt("confirm_delete_all_proxies", "confirm_delete_proxy_", 15);
    DiffersAt("confirm_delete_all_proxies", "delete_proxy_yes_", 0);
    DiffersAt("confirm_delete_all_proxies", "delete_proxy_no_", 0);
    DiffersAt("confirm_delete_all_proxies", "delete_all_proxies", 0);
  }

  lemma ReachBackToProxies()
    ensures RouteProxies("back_to_proxies") == Some((BackToProxies, ""))
  {
    DiffersAt("back_to_proxies", "proxy_type_", 0);
    DiffersAt("back_to_proxies", "proxy_", 0);
    DiffersAt("back_to_proxies", "edit_proxy_", 0);
    DiffersAt("back_to_proxies", "confirm_delete_proxy_", 0);
    DiffersAt("back_to_proxies", "delete_proxy_yes_", 0);
    DiffersAt("back_to_proxies", "delete_proxy_no_", 0);
    DiffersAt("back_to_proxies", "delete_all_proxies", 0);
    DiffersAt("back_to_proxies", "confirm_delete_all_proxies", 0);
  }

  lemma ReachProxiesPage(id: string)
    ensures RouteProxies("proxies_page_" + id) == Some((ProxiesPage, id))
  {
    Hits("proxies_page_", id);
    MissesAt("proxies_page_", "proxy_type_", id, 4);
    MissesAt("proxies_page_", "proxy_", id, 4);
    MissesAt("proxies_page_", "edit_proxy_", id, 0);
    MissesAt("proxies_page_", "confirm_delete_proxy_", id, 0);
    MissesAt("proxies_page_", "delete_proxy_yes_", id, 0);
    MissesAt("proxies_page_", "delete_proxy_no_", id, 0);
    MissesAt("proxies_page_", "delete_all_proxies", id, 0);
    MissesAt("proxies_page_", "confirm_delete_all_proxies", id, 0);
    MissesAt("proxies_page_", "back_to_proxies", id, 0);
  }

  /** Every branch is reached by its own key followed by its argument: the route inverts the encoding. */
  lemma ProxyRoundTrip(b: ProxyBranch, arg: string)
    requires ProxyTakesArg(b) || arg == ""
    requires b == SelectProxy ==> !StartsWith(arg, "type_")
    ensures RouteProxies(ProxyKey(b) + arg) == Some((b, arg))
  {
    match b
    case ChooseType => ReachChooseType(arg);
    case SelectProxy => ReachSelectProxy(arg);
    case EditProxy => ReachEditProxy(arg);
    case ConfirmDeleteProxy => ReachConfirmDeleteProxy(arg);
    case DeleteProxyYes => ReachDeleteProxyYes(arg);
    case DeleteProxyNo => ReachDeleteProxyNo(arg);
    case DeleteAllProxies => assert ProxyKey(b) + arg == "delete_all_proxies"; ReachDeleteAllProxies();
    case ConfirmDeleteAllProxies => assert ProxyKey(b) + arg == "confirm_delete_all_proxies"; ReachConfirmDeleteAllProxies();
    case BackToProxies => assert ProxyKey(b) + arg == "back_to_proxies"; ReachBackToProxies();
    case ProxiesPage => ReachProxiesPage(arg);
  }

  /** The shared cancel button takes no branch of this chain. */
  lemma ProxyIgnoresCancel()
    ensures RouteProxies("cancel") == None
  {
    DiffersAt("cancel", "proxy_type_", 0);
    DiffersAt("cancel", "proxy_", 0);
    DiffersAt("cancel", "edit_proxy_", 0);
    DiffersAt("cancel", "confirm_delete_proxy_", 1);
    DiffersAt("cancel", "delete_proxy_yes_", 0);
    DiffersAt("cancel", "delete_proxy_no_", 0);
    DiffersAt("cancel", "delete_all_proxies", 0);
    DiffersAt("cancel", "confirm_delete_all_proxies", 1);
    DiffersAt("cancel", "back_to_proxies", 0);
    DiffersAt("cancel", "proxies_page_", 0);
  }

  // ------------------------------------------------------------------ schedule chain

  datatype ScheduleBranch = AddSchedule | ListSchedules | EditScheduleList | DeleteScheduleMenu
                          | SelectSchedule | EditScheduleTime | ToggleSchedule
                          | ConfirmDeleteSchedule | DeleteScheduleYes | DeleteScheduleNo
                          | DeleteAllSchedules | ConfirmDeleteAllSchedules | BackToMain
                          | SchedulesPage | BackToSchedules

  /** The callback data that selects each branch; an argument follows a prefix key. */
  function ScheduleKey(b: ScheduleBranch): string {
    match b
    case AddSchedule => "add_schedule"
    case ListSchedules => "list_schedules"
    case EditScheduleList => "edit_schedule_list"
    case DeleteScheduleMenu => "delete_schedule"
    case SelectSchedule => "schedule_"
    case EditScheduleTime => "edit_schedule_time_"
    case ToggleSchedule => "toggle_schedule_"
    case ConfirmDeleteSchedule => "confirm_delete_schedule_"
    case DeleteScheduleYes => "delete_schedule_yes_"
    case DeleteScheduleNo => "delete_schedule_no_"
    case DeleteAllSchedules => "delete_all_schedules"
    case ConfirmDeleteAllSchedules => "confirm_delete_all_schedules"
    case BackToMain => "back_to_main"
    case SchedulesPage => "schedules_page_"
    case BackToSchedules => "back_to_schedules"
  }

  /** The branches reached by a prefix test, which carry an argument. */
  predicate ScheduleTakesArg(b: ScheduleBranch) {
    b in {SelectSchedule, EditScheduleTime, ToggleSchedule, ConfirmDeleteSchedule, DeleteScheduleYes, DeleteScheduleNo, SchedulesPage}
  }

  /** The schedule commands' callback handler: which branch runs, and with what argument. */
  function RouteSchedules(data: string): (r: Option<(ScheduleBranch, string)>)
    ensures r.Some? ==> ScheduleKey(r.value.0) + r.value.1 == data
    ensures r.Some? && !ScheduleTakesArg(r.value.0) ==> r.value.1 == ""
  {
    if data == "" then None
    else if data == "add_schedule" then Some((AddSchedule, ""))
    else if data == "list_schedules" then Some((ListSchedules, ""))
    else if data == "edit_schedule_list" then Some((EditScheduleList, ""))
    else if data == "delete_schedule" then Some((DeleteScheduleMenu, ""))
    else if StartsWith(data, "schedule_") then Some((SelectSchedule, After(data, "schedule_")))
    else if StartsWith(data, "edit_schedule_time_") then Some((EditScheduleTime, After(data, "edit_schedule_time_")))
    else if StartsWith(data, "toggle_schedule_") then Some((ToggleSchedule, After(data, "toggle_schedule_")))
    else if StartsWith(data, "confirm_delete_schedule_") then Some((ConfirmDeleteSchedule, After(data, "confirm_delete_schedule_")))
    else if StartsWith(data, "delete_schedule_yes_") then Some((DeleteScheduleYes, After(data, "delete_schedule_yes_")))
    else if StartsWith(data, "delete_schedule_no_") then Some((DeleteScheduleNo, After(data, "delete_schedule_no_")))
    else if data == "delete_all_schedules" then Some((DeleteAllSchedules, ""))
    else if data == "confirm_delete_all_schedules" then Some((ConfirmDeleteAllSchedules, ""))
    else if data == "back_to_main" then Some((BackToMain, ""))
    else if StartsWith(data, "schedules_page_") then Some((SchedulesPage, After(data, "schedules_page_")))
    else if data == "back_to_schedules" then Some((BackToSchedules, ""))
    else None
  }

  // One lemma per branch: its key passes its own test and misses every earlier one.

  lemma ReachAddSchedule()
    ensures RouteSchedules("add_schedule") == Some((AddSchedule, ""))
  {
  }

  lemma ReachListSchedules()
    ensures RouteSchedules("list_schedules") == Some((ListSchedules, ""))
  {
    DiffersAt("list_schedules", "add_schedule", 0);
  }

  lemma ReachEditScheduleList()
    ensures RouteSchedules("edit_schedule_list") == Some((EditScheduleList, ""))
  {
    DiffersAt("edit_schedule_list", "add_schedule", 0);
    DiffersAt("edit_schedule_list", "list_schedules", 0);
  }

  lemma ReachDeleteScheduleMenu()
    ensures RouteSchedules("delete_schedule") == Some((DeleteScheduleMenu, ""))
  {
    DiffersAt("delete_schedule", "add_schedule", 0);
    DiffersAt("delete_schedule", "list_schedules", 0);
    DiffersAt("delete_schedule", "edit_schedule_list", 0);
  }

  lemma ReachSelectSchedule(id: string)
    ensures RouteSchedules("schedule_" + id) == Some((SelectSchedule, id))
  {
    Hits("schedule_", id);
    MissesAt("schedule_", "add_schedule", id, 0);
    MissesAt("schedule_", "list_schedules", id, 0);
    MissesAt("schedule_", "edit_schedule_list", id, 0);
    MissesAt("schedule_", "delete_schedule", id, 0);
  }

  lemma ReachEditScheduleTime(id: string)
    ensures RouteSchedules("edit_schedule_time_" + id) == Some((EditScheduleTime, id))
  {
    Hits("edit_schedule_time_", id);
    MissesAt("edit_schedule_time_", "add_schedule", id, 0);
    MissesAt("edit_schedule_time_", "list_schedules", id, 0);
    MissesAt("edit_schedule_time_", "edit_schedule_list", id, 14);
    MissesAt("edit_schedule_time_", "delete_schedule", id, 0);
    MissesAt("edit_schedule_time_", "schedule_", id, 0);
  }

  lemma ReachToggleSchedule(id: string)
    ensures RouteSchedules("toggle_schedule_" + id) == Some((ToggleSchedule, id))
  {
    Hits("toggle_schedule_", id);
    MissesAt("toggle_schedule_", "add_schedule", id, 0);
    MissesAt("toggle_schedule_", "list_schedules", id, 0);
    MissesAt("toggle_schedule_", "edit_schedule_list", id, 0);
    MissesAt("toggle_schedule_", "delete_schedule", id, 0);
    MissesAt("toggle_schedule_", "schedule_", id, 0);
    MissesAt("toggle_schedule_", "edit_schedule_time_", id, 0);
  }

  lemma ReachConfirmDeleteSchedule(id: string)
    ensures RouteSchedules("confirm_delete_schedule_" + id) == Some((ConfirmDeleteSchedule, id))
  {
    Hits("confirm_delete_schedule_", id);
    MissesAt("confirm_delete_schedule_", "add_schedule", id, 0);
    MissesAt("confirm_delete_schedule_", "list_schedules", id, 0);
    MissesAt("confirm_delete_schedule_", "edit_schedule_list", id, 0);
    MissesAt("confirm_delete_schedule_", "delete_schedule", id, 0);
    MissesAt("confirm_delete_schedule_", "schedule_", id, 0);
    MissesAt("confirm_delete_schedule_", "edit_schedule_time_", id, 0);
    MissesAt("confirm_delete_schedule_", "toggle_schedule_", id, 0);
  }

  lemma ReachDeleteScheduleYes(id: string)
    ensures RouteSchedules("delete_schedule_yes_" + id) == Some((DeleteScheduleYes, id))
  {
    Hits("delete_schedule_yes_", id);
    MissesAt("delete_schedule_yes_", "add_schedule", id, 0);
    MissesAt("delete_schedule_yes_", "list_schedules", id, 0);
    MissesAt("delete_schedule_yes_", "edit_schedule_list", id, 0);
    LongerThan("delete_schedule_yes_", "delete_schedule", id);
    MissesAt("delete_schedule_yes_", "schedule_", id, 0);
    MissesAt("delete_schedule_yes_", "edit_schedule_time_", id, 0);
    MissesAt("delete_schedule_yes_", "toggle_schedule_", id, 0);
    MissesAt("delete_schedule_yes_", "confirm_delete_schedule_", id, 0);
  }

  lemma ReachDeleteScheduleNo(id: string)
    ensures RouteSchedules("delete_schedule_no_" + id) == Some((DeleteScheduleNo, id))
  {
    Hits("delete_schedule_no_", id);
    MissesAt("delete_schedule_no_", "add_schedule", id, 0);
    MissesAt("delete_schedule_no_", "list_schedules", id, 0);
    MissesAt("delete_schedule_no_", "edit_schedule_list", id, 0);
    LongerThan("delete_schedule_no_", "delete_schedule", id);
    MissesAt("delete_schedule_no_", "schedule_", id, 0);
    MissesAt("delete_schedule_no_", "edit_schedule_time_", id, 0);
    MissesAt("delete_schedule_no_", "toggle_schedule_", id, 0);
    MissesAt("delete_schedule_no_", "confirm_delete_schedule_", id, 0);
    MissesAt("delete_schedule_no_", "delete_schedule_yes_", id, 16);
  }

  lemma ReachDeleteAllSchedules()
    ensures RouteSchedules("delete_all_schedules") == Some((DeleteAllSchedules, ""))
  {
    DiffersAt("delete_all_schedules", "add_schedule", 0);
    DiffersAt("delete_all_schedules", "list_schedules", 0);
    DiffersAt("delete_all_schedules", "edit_schedule_list", 0);
    DiffersAt("delete_all_schedules", "delete_schedule", 7);
    DiffersAt("delete_all_schedules", "schedule_", 0);
    DiffersAt("delete_all_schedules", "edit_schedule_time_", 0);
    DiffersAt("delete_all_schedules", "toggle_schedule_", 0);
    DiffersAt("delete_all_schedules", "confirm_delete_schedule_", 0);
    DiffersAt("delete_all_schedules", "delete_schedule_yes_", 7);
    DiffersAt("delete_all_schedules", "delete_schedule_no_", 7);
  }

  lemma ReachConfirmDeleteAllSchedules()
    ensures RouteSchedules("confirm_delete_all_schedules") == Some((ConfirmDeleteAllSchedules, ""))
  {
    DiffersAt("confirm_delete_all_schedules", "add_schedule", 0);
    DiffersAt("confirm_delete_all_schedules", "list_schedules", 0);
    DiffersAt("confirm_delete_all_schedules", "edit_schedule_list", 0);
    DiffersAt("confirm_delete_all_schedules", "delete_schedule", 0);
    DiffersAt("confirm_delete_all_schedules", "schedule_", 0);
    DiffersAt("confirm_delete_all_schedules", "edit_schedule_time_", 0);
    DiffersAt("confirm_delete_all_schedules", "toggle_schedule_", 0);
    DiffersAt("confirm_delete_all_schedules", "confirm_delete_schedule_", 15);
    DiffersAt("confirm_delete_all_schedules", "delete_schedule_yes_", 0);
    DiffersAt("confirm_delete_all_schedules", "delete_schedule_no_", 0);
    DiffersAt("confirm_delete_all_schedules", "delete_all_schedules", 0);
  }

  lemma ReachBackToMain()
    ensures RouteSchedules("back_to_main") == Some((BackToMain, ""))
  {
    DiffersAt("back_to_main", "add_schedule", 0);
    DiffersAt("back_to_main", "list_schedules", 0);
    DiffersAt("back_to_main", "edit_schedule_list", 0);
    DiffersAt("back_to_main", "delete_schedule", 0);
    DiffersAt("back_to_main", "schedule_", 0);
    DiffersAt("back_to_main", "edit_schedule_time_", 0);
    DiffersAt("back_to_main", "toggle_schedule_", 0);
    DiffersAt("back_to_main", "confirm_delete_schedule_", 0);
    DiffersAt("back_to_main", "delete_schedule_yes_", 0);
    DiffersAt("back_to_main", "delete_schedule_no_", 0);
    DiffersAt("back_to_main", "delete_all_schedules", 0);
    DiffersAt("back_to_main", "confirm_delete_all_schedules", 0);
  }

  lemma ReachSchedulesPage(id: string)
    ensures RouteSchedules("schedules_page_" + id) == Some((SchedulesPage, id))
  {
    Hits("schedules_page_", id);
    MissesAt("schedules_page_", "add_schedule", id, 0);
    MissesAt("schedules_page_", "list_schedules", id, 0);
    MissesAt("schedules_page_", "edit_schedule_list", id, 0);
    MissesAt("schedules_page_", "delete_schedule", id, 0);
    MissesAt("schedules_page_", "schedule_", id, 8);
    MissesAt("schedules_page_", "edit_schedule_time_", id, 0);
    MissesAt("schedules_page_", "toggle_schedule_", id, 0);
    MissesAt("schedules_page_", "confirm_delete_schedule_", id, 0);
    MissesAt("schedules_page_", "delete_schedule_yes_", id, 0);
    MissesAt("schedules_page_", "delete_schedule_no_", id, 0);
    MissesAt("schedules_page_", "delete_all_schedules", id, 0);
    MissesAt("schedules_page_", "confirm_delete_all_schedules", id, 0);
    MissesAt("schedules_page_", "back_to_main", id, 0);
  }

  lemma ReachBackToSchedules()
    ensures RouteSchedules("back_to_schedules") == Some((BackToSchedules, ""))
  {
    DiffersAt("back_to_schedules", "add_schedule", 0);
    DiffersAt("back_to_schedules", "list_schedules", 0);
    DiffersAt("back_to_schedules", "edit_schedule_list", 0);
    DiffersAt("back_to_schedules", "delete_schedule", 0);
    DiffersAt("back_to_schedules", "schedule_", 0);
    DiffersAt("back_to_schedules", "edit_schedule_time_", 0);
    DiffersAt("back_to_schedules", "toggle_schedule_", 0);
    DiffersAt("back_to_schedules", "confirm_delete_schedule_", 0);
    DiffersAt("back_to_schedules", "delete_schedule_yes_", 0);
    DiffersAt("back_to_schedules", "delete_schedule_no_", 0);
    DiffersAt("back_to_schedules", "delete_all_schedules", 0);
    DiffersAt("back_to_schedules", "confirm_delete_all_schedules", 0);
    DiffersAt("back_to_schedules", "back_to_main", 8);
    DiffersAt("back_to_schedules", "schedules_page_", 0);
  }

  /** Every branch is reached by its own key followed by its argument: the route inverts the encoding. */
  lemma ScheduleRoundTrip(b: ScheduleBranch, arg: string)
    requires ScheduleTakesArg(b) || arg == ""
    ensures RouteSchedules(ScheduleKey(b) + arg) == Some((b, arg))
  {
    match b
    case AddSchedule => assert ScheduleKey(b) + arg == "add_schedule"; ReachAddSchedule();
    case ListSchedules => assert ScheduleKey(b) + arg == "list_schedules"; ReachListSchedules();
    case EditScheduleList => assert ScheduleKey(b) + arg == "edit_schedule_list"; ReachEditScheduleList();
    case DeleteScheduleMenu => assert ScheduleKey(b) + arg == "delete_schedule"; ReachDeleteScheduleMenu();
    case SelectSchedule => ReachSelectSchedule(arg);
    case EditScheduleTime => ReachEditScheduleTime(arg);
    case ToggleSchedule => ReachToggleSchedule(arg);
    case ConfirmDeleteSchedule => ReachConfirmDeleteSchedule(arg);
    case DeleteScheduleYes => ReachDeleteScheduleYes(arg);
    case DeleteScheduleNo => ReachDeleteScheduleNo(arg);
    case DeleteAllSchedules => assert ScheduleKey(b) + arg == "delete_all_schedules"; ReachDeleteAllSchedules();
    case ConfirmDeleteAllSchedules => assert ScheduleKey(b) + arg == "confirm_delete_all_schedules"; ReachConfirmDeleteAllSchedules();
    case BackToMain => assert ScheduleKey(b) + arg == "back_to_main"; ReachBackToMain();
    case SchedulesPage => ReachSchedulesPage(arg);
    case BackToSchedules => assert ScheduleKey(b) + arg == "back_to_schedules"; ReachBackToSchedules();
  }

  /** The shared cancel button takes no branch of this chain. */
  lemma ScheduleIgnoresCancel()
    ensures RouteSchedules("cancel") == None
  {
    DiffersAt("cancel", "add_schedule", 0);
    DiffersAt("cancel", "list_schedules", 0);
    DiffersAt("cancel", "edit_schedule_list", 0);
    DiffersAt("cancel", "delete_schedule", 0);
    DiffersAt("cancel", "schedule_", 0);
    DiffersAt("cancel", "edit_schedule_time_", 0);
    DiffersAt("cancel", "toggle_schedule_", 0);
    DiffersAt("cancel", "confirm_delete_schedule_", 1);
    DiffersAt("cancel", "delete_schedule_yes_", 0);
    DiffersAt("cancel", "delete_schedule_no_", 0);
    DiffersAt("cancel", "delete_all_schedules", 0);
    DiffersAt("cancel", "confirm_delete_all_schedules", 1);
    DiffersAt("cancel", "back_to_main", 0);
    DiffersAt("cancel", "schedules_page_", 0);
    DiffersAt("cancel", "back_to_schedules", 0);
  }

  // ------------------------------------------------------------------ check chain

  datatype CheckBranch = WithProxy | WithoutProxy

  /** The callback data that selects each branch; an argument follows a prefix key. */
  function CheckKey(b: CheckBranch): string {
    match b
    case WithProxy => "check_with_proxy"
    case WithoutProxy => "check_without_proxy"
  }

  /** The branches reached by a prefix test, which carry an argument. */
  predicate CheckTakesArg(b: CheckBranch) {
    b in {}
  }

  /** The check commands' callback handler: which branch runs, and with what argument. */
  function RouteChecks(data: string): (r: Option<(CheckBranch, string)>)
    ensures r.Some? ==> CheckKey(r.value.0) + r.value.1 == data
    ensures r.Some? && !CheckTakesArg(r.value.0) ==> r.value.1 == ""
  {
    if data == "" then None
    else if data == "check_with_proxy" then Some((WithProxy, ""))
    else if data == "check_without_proxy" then Some((WithoutProxy, ""))
    else None
  }

  // One lemma per branch: its key passes its own test and misses every earlier one.

  lemma ReachWithProxy()
    ensures RouteChecks("check_with_proxy") == Some((WithProxy, ""))
  {
  }

  lemma ReachWithoutProxy()
    ensures RouteChecks("check_without_proxy") == Some((WithoutProxy, ""))
  {
    DiffersAt("check_without_proxy", "check_with_proxy", 10);
  }

  /** Every branch is reached by its own key followed by its argument: the route inverts the encoding. */
  lemma CheckRoundTrip(b: CheckBranch, arg: string)
    requires CheckTakesArg(b) || arg == ""
    ensures RouteChecks(CheckKey(b) + arg) == Some((b, arg))
  {
    match b
    case WithProxy => assert CheckKey(b) + arg == "check_with_proxy"; ReachWithProxy();
    case WithoutProxy => assert CheckKey(b) + arg == "check_without_proxy"; ReachWithoutProxy();
  }

  /** The shared cancel button takes no branch of this chain. */
  lemma CheckIgnoresCancel()
    ensures RouteChecks("cancel") == None
  {
    DiffersAt("cancel", "check_with_proxy", 1);
    DiffersAt("cancel", "check_without_proxy", 1);
  }

  // ------------------------------------------------------------------ menus

  /** The menu shown for a selected link. */
  function LinkMenu(id: string): Markup {
    [[Button("✏️ Редактировать", "edit_link_" + id), Button("🗑️ Удалить", "confirm_delete_link_" + id)],
     [Button("🔙 Назад", "back_to_links")]]
  }

  /** The menu shown for a selected proxy. */
  function ProxyMenu(id: string): Markup {
    [[Button("✏️ Редактировать", "edit_proxy_" + id), Button("🗑️ Удалить", "confirm_delete_proxy_" + id)],
     [Button("🔙 Назад", "back_to_proxies")]]
  }

  /** The menu shown for a selected schedule; the toggle's label follows its state. */
  function ScheduleMenu(id: string, isActive: bool): Markup {
    [[Button("✏️ Изменить время", "edit_schedule_time_" + id),
      Button(if isActive then "⏸ Деактивировать" else "▶️ Активировать", "toggle_schedule_" + id)],
     [Button("🗑️ Удалить", "confirm_delete_schedule_" + id), Button("🔙 Назад", "back_to_schedules")]]
  }

  /** The schedule command's first menu. */
  function ScheduleMainMenu(): Markup {
    [[Button("➕ Добавить время проверки", "add_schedule")],
     [Button("📝 Список текущих проверок", "list_schedules")],
     [Button("🗑️ Удалить расписание", "delete_schedule")]]
  }

  /** The buttons under the list of schedules. */
  function ScheduleListMenu(): Markup {
    [[Button("✏️ Редактировать", "edit_schedule_list")], [Button("🔙 Вернуться", "back_to_main")]]
  }

  /** The question asked before a check run. */
  function CheckMenu(): Markup {
    [[Button("✅ Да, с прокси", "check_with_proxy"), Button("❌ Нет, без прокси", "check_without_proxy")]]
  }

  /** A keyboard of the records of one kind with a delete-all row below it. */
  function DeleteMenu(rows: Markup, t: DeleteKind): Markup {
    rows + [[Button("🗑️ Удалить все", "delete_all_" + DeleteKindName(t))]]
  }

  /** The confirmation asked before deleting every record of a kind. */
  function ConfirmDeleteAllMenu(t: DeleteKind): Markup {
    [[Button("✅ Да, удалить все", "confirm_delete_all_" + DeleteKindName(t)), Button("❌ Отмена", "cancel")]]
  }

  /** Every row of the links keyboard selects its own link. */
  lemma LinksKeyboardRoutes(links: seq<AppLink>, k: nat)
    requires k < |links|
    ensures RouteLinks(LinksKeyboard(links)[k][0].data) == Some((SelectLink, links[k].id))
  {
    ReachSelectLink(links[k].id);
  }

  /** The selected-link menu edits or asks to delete that link, or goes back. */
  lemma LinkMenuRoutes(id: string)
    ensures RouteLinks(LinkMenu(id)[0][0].data) == Some((EditLink, id))
    ensures RouteLinks(LinkMenu(id)[0][1].data) == Some((ConfirmDeleteLink, id))
    ensures RouteLinks(LinkMenu(id)[1][0].data) == Some((BackToLinks, ""))
  {
    ReachEditLink(id);
    ReachConfirmDeleteLink(id);
    ReachBackToLinks();
  }

  /** Yes deletes the link the question carried; no declines. */
  lemma LinkDeleteRoutes(id: string)
    ensures RouteLinks(YesNoKeyboard("delete_link", id)[0][0].data) == Some((DeleteLinkYes, id))
    ensures RouteLinks(YesNoKeyboard("delete_link", id)[0][1].data) == Some((DeleteLinkNo, id))
  {
    assert "delete_link" + "_yes_" + id == "delete_link_yes_" + id;
    ReachDeleteLinkYes(id);
    assert "delete_link" + "_no_" + id == "delete_link_no_" + id;
    ReachDeleteLinkNo(id);
  }

  /** The delete-all row under the links keyboard asks for confirmation, and the confirmation deletes. */
  lemma DeleteAllLinksRoutes(rows: Markup)
    ensures RouteLinks(DeleteMenu(rows, Links)[|rows|][0].data) == Some((DeleteAllLinks, ""))
    ensures RouteLinks(ConfirmDeleteAllMenu(Links)[0][0].data) == Some((ConfirmDeleteAllLinks, ""))
  {
    assert DeleteMenu(rows, Links)[|rows|][0].data == "delete_all_links";
    assert ConfirmDeleteAllMenu(Links)[0][0].data == "confirm_delete_all_links";
    ReachDeleteAllLinks();
    ReachConfirmDeleteAllLinks();
  }

  // ------------------------------------------------------------------ proxy type buttons

  /** The data of a type button offered for a batch of `count` parsed proxies. */
  function TypeChoiceData(t: ProxyType, count: nat): string {
    "proxy_type_" + ProxyTypeName(t) + "_" + NatToString(count)
  }

  /** The one-row type question shown after a batch of proxies is parsed. */
  function TypeChoiceMenu(count: nat): Markup {
    [[Button("HTTP", TypeChoiceData(HTTP, count)), Button("HTTPS", TypeChoiceData(HTTPS, count)),
      Button("SOCKS5", TypeChoiceData(SOCKS5, count))]]
  }

  /** What the type branch reads back: `parts[2]` and `parseInt(parts[3])`, either possibly missing. */
  datatype TypeChoice = TypeChoice(typeName: Option<string>, count: Option<int>)

  /** The type branch splits the data on `_` and reads the third and fourth pieces. */
  function DecodeTypeChoice(data: string): (r: TypeChoice)
    ensures r.typeName.Some? ==> '_' !in r.typeName.value
    ensures r.typeName.None? ==> r.count.None?
  {
    var parts := Split(data, '_');
    TypeChoice(if |parts| > 2 then Some(parts[2]) else None,
               if |parts| > 3 then ParseInt(parts[3]) else None)
  }

  /** The type named by a string, when it is one of the three. */
  function TypeOfName(name: string): (r: Option<ProxyType>)
    ensures r.Some? ==> ProxyTypeName(r.value) == name
  {
    if name == "HTTP" then Some(HTTP)
    else if name == "HTTPS" then Some(HTTPS)
    else if name == "SOCKS5" then Some(SOCKS5)
    else None
  }

  lemma TypeOfNameOfType(t: ProxyType)
    ensures TypeOfName(ProxyTypeName(t)) == Some(t)
  {
  }

  /** The type button's data, as the pieces `proxy`, `type`, the type and the count joined by `_`. */
  lemma TypeChoiceJoin(t: ProxyType, count: nat)
    ensures TypeChoiceData(t, count) == Join(["proxy", "type", ProxyTypeName(t), NatToString(count)], '_')
  {
    var name, digits := ProxyTypeName(t), NatToString(count);
    JoinFour("proxy", "type", name, digits, '_');
    assert "proxy" + "_" + "type" + "_" == "proxy_type_";
  }

  /** Four pieces joined by `sep`. */
  lemma JoinFour(a: string, b: string, c: string, d: string, sep: char)
    ensures Join([a, b, c, d], sep) == a + [sep] + b + [sep] + c + [sep] + d
  {
    JoinCons(c, [d], sep);
    assert [c, d] == [c] + [d];
    JoinCons(b, [c, d], sep);
    assert [b, c, d] == [b] + [c, d];
    JoinCons(a, [b, c, d], sep);
    assert [a, b, c, d] == [a] + [b, c, d];
  }

  /**
   A type button reaches the type branch, and decoding its data gives back
   the type's name and the batch size it was built with.
   */
  lemma TypeChoiceRoundTrip(t: ProxyType, count: nat)
    ensures RouteProxies(TypeChoiceData(t, count)) == Some((ChooseType, ProxyTypeName(t) + "_" + NatToString(count)))
    ensures DecodeTypeChoice(TypeChoiceData(t, count)) == TypeChoice(Some(ProxyTypeName(t)), Some(count))
  {
    var name, digits := ProxyTypeName(t), NatToString(count);
    var parts := ["proxy", "type", name, digits];
    assert TypeChoiceData(t, count) == "proxy_type_" + (name + "_" + digits);
    ReachChooseType(name + "_" + digits);
    TypeChoiceJoin(t, count);
    assert forall k :: 0 <= k < |digits| ==> IsDigit(digits[k]);
    assert forall k :: 0 <= k < |parts| ==> '_' !in parts[k];
    SplitJoin(parts, '_');
    ParseIntOfNatToString(count);
  }

  /** Every row of the proxies keyboard selects its own proxy, unless its id begins with `type_`. */
  lemma ProxiesKeyboardRoutes(proxies: seq<Proxy>, k: nat)
    requires k < |proxies|
    requires !StartsWith(proxies[k].id, "type_")
    ensures RouteProxies(ProxiesKeyboard(proxies)[k][0].data) == Some((SelectProxy, proxies[k].id))
  {
    ReachSelectProxy(proxies[k].id);
  }

  /** Ids are printed counters, which never begin with `type_`. */
  lemma CounterIdsFit(n: nat)
    ensures !StartsWith(NatToString(n), "type_")
  {
    var s := NatToString(n);
    assert IsDigit(s[0]);
  }

  /** The selected-proxy menu edits or asks to delete that proxy, or goes back. */
  lemma ProxyMenuRoutes(id: string)
    ensures RouteProxies(ProxyMenu(id)[0][0].data) == Some((EditProxy, id))
    ensures RouteProxies(ProxyMenu(id)[0][1].data) == Some((ConfirmDeleteProxy, id))
    ensures RouteProxies(ProxyMenu(id)[1][0].data) == Some((BackToProxies, ""))
  {
    ReachEditProxy(id);
    ReachConfirmDeleteProxy(id);
    ReachBackToProxies();
  }

  /** Yes deletes the proxy the question carried; no declines. */
  lemma ProxyDeleteRoutes(id: string)
    ensures RouteProxies(YesNoKeyboard("delete_proxy", id)[0][0].data) == Some((DeleteProxyYes, id))
    ensures RouteProxies(YesNoKeyboard("delete_proxy", id)[0][1].data) == Some((DeleteProxyNo, id))
  {
    assert "delete_proxy" + "_yes_" + id == "delete_proxy_yes_" + id;
    ReachDeleteProxyYes(id);
    assert "delete_proxy" + "_no_" + id == "delete_proxy_no_" + id;
    ReachDeleteProxyNo(id);
  }

  /** The delete-all row under the proxies keyboard asks for confirmation, and the confirmation deletes. */
  lemma DeleteAllProxiesRoutes(rows: Markup)
    ensures RouteProxies(DeleteMenu(rows, Proxies)[|rows|][0].data) == Some((DeleteAllProxies, ""))
    ensures RouteProxies(ConfirmDeleteAllMenu(Proxies)[0][0].data) == Some((ConfirmDeleteAllProxies, ""))
  {
    assert DeleteMenu(rows, Proxies)[|rows|][0].data == "delete_all_proxies";
    assert ConfirmDeleteAllMenu(Proxies)[0][0].data == "confirm_delete_all_proxies";
    ReachDeleteAllProxies();
    ReachConfirmDeleteAllProxies();
  }

  /** Every row of the schedules keyboard selects its own schedule. */
  lemma SchedulesKeyboardRoutes(schedules: seq<CheckSchedule>, k: nat)
    requires k < |schedules|
    ensures RouteSchedules(SchedulesKeyboard(schedules)[k][0].data) == Some((SelectSchedule, schedules[k].id))
  {
    ReachSelectSchedule(schedules[k].id);
  }

  /** The schedule command's first menu adds, lists, or opens deletion. */
  lemma ScheduleMainMenuRoutes()
    ensures RouteSchedules(ScheduleMainMenu()[0][0].data) == Some((AddSchedule, ""))
    ensures RouteSchedules(ScheduleMainMenu()[1][0].data) == Some((ListSchedules, ""))
    ensures RouteSchedules(ScheduleMainMenu()[2][0].data) == Some((DeleteScheduleMenu, ""))
  {
    ReachAddSchedule();
    ReachListSchedules();
    ReachDeleteScheduleMenu();
  }

  /** Under the list, one button opens editing and one goes back. */
  lemma ScheduleListMenuRoutes()
    ensures RouteSchedules(ScheduleListMenu()[0][0].data) == Some((EditScheduleList, ""))
    ensures RouteSchedules(ScheduleListMenu()[1][0].data) == Some((BackToMain, ""))
  {
    ReachEditScheduleList();
    ReachBackToMain();
  }

  /** The selected-schedule menu edits, toggles or asks to delete that schedule, or goes back. */
  lemma ScheduleMenuRoutes(id: string, isActive: bool)
    ensures RouteSchedules(ScheduleMenu(id, isActive)[0][0].data) == Some((EditScheduleTime, id))
    ensures RouteSchedules(ScheduleMenu(id, isActive)[0][1].data) == Some((ToggleSchedule, id))
    ensures RouteSchedules(ScheduleMenu(id, isActive)[1][0].data) == Some((ConfirmDeleteSchedule, id))
    ensures RouteSchedules(ScheduleMenu(id, isActive)[1][1].data) == Some((BackToSchedules, ""))
  {
    ReachEditScheduleTime(id);
    ReachToggleSchedule(id);
    ReachConfirmDeleteSchedule(id);
    ReachBackToSchedules();
  }

  /** Yes deletes the schedule the question carried; no declines. */
  lemma ScheduleDeleteRoutes(id: string)
    ensures RouteSchedules(YesNoKeyboard("delete_schedule", id)[0][0].data) == Some((DeleteScheduleYes, id))
    ensures RouteSchedules(YesNoKeyboard("delete_schedule", id)[0][1].data) == Some((DeleteScheduleNo, id))
  {
    assert "delete_schedule" + "_yes_" + id == "delete_schedule_yes_" + id;
    ReachDeleteScheduleYes(id);
    assert "delete_schedule" + "_no_" + id == "delete_schedule_no_" + id;
    ReachDeleteScheduleNo(id);
  }

  /** The delete-all row under the schedules keyboard asks for confirmation, and the confirmation deletes. */
  lemma DeleteAllSchedulesRoutes(rows: Markup)
    ensures RouteSchedules(DeleteMenu(rows, Schedules)[|rows|][0].data) == Some((DeleteAllSchedules, ""))
    ensures RouteSchedules(ConfirmDeleteAllMenu(Schedules)[0][0].data) == Some((ConfirmDeleteAllSchedules, ""))
  {
    assert DeleteMenu(rows, Schedules)[|rows|][0].data == "delete_all_schedules";
    assert ConfirmDeleteAllMenu(Schedules)[0][0].data == "confirm_delete_all_schedules";
    ReachDeleteAllSchedules();
    ReachConfirmDeleteAllSchedules();
  }

  /** The question before a check run starts it with or without proxies. */
  lemma CheckMenuRoutes()
    ensures RouteChecks(CheckMenu()[0][0].data) == Some((WithProxy, ""))
    ensures RouteChecks(CheckMenu()[0][1].data) == Some((WithoutProxy, ""))
  {
    ReachWithProxy();
    ReachWithoutProxy();
  }

  /**
   Every cancel button (of the delete-all keyboard and of each confirmation)
   is answered by the link chain alone, whichever kind it was shown for.
   */
  lemma CancelRoutes(t: DeleteKind)
    ensures DeleteAllKeyboard(t)[0][1].data == "cancel" && ConfirmDeleteAllMenu(t)[0][1].data == "cancel"
    ensures RouteLinks("cancel") == Some((CancelAction, ""))
    ensures RouteProxies("cancel") == None
    ensures RouteSchedules("cancel") == None
    ensures RouteChecks("cancel") == None
  {
    ReachCancelAction();
    ProxyIgnoresCancel();
    ScheduleIgnoresCancel();
    CheckIgnoresCancel();
  }
}

=== FILE: check_run.dfy ===
/**
 The check run, as started by the minute tick (`Scheduler.runCheck`) and by
 the check command (`CheckCommands.runCheck`). A run walks the user's links
 in store order; for each it takes a proxy (or none), probes the page,
 stores one result and, every fifth link and at the last, edits a progress
 message; at the end it edits the message into the list of outcomes.

 Each runner holds its own map of users with a run in progress. A run is a
 check-and-set of that flag, the body, and a `finally` that clears it; the
 steps of one run are atomic with respect to each other, so a run that
 starts while another of the same runner is in progress (its flag set) is
 the overlap the guard drops. Messages are events appended to a trace. The
 page each probe sees and the exceptions the body meets are inputs.
 */
module CheckRun {
  import opened Types
  import opened Text
  import opened Repository
  import opened Rotation
  import opened Probe
  import opened Keyboard
  import opened Callbacks

  datatype Event = Send(chatId: string, text: string)
                 | Ask(chatId: string, text: string, buttons: Markup)
                 | Edit(chatId: string, text: string)

  /** The store, the in-progress flags of the two runners, and the messages sent so far. */
  datatype World = World(store: Store, schedulerRunning: set<string>, commandRunning: set<string>,
                         trace: seq<Event>)

  /** The tick's runner, which always asks for a proxy, or the command's, which asks when told to. */
  datatype Runner = Scheduled | Command(useProxy: bool)

  predicate WantsProxy(runner: Runner) {
    runner.Scheduled? || runner.useProxy
  }

  function Guard(w: World, runner: Runner): set<string> {
    if runner.Scheduled? then w.schedulerRunning else w.commandRunning
  }

  function WithGuard(w: World, runner: Runner, g: set<string>): (r: World)
    ensures Guard(r, runner) == g
  {
    if runner.Scheduled? then w.(schedulerRunning := g) else w.(commandRunning := g)
  }

  /**
   Where the body throws, if it does:
   - `LoadFault`: while loading the user or the links; `upserted` when the
     user was already found or created and it is the links query that threw;
   - `StageFault(at)`: before link `at`'s proxy lookup when `at` is below the
     number of links, at the final edit when it equals it;
   - `ProbeFault(at)`: in link `at`'s pass after its proxy was taken (and the
     no-proxy warning sent), while launching the browser or storing the
     result, so that no result of that link is stored.
   */
  datatype Fault = NoFault | LoadFault(upserted: bool, msg: string) | StageFault(at: nat, msg: string)
                 | ProbeFault(at: nat, msg: string)

  /** The fault stops the loop at link `at`, before `n` links are done. */
  predicate CutsLoop(fault: Fault, n: nat) {
    (fault.StageFault? || fault.ProbeFault?) && fault.at < n
  }

  /** The fault replaces the final edit with the error message. */
  predicate Interrupts(fault: Fault, n: nat) {
    (fault.StageFault? && fault.at <= n) || (fault.ProbeFault? && fault.at < n)
  }

  /** The inputs of a run: null placement of `lastUsed`, what each probe's page shows, and the fault. */
  datatype Env = Env(nullsFirst: bool, page: (nat, AppLink, Option<Proxy>) -> PageOutcome, fault: Fault)

  // ------------------------------------------------------------------ messages

  const NoLinksText: string := "⚠️ У вас нет добавленных ссылок для проверки."
  const NoProxyText: string := "⚠️ Нет доступных прокси. Проверка будет выполнена без прокси."
  const AlreadyRunningText: string := "⚠️ Проверка уже выполняется. Пожалуйста, дождитесь ее завершения."
  const FinalHeader: string := "✅ Проверка завершена!\n\n"

  function StartText(n: nat, runner: Runner): string {
    "🔄 Запускаю проверку " + NatToString(n) + " приложений"
    + (if runner == Command(true) then " с использованием прокси" else "") + "..."
  }

  function ProgressText(done: nat, n: nat): string {
    "🔄 Проверка: " + NatToString(done) + "/" + NatToString(n) + " приложений..."
  }

  function ErrorText(msg: string): string {
    "❌ Ошибка при выполнении проверки: " + msg
  }

  /** The progress message is edited after the `done`-th completion iff it is a multiple of five or the last. */
  predicate ShowsProgress(done: nat, n: nat) {
    done % 5 == 0 || done == n
  }

  // ------------------------------------------------------------------ the link loop

  /** One pass of the loop: the probe's record, whether the no-proxy warning went out, whether progress was shown. */
  datatype Step = Step(check: AppCheck, warned: bool, progress: bool)

  function ProxyIdOf(p: Option<Proxy>): Option<string> {
    if p.Some? then Some(p.value.id) else None
  }

  /** The stored result `c` records the probe's record `a`. */
  predicate RecordOf(c: CheckResult, a: AppCheck) {
    && c.appLinkId == a.appLink.id
    && c.isAvailable == a.isAvailable
    && c.proxyId == ProxyIdOf(a.proxy)
    && c.errorMessage == a.errorMessage
  }

  /** `after` is `before` with one result per step appended, in step order. */
  ghost predicate Records(before: seq<CheckResult>, after: seq<CheckResult>, steps: seq<Step>) {
    && |after| == |before| + |steps|
    && after[..|before|] == before
    && forall j :: 0 <= j < |steps| ==> RecordOf(after[|before| + j], steps[j].check)
  }

  lemma RecordsCons(a: seq<CheckResult>, b: seq<CheckResult>, c: seq<CheckResult>, s: Step, rest: seq<Step>)
    requires Records(a, b, [s]) && Records(b, c, rest)
    ensures Records(a, c, [s] + rest)
  {
    var steps := [s] + rest;
    assert c[..|a|] == c[..|b|][..|a|];
    forall j | 0 <= j < |steps|
      ensures RecordOf(c[|a| + j], steps[j].check)
    {
      if j == 0 {
        assert c[|a|] == c[..|b|][|a|] == b[|a|];
      } else {
        assert steps[j] == rest[j - 1];
      }
    }
  }

  /** The number of links the loop gets through: all of them, unless a fault stops it at an earlier one. */
  function StopAt(fault: Fault, n: nat): (m: nat)
    ensures m <= n
    ensures m < n <==> (fault.StageFault? || fault.ProbeFault?) && fault.at < n
    ensures m < n ==> m == fault.at
  {
    if CutsLoop(fault, n) then fault.at else n
  }

  /** Step `s` is the pass over link `i`: its probe, its warning and its progress edit as the source decides them. */
  predicate StepFits(runner: Runner, links: seq<AppLink>, i: nat, s: Step)
    requires i < |links|
  {
    && s.check.appLink == links[i]
    && (s.progress <==> ShowsProgress(i + 1, |links|))
    && (s.warned <==> runner == Command(true) && s.check.proxy.None?)
    && (!WantsProxy(runner) ==> s.check.proxy.None?)
  }

  /** `steps` are the passes over links `k`, `k + 1`, ... */
  ghost predicate StepsFit(runner: Runner, links: seq<AppLink>, k: nat, steps: seq<Step>) {
    && k + |steps| <= |links|
    && forall j :: 0 <= j < |steps| ==> StepFits(runner, links, k + j, steps[j])
  }

  lemma StepsFitCons(runner: Runner, links: seq<AppLink>, k: nat, s: Step, rest: seq<Step>)
    requires k < |links| && StepFits(runner, links, k, s) && StepsFit(runner, links, k + 1, rest)
    ensures StepsFit(runner, links, k, [s] + rest)
  {
    var steps := [s] + rest;
    forall j | 0 <= j < |steps|
      ensures StepFits(runner, links, k + j, steps[j])
    {
      if j > 0 {
        assert steps[j] == rest[j - 1];
      }
    }
  }

  /** What a loop leaves alone: users, links and schedules; and the clock stays ahead. */
  ghost predicate Keeps(st: Store, st1: Store) {
    && st1.users == st.users && st1.links == st.links && st1.schedules == st.schedules
    && (ClockAhead(st) ==> ClockAhead(st1))
  }

  /** The proxy of one loop pass: the next in rotation when the runner uses proxies, else none. */
  function StepProxy(env: Env, runner: Runner, userId: string, st: Store): (r: (Option<Proxy>, Store))
    ensures !WantsProxy(runner) ==> r == (None, st)
    ensures r.1.users == st.users && r.1.links == st.links
    ensures r.1.schedules == st.schedules && r.1.results == st.results
    ensures ClockAhead(st) ==> ClockAhead(r.1)
  {
    if WantsProxy(runner) then NextProxy(st, userId, env.nullsFirst) else (None, st)
  }

  /** One loop pass: the proxy (or none), the probe, and the stored result. */
  function LinkStep(env: Env, runner: Runner, userId: string, links: seq<AppLink>, k: nat, st: Store): (r: (Step, Store))
    requires k < |links|
    ensures StepFits(runner, links, k, r.0)
    ensures !WantsProxy(runner) ==> r.1.proxies == st.proxies
    ensures Records(st.results, r.1.results, [r.0])
    ensures Keeps(st, r.1)
  {
    var (proxy, st1) := StepProxy(env, runner, userId, st);
    var check := CheckApp(links[k], proxy, env.page(k, links[k], proxy)).0;
    var st2 := AddCheckResult(st1, links[k].id, check.isAvailable, ProxyIdOf(proxy), check.errorMessage);
    assert st2.results[..|st.results|] == st.results;
    (Step(check, runner == Command(true) && proxy.None?, ShowsProgress(k + 1, |links|)), st2)
  }

  datatype LoopOut = LoopOut(store: Store, steps: seq<Step>)

  /** The loop over the links from the `k`-th on, until the end or the stage where a fault stops it. */
  function RunLinks(env: Env, runner: Runner, userId: string, links: seq<AppLink>, k: nat, st: Store): (r: LoopOut)
    requires k <= StopAt(env.fault, |links|)
    ensures |r.steps| == StopAt(env.fault, |links|) - k
    ensures StepsFit(runner, links, k, r.steps)
    ensures !WantsProxy(runner) ==> r.store.proxies == st.proxies
    ensures Records(st.results, r.store.results, r.steps)
    ensures Keeps(st, r.store)
    decreases |links| - k
  {
    if k == StopAt(env.fault, |links|) then
      LoopOut(st, [])
    else
      var (step, st1) := LinkStep(env, runner, userId, links, k, st);
      var rest := RunLinks(env, runner, userId, links, k + 1, st1);
      RecordsCons(st.results, st1.results, rest.store.results, step, rest.steps);
      StepsFitCons(runner, links, k, step, rest.steps);
      LoopOut(rest.store, [step] + rest.steps)
  }

  /** The messages of the loop passes from the `done`-th completion on. */
  function StepsEvents(chatId: string, n: nat, done: nat, steps: seq<Step>): seq<Event>
    decreases |steps|
  {
    if steps == [] then []
    else
      (if steps[0].warned then [Send(chatId, NoProxyText)] else [])
      + (if steps[0].progress then [Edit(chatId, ProgressText(done + 1, n))] else [])
      + StepsEvents(chatId, n, done + 1, steps[1..])
  }

  // ------------------------------------------------------------------ the final message

  /** The line of the final message for one probe. */
  function ResultLine(a: AppCheck): string {
    if a.isAvailable then "✅ " + a.appLink.packageName + " — Доступно"
    else "❌ " + a.appLink.packageName + " — " + OrElse(a.errorMessage, Unavailable)
  }

  function ResultLines(steps: seq<Step>): (r: seq<string>)
    ensures |r| == |steps|
  {
    seq(|steps|, j requires 0 <= j < |steps| => ResultLine(steps[j].check))
  }

  function FinalText(steps: seq<Step>): string {
    FinalHeader + Join(ResultLines(steps), '\n')
  }

  // ------------------------------------------------------------------ the run

  /** The user (found or created from the bare telegram id) and that user's links, newest first. */
  function UserLinks(st: Store, telegramId: string): (r: (User, Store, seq<AppLink>)) {
    var (user, st1) := GetOrCreateUser(st, telegramId, NoProfile);
    (user, st1, GetUserAppLinks(st1, user.id))
  }

  /** What the run sends after the loop: the final edit, or the error message when a fault stopped it. */
  function Closing(telegramId: string, fault: Fault, n: nat, steps: seq<Step>): Event {
    if Interrupts(fault, n) then Send(telegramId, ErrorText(fault.msg))
    else Edit(telegramId, FinalText(steps))
  }

  /**
   The pass a probe fault cuts short: its proxy is taken (and stamped) and
   the no-proxy warning goes out as in a full pass, but no result is stored
   and no progress is shown.
   */
  function CutPass(env: Env, runner: Runner, telegramId: string, userId: string, n: nat, st: Store): (r: (Store, seq<Event>))
    ensures !(env.fault.ProbeFault? && env.fault.at < n) ==> r == (st, [])
    ensures env.fault.ProbeFault? && env.fault.at < n && WantsProxy(runner) ==>
              r.0 == NextProxy(st, userId, env.nullsFirst).1
    ensures r.1 == [] || r.1 == [Send(telegramId, NoProxyText)]
    ensures r.1 != [] ==> runner == Command(true)
    ensures !WantsProxy(runner) ==> r.0.proxies == st.proxies
    ensures r.0.results == st.results && Keeps(st, r.0)
  {
    if env.fault.ProbeFault? && env.fault.at < n then
      var (proxy, st1) := StepProxy(env, runner, userId, st);
      (st1, if runner == Command(true) && proxy.None? then [Send(telegramId, NoProxyText)] else [])
    else (st, [])
  }

  function Last(events: seq<Event>): Event
    requires events != []
  {
    events[|events| - 1]
  }

  /**
   The messages of a run over `n` links: the start message, those of the
   passes, those of a pass a fault cut short, and the closing one.
   */
  function RunEvents(telegramId: string, runner: Runner, fault: Fault, n: nat, steps: seq<Step>, cut: seq<Event>): seq<Event> {
    [Send(telegramId, StartText(n, runner))] + StepsEvents(telegramId, n, 0, steps) + cut
    + [Closing(telegramId, fault, n, steps)]
  }

  /** The body of a run, between setting and clearing the flag; it does not look at the flags. */
  function RunBody(env: Env, runner: Runner, w: World, telegramId: string): (r: (World, seq<Step>))
    ensures r.0.schedulerRunning == w.schedulerRunning && r.0.commandRunning == w.commandRunning
    ensures |r.0.trace| > |w.trace| && r.0.trace[..|w.trace|] == w.trace
  {
    if env.fault.LoadFault? then
      var st := if env.fault.upserted then GetOrCreateUser(w.store, telegramId, NoProfile).1 else w.store;
      (w.(store := st, trace := w.trace + [Send(telegramId, ErrorText(env.fault.msg))]), [])
    else
      var (user, st, links) := UserLinks(w.store, telegramId);
      if links == [] then
        (w.(store := st, trace := w.trace + [Send(telegramId, NoLinksText)]), [])
      else
        var out := RunLinks(env, runner, user.id, links, 0, st);
        var (st2, cut) := CutPass(env, runner, telegramId, user.id, |links|, out.store);
        var events := RunEvents(telegramId, runner, env.fault, |links|, out.steps, cut);
        assert (w.trace + events)[..|w.trace|] == w.trace;
        (w.(store := st2, trace := w.trace + events), out.steps)
  }

  /**
   `runCheck`: when the runner's flag for this user is already set, nothing
   happens; otherwise the flag is set, the body runs, and the flag is
   cleared whatever the body did.
   */
  function RunCheck(env: Env, runner: Runner, w: World, telegramId: string): (r: (World, seq<Step>))
    ensures telegramId in Guard(w, runner) ==> r == (w, [])
    ensures r.0.schedulerRunning == w.schedulerRunning && r.0.commandRunning == w.commandRunning
    ensures |r.0.trace| >= |w.trace| && r.0.trace[..|w.trace|] == w.trace
    ensures r.0.trace == w.trace <==> telegramId in Guard(w, runner)
  {
    if telegramId in Guard(w, runner) then (w, [])
    else
      var begun := WithGuard(w, runner, Guard(w, runner) + {telegramId});
      var (done, steps) := RunBody(env, runner, begun, telegramId);
      (WithGuard(done, runner, Guard(w, runner)), steps)
  }

  // ------------------------------------------------------------------ facts about a run

  /** A run that got past the guard and loaded a non-empty list of links, spelled out. */
  lemma RunCheckUnfold(env: Env, runner: Runner, w: World, telegramId: string)
    requires telegramId !in Guard(w, runner) && !env.fault.LoadFault?
    requires UserLinks(w.store, telegramId).2 != []
    ensures var (user, st, links) := UserLinks(w.store, telegramId);
            var out := RunLinks(env, runner, user.id, links, 0, st);
            var cut := CutPass(env, runner, telegramId, user.id, |links|, out.store);
            var r := RunCheck(env, runner, w, telegramId);
            && r.1 == out.steps
            && r.0.store == cut.0
            && r.0.trace == w.trace + RunEvents(telegramId, runner, env.fault, |links|, out.steps, cut.1)
  {
    var begun := WithGuard(w, runner, Guard(w, runner) + {telegramId});
    assert begun.store == w.store && begun.trace == w.trace;
    RunBodyUnfold(env, runner, begun, telegramId);
  }

  lemma RunBodyUnfold(env: Env, runner: Runner, w: World, telegramId: string)
    requires !env.fault.LoadFault? && UserLinks(w.store, telegramId).2 != []
    ensures var u := UserLinks(w.store, telegramId);
            var out := RunLinks(env, runner, u.0.id, u.2, 0, u.1);
            var cut := CutPass(env, runner, telegramId, u.0.id, |u.2|, out.store);
            var r := RunBody(env, runner, w, telegramId);
            && r.1 == out.steps
            && r.0.store == cut.0
            && r.0.trace == w.trace + RunEvents(telegramId, runner, env.fault, |u.2|, out.steps, cut.1)
            && r.0.trace != [] && Last(r.0.trace) == Closing(telegramId, env.fault, |u.2|, out.steps)
  {
  }

  /**
   An exception while loading the user or the links: the error message and
   nothing else; the user stays created when only the links query threw.
   */
  lemma RunCheckLoadFault(env: Env, runner: Runner, w: World, telegramId: string)
    requires telegramId !in Guard(w, runner) && env.fault.LoadFault?
    ensures var r := RunCheck(env, runner, w, telegramId);
            && r.0.store == (if env.fault.upserted then UserLinks(w.store, telegramId).1 else w.store)
            && r.1 == []
            && r.0.trace == w.trace + [Send(telegramId, ErrorText(env.fault.msg))]
  {
  }

  /** A user without links gets exactly one message, and no result is stored. */
  lemma RunCheckNoLinks(env: Env, runner: Runner, w: World, telegramId: string)
    requires telegramId !in Guard(w, runner) && !env.fault.LoadFault?
    requires UserLinks(w.store, telegramId).2 == []
    ensures var r := RunCheck(env, runner, w, telegramId);
            && r.1 == []
            && r.0.store.results == w.store.results
            && r.0.trace == w.trace + [Send(telegramId, NoLinksText)]
  {
  }

  /**
   A run over `n` links stores one result per link it got to, in the order
   of the links, each recording that link's probe; without a fault it gets
   to all of them.
   */
  lemma RunCheckStoresResults(env: Env, runner: Runner, w: World, telegramId: string)
    requires telegramId !in Guard(w, runner) && !env.fault.LoadFault?
    ensures var (_, _, links) := UserLinks(w.store, telegramId);
            var r := RunCheck(env, runner, w, telegramId);
            && |r.1| == StopAt(env.fault, |links|)
            && (env.fault.NoFault? ==> |r.1| == |links|)
            && |r.0.store.results| == |w.store.results| + |r.1|
            && r.0.store.results[..|w.store.results|] == w.store.results
            && forall j :: 0 <= j < |r.1| ==>
                 && r.1[j].check.appLink == links[j]
                 && RecordOf(r.0.store.results[|w.store.results| + j], r.1[j].check)
  {
    var (user, st, links) := UserLinks(w.store, telegramId);
    if links != [] {
      RunCheckUnfold(env, runner, w, telegramId);
      var out := RunLinks(env, runner, user.id, links, 0, st);
      assert st.results == w.store.results;
      forall j | 0 <= j < |out.steps|
        ensures out.steps[j].check.appLink == links[j]
      {
        assert StepFits(runner, links, 0 + j, out.steps[j]);
      }
    }
  }

  /** Without a proxy requested, no probe uses one and no proxy's `lastUsed` is stamped. */
  lemma RunCheckWithoutProxy(env: Env, w: World, telegramId: string)
    requires telegramId !in w.commandRunning && !env.fault.LoadFault?
    ensures var r := RunCheck(env, Command(false), w, telegramId);
            && r.0.store.proxies == w.store.proxies
            && forall j :: 0 <= j < |r.1| ==> r.1[j].check.proxy.None? && !r.1[j].warned
  {
    var (user, st, links) := UserLinks(w.store, telegramId);
    if links != [] {
      RunCheckUnfold(env, Command(false), w, telegramId);
      var out := RunLinks(env, Command(false), user.id, links, 0, st);
      forall j | 0 <= j < |out.steps|
        ensures out.steps[j].check.proxy.None? && !out.steps[j].warned
      {
        assert StepFits(Command(false), links, 0 + j, out.steps[j]);
      }
    }
  }

  /**
   The no-proxy warning goes out for a link exactly when the command asked
   for proxies and none was available for it; the tick never warns.
   */
  lemma RunCheckWarnings(env: Env, runner: Runner, w: World, telegramId: string)
    requires telegramId !in Guard(w, runner) && !env.fault.LoadFault?
    ensures var r := RunCheck(env, runner, w, telegramId);
            forall j :: 0 <= j < |r.1| ==>
              (r.1[j].warned <==> runner == Command(true) && r.1[j].check.proxy.None?)
  {
    var (user, st, links) := UserLinks(w.store, telegramId);
    if links != [] {
      RunCheckUnfold(env, runner, w, telegramId);
      LoopWarnings(env, runner, user.id, links, st);
    }
  }

  /** Each pass of the loop warns exactly when a command asked for proxies and got none. */
  lemma LoopWarnings(env: Env, runner: Runner, userId: string, links: seq<AppLink>, st: Store)
    ensures var out := RunLinks(env, runner, userId, links, 0, st);
            forall j :: 0 <= j < |out.steps| ==>
              (out.steps[j].warned <==> runner == Command(true) && out.steps[j].check.proxy.None?)
  {
    var out := RunLinks(env, runner, userId, links, 0, st);
    forall j | 0 <= j < |out.steps|
      ensures out.steps[j].warned <==> runner == Command(true) && out.steps[j].check.proxy.None?
    {
      assert StepFits(runner, links, 0 + j, out.steps[j]);
    }
  }

  // ------------------------------------------------------------------ progress cadence

  /** The number of edits among `events`. */
  function EditCount(events: seq<Event>): nat {
    if events == [] then 0 else (if events[0].Edit? then 1 else 0) + EditCount(events[1..])
  }

  lemma {:induction false} EditCountConcat(a: seq<Event>, b: seq<Event>)
    ensures EditCount(a + b) == EditCount(a) + EditCount(b)
    decreases |a|
  {
    if a == [] {
      assert a + b == b;
    } else {
      assert (a + b)[1..] == a[1..] + b;
      EditCountConcat(a[1..], b);
    }
  }

  /** How many of the completions `k + 1`, ..., `n` show progress, counted one by one. */
  function Cadence(k: nat, n: nat): nat
    decreases n - k
  {
    if k >= n then 0 else (if ShowsProgress(k + 1, n) then 1 else 0) + Cadence(k + 1, n)
  }

  /** The completions after the `k`-th that show progress: the multiples of five, and the last if it is not one. */
  lemma {:induction false} CadenceCount(k: nat, n: nat)
    requires k <= n
    ensures Cadence(k, n) == n / 5 - k / 5 + (if k < n && n % 5 != 0 then 1 else 0)
    decreases n - k
  {
    if k < n {
      CadenceCount(k + 1, n);
      assert (k + 1) / 5 - k / 5 == (if (k + 1) % 5 == 0 then 1 else 0);
      if k + 1 == n && n % 5 != 0 {
        assert n / 5 == k / 5;
      }
    }
  }

  /** The passes from completion `done` on edit the progress message as often as `Cadence` counts. */
  lemma {:induction false} StepsEventsEdits(chatId: string, runner: Runner, links: seq<AppLink>, done: nat, steps: seq<Step>)
    requires StepsFit(runner, links, done, steps) && done + |steps| == |links|
    ensures EditCount(StepsEvents(chatId, |links|, done, steps)) == Cadence(done, |links|)
    decreases |steps|
  {
    if steps != [] {
      var n := |links|;
      var warn: seq<Event> := if steps[0].warned then [Send(chatId, NoProxyText)] else [];
      var prog: seq<Event> := if steps[0].progress then [Edit(chatId, ProgressText(done + 1, n))] else [];
      var rest := StepsEvents(chatId, n, done + 1, steps[1..]);
      assert StepFits(runner, links, done + 0, steps[0]);
      forall j | 0 <= j < |steps[1..]|
        ensures StepFits(runner, links, done + 1 + j, steps[1..][j])
      {
        assert StepFits(runner, links, done + (j + 1), steps[j + 1]);
      }
      StepsEventsEdits(chatId, runner, links, done + 1, steps[1..]);
      EditCountConcat(warn + prog, rest);
      EditCountConcat(warn, prog);
    }
  }

  /**
   A run over `n` links without a fault edits its status message `n / 5`
   times, and once more when `n` is not a multiple of five, before it
   closes.
   */
  lemma RunCheckProgress(env: Env, runner: Runner, w: World, telegramId: string)
    requires telegramId !in Guard(w, runner) && env.fault.NoFault?
    requires UserLinks(w.store, telegramId).2 != []
    ensures var n := |UserLinks(w.store, telegramId).2|;
            var r := RunCheck(env, runner, w, telegramId);
            EditCount(r.0.trace[|w.trace|..]) == n / 5 + (if n % 5 != 0 then 1 else 0) + 1
  {
    var u := UserLinks(w.store, telegramId);
    RunCheckUnfold(env, runner, w, telegramId);
    var out := RunLinks(env, runner, u.0.id, u.2, 0, u.1);
    var events := RunEvents(telegramId, runner, env.fault, |u.2|, out.steps, []);
    AfterPrefix(w.trace, events);
    RunEventsEdits(telegramId, runner, u.2, out.steps);
  }

  lemma RunEventsEdits(telegramId: string, runner: Runner, links: seq<AppLink>, steps: seq<Step>)
    requires StepsFit(runner, links, 0, steps) && |steps| == |links|
    ensures var n := |links|;
            EditCount(RunEvents(telegramId, runner, NoFault, n, steps, [])) == n / 5 + (if n % 5 != 0 then 1 else 0) + 1
  {
    var n := |links|;
    var start := [Send(telegramId, StartText(n, runner))];
    var middle := StepsEvents(telegramId, n, 0, steps);
    var close := [Closing(telegramId, NoFault, n, steps)];
    StepsEventsEdits(telegramId, runner, links, 0, steps);
    CadenceCount(0, n);
    assert start + middle + [] == start + middle;
    EditCountConcat(start + middle, close);
    EditCountConcat(start, middle);
  }

  /**
   The last message of a run: the final edit with the outcomes when nothing
   threw, the error message when a fault came at or before the final edit,
   including one in the middle of a pass.
   */
  lemma RunCheckClosing(env: Env, runner: Runner, w: World, telegramId: string)
    requires telegramId !in Guard(w, runner) && !env.fault.LoadFault?
    requires UserLinks(w.store, telegramId).2 != []
    ensures var n := |UserLinks(w.store, telegramId).2|;
            var r := RunCheck(env, runner, w, telegramId);
            && (env.fault.NoFault? ==> Last(r.0.trace) == Edit(telegramId, FinalText(r.1)))
            && (env.fault.StageFault? && env.fault.at <= n ==>
                  Last(r.0.trace) == Send(telegramId, ErrorText(env.fault.msg)))
            && (env.fault.ProbeFault? && env.fault.at < n ==>
                  Last(r.0.trace) == Send(telegramId, ErrorText(env.fault.msg)))
  {
    RunCheckUnfold(env, runner, w, telegramId);
  }

  /**
   A fault in the middle of link `at`'s pass: the results of the links
   before it are stored, that link's proxy is taken and stamped all the
   same, and the run ends with the error message.
   */
  lemma RunCheckProbeFault(env: Env, runner: Runner, w: World, telegramId: string)
    requires telegramId !in Guard(w, runner) && env.fault.ProbeFault? && WantsProxy(runner)
    requires env.fault.at < |UserLinks(w.store, telegramId).2|
    ensures var (user, st, links) := UserLinks(w.store, telegramId);
            var out := RunLinks(env, runner, user.id, links, 0, st);
            var r := RunCheck(env, runner, w, telegramId);
            && |r.1| == env.fault.at
            && |r.0.store.results| == |w.store.results| + env.fault.at
            && r.0.store == NextProxy(out.store, user.id, env.nullsFirst).1
            && Last(r.0.trace) == Send(telegramId, ErrorText(env.fault.msg))
  {
    RunCheckUnfold(env, runner, w, telegramId);
  }

  /**
   The final message is the header and one line per probe, in link order,
   joined by newlines: when no line has a newline of its own, splitting the
   text after the header on newlines gives the lines back.
   */
  lemma FinalTextLines(steps: seq<Step>)
    requires steps != []
    requires forall j :: 0 <= j < |steps| ==> '\n' !in ResultLines(steps)[j]
    ensures StartsWith(FinalText(steps), FinalHeader)
    ensures Split(FinalText(steps)[|FinalHeader|..], '\n') == ResultLines(steps)
  {
    var lines := ResultLines(steps);
    SplitJoin(lines, '\n');
    StartsWithConcat(FinalHeader, Join(lines, '\n'));
  }

  lemma AfterPrefix(a: seq<Event>, b: seq<Event>)
    ensures (a + b)[|a|..] == b
  {
  }

  // ------------------------------------------------------------------ the command's entry points

  function FoundText(n: nat): string {
    "Найдено " + NatToString(n) + " ссылок для проверки. Использовать прокси?"
  }

  /**
   `handleStartCheck`: refuses while the command's own run is in progress
   for this chat; otherwise records the profile, and either says there is
   nothing to check or asks whether to use proxies. It never stores a
   result and never sets a flag.
   */
  function HandleStartCheck(w: World, chatId: string, profile: Profile): (r: World)
    ensures |r.trace| == |w.trace| + 1 && r.trace[..|w.trace|] == w.trace
    ensures r.schedulerRunning == w.schedulerRunning && r.commandRunning == w.commandRunning
    ensures r.store.links == w.store.links && r.store.proxies == w.store.proxies
    ensures r.store.schedules == w.store.schedules && r.store.results == w.store.results
    ensures chatId in w.commandRunning ==> r.store == w.store && Last(r.trace) == Send(chatId, AlreadyRunningText)
    ensures Last(r.trace).Ask? <==>
              chatId !in w.commandRunning && GetUserAppLinks(r.store, GetOrCreateUser(w.store, chatId, profile).0.id) != []
    ensures Last(r.trace).Ask? ==> Last(r.trace).buttons == CheckMenu()
  {
    if chatId in w.commandRunning then
      w.(trace := w.trace + [Send(chatId, AlreadyRunningText)])
    else
      var (user, st) := GetOrCreateUser(w.store, chatId, profile);
      var links := GetUserAppLinks(st, user.id);
      var reply := if links == [] then Send(chatId, NoLinksText) else Ask(chatId, FoundText(|links|), CheckMenu());
      w.(store := st, trace := w.trace + [reply])
  }

  /** The command's callback handler: the two answers to the question start a run, anything else is ignored. */
  function HandleCheckCallback(env: Env, w: World, chatId: string, data: string): (r: (World, seq<Step>))
    ensures RouteChecks(data) == None ==> r == (w, [])
  {
    match RouteChecks(data)
    case Some((WithProxy, _)) => RunCheck(env, Command(true), w, chatId)
    case Some((WithoutProxy, _)) => RunCheck(env, Command(false), w, chatId)
    case None => (w, [])
  }

  /** The question's two buttons start the command's run with and without proxies. */
  lemma CheckMenuStartsRun(env: Env, w: World, chatId: string)
    ensures HandleCheckCallback(env, w, chatId, CheckMenu()[0][0].data) == RunCheck(env, Command(true), w, chatId)
    ensures HandleCheckCallback(env, w, chatId, CheckMenu()[0][1].data) == RunCheck(env, Command(false), w, chatId)
  {
    CheckMenuRoutes();
  }

  /**
   The two runners keep separate flags: a run of the tick is not stopped by
   a command run in progress for the same user, nor the other way round.
   */
  lemma RunnersIndependent(env: Env, w: World, telegramId: string, useProxy: bool)
    ensures telegramId !in w.schedulerRunning ==> RunCheck(env, Scheduled, w, telegramId).0.trace != w.trace
    ensures telegramId !in w.commandRunning ==> RunCheck(env, Command(useProxy), w, telegramId).0.trace != w.trace
  {
  }
}

=== FILE: jobs.dfy ===
/**
 `SchedulerService`: a list of cron jobs, one per (user, time) it was asked
 to schedule, kept beside the store's schedules; and its own sweep over a
 user's links, which probes each with the Google Play checker and saves the
 results. The cron library's validator is a parameter; a job is only its
 (user, time) pair, since its timer is not modelled.
 */
module Jobs {
  import opened Types
  import opened Text
  import opened Seqs
  import opened Repository
  import opened Rotation
  import opened Probe
  import opened CheckRun

  datatype Job = Job(userId: string, timeString: string)

  // ------------------------------------------------------------------ cron expressions

  /**
   `scheduleJob`'s cron expression: the time is split on `:`, and the pieces
   are printed minutes first; a missing minutes piece prints as `undefined`.
   */
  function CronExpression(timeString: string): string {
    var parts := Split(timeString, ':');
    var minutes := if |parts| >= 2 then parts[1] else "undefined";
    minutes + " " + parts[0] + " * * *"
  }

  /** `HH:MM` becomes `MM HH * * *`: minute field, hour field, then every day, month and weekday. */
  lemma CronOfTime(hours: string, minutes: string)
    requires ':' !in hours && ':' !in minutes
    ensures CronExpression(hours + ":" + minutes) == minutes + " " + hours + " * * *"
  {
    assert Join([hours, minutes], ':') == hours + ":" + minutes;
    SplitJoin([hours, minutes], ':');
  }

  /** The five fields of the expression for `HH:MM`, read back by splitting on spaces. */
  lemma CronFields(hours: string, minutes: string)
    requires ':' !in hours && ':' !in minutes && ' ' !in hours && ' ' !in minutes
    ensures Split(CronExpression(hours + ":" + minutes), ' ') == [minutes, hours, "*", "*", "*"]
  {
    CronOfTime(hours, minutes);
    var fields := [minutes, hours, "*", "*", "*"];
    assert Join(["*"], ' ') == "*";
    assert Join(["*", "*"], ' ') == "* *";
    assert Join(["*", "*", "*"], ' ') == "* * *";
    assert Join([hours, "*", "*", "*"], ' ') == hours + " * * *";
    assert Join(fields, ' ') == minutes + " " + hours + " * * *";
    SplitJoin(fields, ' ');
  }

  // ------------------------------------------------------------------ the job list

  /** `scheduleJob`: appends the job when the validator accepts its expression, and says whether it did. */
  function ScheduleJob(jobs: seq<Job>, userId: string, timeString: string, valid: string -> bool): (r: (bool, seq<Job>))
    ensures r.0 <==> valid(CronExpression(timeString))
    ensures r.0 ==> r.1 == jobs + [Job(userId, timeString)]
    ensures !r.0 ==> r.1 == jobs
  {
    if !valid(CronExpression(timeString)) then (false, jobs)
    else (true, jobs + [Job(userId, timeString)])
  }

  predicate OtherUser(userId: string, j: Job) {
    j.userId != userId
  }

  /** `removeUserJobs`: drops every job of the user, keeps the rest in order, and counts what it dropped. */
  function RemoveUserJobs(jobs: seq<Job>, userId: string): (r: (nat, seq<Job>))
    ensures r.0 + |r.1| == |jobs|
    ensures r.1 == Filter(jobs, (j: Job) => OtherUser(userId, j))
    ensures r.0 == |jobs| - Count(jobs, (j: Job) => OtherUser(userId, j))
  {
    if jobs == [] then (0, [])
    else
      var (count, rest) := RemoveUserJobs(jobs[1..], userId);
      if jobs[0].userId == userId then (count + 1, rest) else (count, [jobs[0]] + rest)
  }

  /** Removing a user's jobs after scheduling one for them leaves what removing them before would have. */
  lemma RemoveUndoesSchedule(jobs: seq<Job>, userId: string, timeString: string, valid: string -> bool)
    ensures RemoveUserJobs(ScheduleJob(jobs, userId, timeString, valid).1, userId).1 == RemoveUserJobs(jobs, userId).1
  {
    var p := (j: Job) => OtherUser(userId, j);
    FilterConcat(jobs, [Job(userId, timeString)], p);
  }

  // ------------------------------------------------------------------ updateSchedule

  /** The test `/^\d{1,2}:\d{2}$/`: one or two digits, a colon, two digits, and nothing else. */
  predicate TimeFormatOk(s: string) {
    || (|s| == 4 && IsDigit(s[0]) && s[1] == ':' && IsDigit(s[2]) && IsDigit(s[3]))
    || (|s| == 5 && IsDigit(s[0]) && IsDigit(s[1]) && s[2] == ':' && IsDigit(s[3]) && IsDigit(s[4]))
  }

  predicate At(s: CheckSchedule, userId: string, time: string) {
    s.userId == userId && s.time == time
  }

  /** `findFirst({userId, time})`: the first schedule of the user at that time, active or not, or -1. */
  function FindSchedule(schedules: seq<CheckSchedule>, userId: string, time: string): (i: int)
    ensures -1 <= i < |schedules|
    ensures i >= 0 ==> At(schedules[i], userId, time)
    ensures forall k :: 0 <= k < |schedules| && (i < 0 || k < i) ==> !At(schedules[k], userId, time)
    decreases |schedules|
  {
    if schedules == [] then -1
    else if At(schedules[0], userId, time) then 0
    else
      var i := FindSchedule(schedules[1..], userId, time);
      if i < 0 then -1 else i + 1
  }

  predicate SameTimeJob(userId: string, timeString: string, j: Job) {
    j == Job(userId, timeString)
  }

  /** The jobs for another user or another time. */
  function OtherJobs(jobs: seq<Job>, userId: string, timeString: string): seq<Job> {
    Filter(jobs, (j: Job) => !SameTimeJob(userId, timeString, j))
  }

  /** The number of jobs for exactly this user and time. */
  function JobsAt(jobs: seq<Job>, userId: string, timeString: string): nat {
    Count(jobs, (j: Job) => SameTimeJob(userId, timeString, j))
  }

  /**
   `updateSchedule`: a time that fails the format test changes nothing.
   Otherwise the user's first schedule at that time is reactivated (or left
   alone when active), or a new active one is created; then the jobs for
   that user and time are dropped and one is scheduled afresh. A throwing
   database call (`dbFails`) is caught: the answer is false and nothing
   changes.
   */
  function UpdateSchedule(st: Store, jobs: seq<Job>, userId: string, timeString: string, valid: string -> bool,
                          dbFails: bool): (r: (bool, Store, seq<Job>))
    ensures !TimeFormatOk(timeString) || dbFails ==> r == (false, st, jobs)
    ensures TimeFormatOk(timeString) && !dbFails ==> r.0 == valid(CronExpression(timeString))
    ensures TimeFormatOk(timeString) && !dbFails ==> HasActiveScheduleAt(r.1, userId, timeString)
    ensures r.1.users == st.users && r.1.links == st.links && r.1.proxies == st.proxies && r.1.results == st.results
    ensures |st.schedules| <= |r.1.schedules| <= |st.schedules| + 1
    ensures forall k :: |st.schedules| <= k < |r.1.schedules| ==> At(r.1.schedules[k], userId, timeString)
    ensures forall k :: 0 <= k < |st.schedules| && k != FindSchedule(st.schedules, userId, timeString) ==>
              r.1.schedules[k] == st.schedules[k]
    ensures forall k :: 0 <= k < |st.schedules| ==> r.1.schedules[k] == st.schedules[k] || r.1.schedules[k] == st.schedules[k].(isActive := true)
    ensures OtherJobs(r.2, userId, timeString) == OtherJobs(jobs, userId, timeString)
    ensures TimeFormatOk(timeString) && !dbFails ==> JobsAt(r.2, userId, timeString) == (if r.0 then 1 else 0)
  {
    if !TimeFormatOk(timeString) || dbFails then (false, st, jobs)
    else
      var i := FindSchedule(st.schedules, userId, timeString);
      var st1 := if i < 0 then AddCheckSchedule(st, userId, timeString)
                 else if st.schedules[i].isActive then st
                 else st.(schedules := st.schedules[i := st.schedules[i].(isActive := true)]);
      assert st1.schedules[if i < 0 then |st.schedules| else i].isActive;
      var kept := OtherJobs(jobs, userId, timeString);
      var (ok, jobs1) := ScheduleJob(kept, userId, timeString, valid);
      UpdateJobsFacts(jobs, userId, timeString, valid);
      (ok, st1, jobs1)
  }

  lemma UpdateJobsFacts(jobs: seq<Job>, userId: string, timeString: string, valid: string -> bool)
    ensures var out := ScheduleJob(OtherJobs(jobs, userId, timeString), userId, timeString, valid);
            && OtherJobs(out.1, userId, timeString) == OtherJobs(jobs, userId, timeString)
            && JobsAt(out.1, userId, timeString) == (if out.0 then 1 else 0)
  {
    var kept := OtherJobs(jobs, userId, timeString);
    var p := (j: Job) => !SameTimeJob(userId, timeString, j);
    var q := (j: Job) => SameTimeJob(userId, timeString, j);
    var job := Job(userId, timeString);
    FilterConcat(kept, [job], p);
    FilterConcat(kept, [job], q);
    FilterNone(kept, q);
    assert Filter([job], p) == [];
    assert Filter(kept, p) == kept by {
      FilterAll(kept, p);
    }
  }

  /** An update neither adds nor removes a schedule of another user or another time. */
  lemma UpdateScheduleSparesOthers(st: Store, jobs: seq<Job>, userId: string, timeString: string, valid: string -> bool,
                                   dbFails: bool, s: CheckSchedule)
    requires !At(s, userId, timeString)
    ensures s in UpdateSchedule(st, jobs, userId, timeString, valid, dbFails).1.schedules <==> s in st.schedules
  {
    var t := UpdateSchedule(st, jobs, userId, timeString, valid, dbFails).1.schedules;
    var i := FindSchedule(st.schedules, userId, timeString);
    if s in st.schedules {
      var k :| 0 <= k < |st.schedules| && st.schedules[k] == s;
      assert k != i;
      assert t[k] == s;
    }
    if s in t {
      var k :| 0 <= k < |t| && t[k] == s;
      assert k < |st.schedules|;
      assert 0 <= i ==> At(t[i], userId, timeString);
      assert t[k] == st.schedules[k];
    }
  }

  /** Repeating the same update changes nothing more: the store, the jobs and the answer stay as the first call left them. */
  lemma UpdateScheduleIdempotent(st: Store, jobs: seq<Job>, userId: string, timeString: string, valid: string -> bool,
                                 dbFails: bool)
    ensures var r := UpdateSchedule(st, jobs, userId, timeString, valid, dbFails);
            UpdateSchedule(r.1, r.2, userId, timeString, valid, dbFails) == r
  {
    var r := UpdateSchedule(st, jobs, userId, timeString, valid, dbFails);
    if TimeFormatOk(timeString) && !dbFails {
      SecondFindHitsActive(st, userId, timeString);
      var again := UpdateSchedule(r.1, r.2, userId, timeString, valid, dbFails);
      assert again.1 == r.1;
      if r.0 {
        assert r.2 == OtherJobs(jobs, userId, timeString) + [Job(userId, timeString)];
        assert again.2 == OtherJobs(r.2, userId, timeString) + [Job(userId, timeString)];
      } else {
        assert r.2 == OtherJobs(jobs, userId, timeString);
        UpdateJobsFacts(jobs, userId, timeString, valid);
        assert again.2 == OtherJobs(r.2, userId, timeString);
        OtherJobsTwice(jobs, userId, timeString);
      }
    }
  }

  /** After an update, the first schedule at that time is active, so a second update leaves the store alone. */
  lemma SecondFindHitsActive(st: Store, userId: string, timeString: string)
    requires TimeFormatOk(timeString)
    ensures var st1 := UpdateSchedule(st, [], userId, timeString, (e: string) => false, false).1;
            var i := FindSchedule(st1.schedules, userId, timeString);
            i >= 0 && st1.schedules[i].isActive
  {
    var st1 := UpdateSchedule(st, [], userId, timeString, (e: string) => false, false).1;
    var i := FindSchedule(st.schedules, userId, timeString);
    var j := FindSchedule(st1.schedules, userId, timeString);
    if i < 0 {
      assert At(st1.schedules[|st.schedules|], userId, timeString);
      assert j == |st.schedules| by {
        forall k | 0 <= k < |st.schedules|
          ensures !At(st1.schedules[k], userId, timeString)
        {
          assert st1.schedules[k] == st.schedules[k];
        }
      }
    } else {
      assert At(st1.schedules[i], userId, timeString);
      assert j == i by {
        forall k | 0 <= k < i
          ensures !At(st1.schedules[k], userId, timeString)
        {
          assert st1.schedules[k] == st.schedules[k];
        }
      }
    }
  }

  lemma OtherJobsTwice(jobs: seq<Job>, userId: string, timeString: string)
    ensures OtherJobs(OtherJobs(jobs, userId, timeString), userId, timeString) == OtherJobs(jobs, userId, timeString)
  {
    var kept := OtherJobs(jobs, userId, timeString);
    FilterAll(kept, (j: Job) => !SameTimeJob(userId, timeString, j));
  }

  /**
   When the user had at most one schedule at that time, after an update
   there is exactly one, and it is active.
   */
  lemma UpdateScheduleSingleRow(st: Store, jobs: seq<Job>, userId: string, timeString: string, valid: string -> bool)
    requires TimeFormatOk(timeString)
    requires forall a, b :: 0 <= a < b < |st.schedules| ==>
               !(At(st.schedules[a], userId, timeString) && At(st.schedules[b], userId, timeString))
    ensures var s := UpdateSchedule(st, jobs, userId, timeString, valid, false).1.schedules;
            exists k :: 0 <= k < |s| && At(s[k], userId, timeString) && s[k].isActive
                        && forall j :: 0 <= j < |s| && At(s[j], userId, timeString) ==> j == k
  {
    var s := UpdateSchedule(st, jobs, userId, timeString, valid, false).1.schedules;
    var i := FindSchedule(st.schedules, userId, timeString);
    var k := if i < 0 then |st.schedules| else i;
    assert At(s[k], userId, timeString) && s[k].isActive;
  }

  // ------------------------------------------------------------------ checkAllApps

  /**
   What the sweep meets at pass `k`: where never-used proxies sort, whether
   the browser is there, whether it opens a page, the page load, whether the
   proxy lookup fails, and whether saving the result throws.
   */
  datatype SweepEnv = SweepEnv(nullsFirst: bool, browserReady: nat -> bool, pageOpens: nat -> bool,
                               nav: (nat, AppLink, Option<string>) -> Navigation, proxyFails: nat -> bool,
                               saveFails: nat -> bool)

  /**
   Pass `k`, over `link`, throws: there is no browser, the page for a link
   with a package name does not open, or the result cannot be saved.
   */
  predicate PassThrows(env: SweepEnv, link: AppLink, k: nat) {
    || !env.browserReady(k)
    || (ExtractPackageName(link.url).Some? && !env.pageOpens(k))
    || env.saveFails(k)
  }

  /** `findMany` for the sweep: the user's links, limited to the given ids when there are some, in store order. */
  function SelectLinks(st: Store, userId: string, ids: Option<seq<string>>): (r: seq<AppLink>)
    ensures forall l :: l in r <==> l in st.links && l.userId == userId && (ids.None? || l.id in ids.value)
  {
    Filter(st.links, (l: AppLink) => l.userId == userId && (ids.None? || l.id in ids.value))
  }

  /**
   The saved result `c` is the one pass `k` makes for link `l`: it names the
   link, and its verdict and message are the probe's for the page that pass
   `k` loads through the proxy `c` records.
   */
  predicate SavedFor(env: SweepEnv, c: CheckResult, l: AppLink, k: nat) {
    && c.appLinkId == l.id
    && var v := CheckAppAvailability(l.url, true, true, env.nav(k, l, c.proxyId));
       v.Some? && c.isAvailable == v.value.isAvailable && c.errorMessage == v.value.errorMessage
  }

  /** The index of the first pass from `k` on that throws, or the number of links when none does. */
  function FirstThrow(env: SweepEnv, links: seq<AppLink>, k: nat): (n: nat)
    requires k <= |links|
    ensures k <= n <= |links|
    decreases |links| - k
  {
    if k == |links| then k
    else if PassThrows(env, links[k], k) then k
    else FirstThrow(env, links, k + 1)
  }

  /** No pass before `FirstThrow` throws, and the pass at it, when there is one, does. */
  lemma {:induction false} FirstThrowSpec(env: SweepEnv, links: seq<AppLink>, k: nat)
    requires k <= |links|
    ensures forall j :: k <= j < FirstThrow(env, links, k) ==> !PassThrows(env, links[j], j)
    ensures FirstThrow(env, links, k) < |links| ==> PassThrows(env, links[FirstThrow(env, links, k)], FirstThrow(env, links, k))
    decreases |links| - k
  {
    if k < |links| && !PassThrows(env, links[k], k) {
      FirstThrowSpec(env, links, k + 1);
    }
  }

  /** One pass of the sweep: the saved result and the store after it, or None when the pass throws. */
  function SweepStep(env: SweepEnv, userId: string, link: AppLink, k: nat, st: Store): (r: (Option<CheckResult>, Store))
    ensures r.0.None? <==> PassThrows(env, link, k)
    ensures r.0.None? ==> r.1.results == st.results
    ensures r.0.Some? ==> r.1.results == st.results + [r.0.value] && SavedFor(env, r.0.value, link, k)
    ensures r.0.Some? ==> r.0.value.proxyId == ProxyIdOf(ServiceNextProxy(st, userId, env.nullsFirst, env.proxyFails(k)).0)
    ensures r.1.users == st.users && r.1.links == st.links && r.1.schedules == st.schedules
  {
    var (proxy, st1, probed) := ProbePass(env, userId, link, k, st);
    match probed
    case None => (None, st1)
    case Some(res) =>
      if env.saveFails(k) then (None, st1)
      else
        var st2 := AddCheckResult(st1, link.id, res.isAvailable, ProxyIdOf(proxy), res.errorMessage);
        var saved := st2.results[|st1.results|];
        assert st2.results == st1.results + [saved];
        (Some(saved), st2)
  }

  /** The proxy lookup and the probe of pass `k`, before anything is saved: the probe's result, or None when it throws. */
  function ProbePass(env: SweepEnv, userId: string, link: AppLink, k: nat, st: Store): (r: (Option<Proxy>, Store, Option<PlayResult>))
    ensures r.2.None? <==> !env.browserReady(k) || (ExtractPackageName(link.url).Some? && !env.pageOpens(k))
    ensures r.2.Some? ==> (r.2.value.isAvailable <==> r.2.value.errorMessage.None?)
    ensures r.1.results == st.results && r.1.users == st.users && r.1.links == st.links && r.1.schedules == st.schedules
  {
    var (proxy, st1) := ServiceNextProxy(st, userId, env.nullsFirst, env.proxyFails(k));
    (proxy, st1, CheckAppAvailability(link.url, env.browserReady(k), env.pageOpens(k), env.nav(k, link, ProxyIdOf(proxy))))
  }

  /** `saved` are the results for links `k`, `k + 1`, ... */
  ghost predicate SavedFrom(env: SweepEnv, saved: seq<CheckResult>, links: seq<AppLink>, k: nat) {
    && k + |saved| <= |links|
    && forall j :: 0 <= j < |saved| ==> SavedFor(env, saved[j], links[k + j], k + j)
  }

  lemma SavedFromCons(env: SweepEnv, c: CheckResult, rest: seq<CheckResult>, links: seq<AppLink>, k: nat)
    requires k < |links| && SavedFor(env, c, links[k], k) && SavedFrom(env, rest, links, k + 1)
    ensures SavedFrom(env, [c] + rest, links, k) && k + |[c] + rest| == k + 1 + |rest|
  {
    var saved := [c] + rest;
    forall j | 0 <= j < |saved|
      ensures SavedFor(env, saved[j], links[k + j], k + j)
    {
      if j > 0 {
        assert saved[j] == rest[j - 1];
      }
    }
  }

  /** Saving `x` and then `rest` saves `[x] + rest`. */
  lemma AppendAssoc<T>(a: seq<T>, b: seq<T>, c: seq<T>, x: T, rest: seq<T>)
    requires b == a + [x] && c == b + rest
    ensures c == a + ([x] + rest)
  {
  }

  /**
   The sweep from the `k`-th link on. Each pass takes a proxy, probes the
   link and saves a result. It returns the results saved and whether every
   pass was made: the first pass that throws ends the sweep, and the passes
   before it stay saved.
   */
  function Sweep(env: SweepEnv, userId: string, links: seq<AppLink>, k: nat, st: Store): (r: (Store, seq<CheckResult>, bool))
    requires k <= |links|
    ensures r.0.results == st.results + r.1
    ensures SavedFrom(env, r.1, links, k)
    ensures k + |r.1| == FirstThrow(env, links, k)
    ensures r.2 <==> FirstThrow(env, links, k) == |links|
    ensures r.0.users == st.users && r.0.links == st.links && r.0.schedules == st.schedules
    decreases |links| - k
  {
    if k == |links| then (st, [], true)
    else
      var step := SweepStep(env, userId, links[k], k, st);
      if step.0.None? then (step.1, [], false)
      else
        var next := Sweep(env, userId, links, k + 1, step.1);
        SavedFromCons(env, step.0.value, next.1, links, k);
        AppendAssoc(st.results, step.1.results, next.0.results, step.0.value, next.1);
        (next.0, [step.0.value] + next.1, next.2)
  }

  /**
   `checkAllApps`: one saved result per selected link, in the order of the
   selection. Any exception yields no results: a failing query saves
   nothing, and a pass that throws leaves the passes before it saved.
   */
  function CheckAllApps(env: SweepEnv, st: Store, userId: string, ids: Option<seq<string>>, queryFails: bool)
    : (r: (Store, seq<CheckResult>))
    ensures queryFails ==> r == (st, [])
    ensures !queryFails ==>
              var links := SelectLinks(st, userId, ids);
              && |st.results| <= |r.0.results|
              && var saved := r.0.results[|st.results|..];
              && SavedFrom(env, saved, links, 0)
              && (forall j :: 0 <= j < |saved| ==> !PassThrows(env, links[j], j))
              && (|saved| < |links| ==> PassThrows(env, links[|saved|], |saved|))
              && r.1 == (if |saved| == |links| then saved else [])
  {
    if queryFails then (st, [])
    else
      var links := SelectLinks(st, userId, ids);
      var (st1, saved, done) := Sweep(env, userId, links, 0, st);
      FirstThrowSpec(env, links, 0);
      assert st1.results[|st.results|..] == saved;
      (st1, if done then saved else [])
  }

  // ------------------------------------------------------------------ formatSingleResult

  /** `findUnique({id})`: the link with this id, if there is one. */
  function LinkById(links: seq<AppLink>, id: string): (r: Option<AppLink>)
    ensures r.Some? ==> r.value in links && r.value.id == id
    ensures r.None? ==> forall l :: l in links ==> l.id != id
  {
    if links == [] then None
    else if links[0].id == id then Some(links[0])
    else LinkById(links[1..], id)
  }

  const UnknownApp: string := "❓ Неизвестное приложение"
  const FormatFailed: string := "⚠️ Ошибка при форматировании результата"

  /** `formatSingleResult`: the icon, the package name and the status; fallbacks for a missing link and a failing lookup. */
  function FormatSingleResult(st: Store, result: CheckResult, lookupFails: bool): (r: string)
    ensures lookupFails ==> r == FormatFailed
    ensures !lookupFails && LinkById(st.links, result.appLinkId).None? ==> r == UnknownApp
  {
    if lookupFails then FormatFailed
    else match LinkById(st.links, result.appLinkId)
      case None => UnknownApp
      case Some(link) =>
        var icon := if result.isAvailable then "✅" else "❌";
        var status := if result.isAvailable then "Доступно" else OrElse(result.errorMessage, Unavailable);
        icon + " " + link.packageName + " — " + status
  }

  /** For a result whose link is found, the line is the one the check runs put in their final message. */
  lemma FormatSingleResultAsRunLine(st: Store, result: CheckResult, proxy: Option<Proxy>, appName: Option<string>)
    requires LinkById(st.links, result.appLinkId).Some?
    ensures var link := LinkById(st.links, result.appLinkId).value;
            FormatSingleResult(st, result, false)
              == ResultLine(AppCheck(link, proxy, result.isAvailable, result.errorMessage, appName))
  {
  }
}

=== FILE: keyboard.dfy ===
/**
 Inline keyboards and the callback data they carry. A keyboard is a list of
 rows of buttons. The lemmas at the end are the facts about literal keys
 that the callback chains need: when data built from one key passes or
 misses the `startsWith` and `===` tests on another.
 */
module Keyboard {
  import opened Types
  import opened Text

  datatype Button = Button(text: string, data: string)

  type Markup = seq<seq<Button>>

  /** `getLinksKeyboard`: one row per link, labelled with its package name. */
  function LinksKeyboard(links: seq<AppLink>): (r: Markup)
    ensures |r| == |links|
    ensures forall k :: 0 <= k < |r| ==> r[k] == [Button(links[k].packageName, "link_" + links[k].id)]
  {
    if links == [] then []
    else [[Button(links[0].packageName, "link_" + links[0].id)]] + LinksKeyboard(links[1..])
  }

  /** `getProxiesKeyboard`: one row per proxy, labelled `ip:port`. */
  function ProxiesKeyboard(proxies: seq<Proxy>): (r: Markup)
    ensures |r| == |proxies|
    ensures forall k :: 0 <= k < |r| ==>
              r[k] == [Button(proxies[k].ipAddress + ":" + proxies[k].port, "proxy_" + proxies[k].id)]
  {
    if proxies == [] then []
    else [[Button(proxies[0].ipAddress + ":" + proxies[0].port, "proxy_" + proxies[0].id)]] + ProxiesKeyboard(proxies[1..])
  }

  /** `getSchedulesKeyboard`: one row per schedule, labelled with its time. */
  function SchedulesKeyboard(schedules: seq<CheckSchedule>): (r: Markup)
    ensures |r| == |schedules|
    ensures forall k :: 0 <= k < |r| ==> r[k] == [Button(schedules[k].time, "schedule_" + schedules[k].id)]
  {
    if schedules == [] then []
    else [[Button(schedules[0].time, "schedule_" + schedules[0].id)]] + SchedulesKeyboard(schedules[1..])
  }

  /** `getYesNoKeyboard(prefix, id)`: one row, yes then no. */
  function YesNoKeyboard(prefix: string, id: string): Markup {
    [[Button("✅ Да", prefix + "_yes_" + id), Button("❌ Нет", prefix + "_no_" + id)]]
  }

  /** The one button of `getCancelKeyboard`; the dialogs read this text as "cancel". */
  const CancelText: string := "🔙 Отмена"

  datatype DeleteKind = Links | Proxies | Schedules

  function DeleteKindName(t: DeleteKind): string {
    match t
    case Links => "links"
    case Proxies => "proxies"
    case Schedules => "schedules"
  }

  /** `getDeleteAllKeyboard(type)`: one row, delete-all then cancel. */
  function DeleteAllKeyboard(t: DeleteKind): Markup {
    [[Button("🗑️ Удалить все", "delete_all_" + DeleteKindName(t)), Button("🔙 Отмена", "cancel")]]
  }

  // ------------------------------------------------------------------ prefix tests

  /** Data that begins with `p` misses `startsWith(q)` and `=== q` when `p` and `q` differ at `i`. */
  lemma MissesAt(p: string, q: string, x: string, i: nat)
    requires i < |p| && i < |q| && p[i] != q[i]
    ensures !StartsWith(p + x, q) && p + x != q
  {
    assert (p + x)[i] == p[i];
  }

  /** A key that differs from `q` at `i` misses `startsWith(q)` and `=== q`. */
  lemma DiffersAt(p: string, q: string, i: nat)
    requires i < |p| && i < |q| && p[i] != q[i]
    ensures !StartsWith(p, q) && p != q
  {
  }

  /** Data that begins with `p` is too long to equal a shorter `q`. */
  lemma LongerThan(p: string, q: string, x: string)
    requires |q| < |p|
    ensures p + x != q
  {
  }

  /** Below a common prefix `p`, the test `startsWith(p + r)` is the test `startsWith(r)` on the rest. */
  lemma ShiftPrefix(p: string, r: string, x: string)
    ensures StartsWith(p + x, p + r) <==> StartsWith(x, r)
  {
    if StartsWith(x, r) {
      assert (p + x)[..|p + r|] == p + x[..|r|];
    }
    if StartsWith(p + x, p + r) {
      assert x[..|r|] == (p + x)[..|p + r|][|p|..];
    }
  }

  /** `p + x` passes the test `startsWith(p)`, and `replace(p, "")` gives back `x`. */
  lemma Hits(p: string, x: string)
    ensures StartsWith(p + x, p) && ReplaceFirst(p + x, p) == x
  {
    StartsWithConcat(p, x);
    StripPrefixRoundTrip(p, x);
  }

  /** Data that passes `startsWith(p)` is `p` followed by what `replace(p, "")` leaves. */
  lemma StripThenPrepend(data: string, p: string)
    requires StartsWith(data, p)
    ensures p + ReplaceFirst(data, p) == data
  {
    ReplaceFirstOfPrefix(data, p);
    assert data == data[..|p|] + data[|p|..];
  }
}

=== FILE: link_import.dfy ===
/**
 The older link import of the single-file command module: a message of
 Google Play links, one per line, is filtered, each kept line's package name
 is read, and a link is created for every package the user does not already
 have. The counters of the report always add up to the kept lines, and the
 store never gets two links of one user with the same package. Editing a
 link there replaces its URL and package by the link id alone.
 */
module LinkImport {
  import opened Types
  import opened Text
  import opened Seqs
  import opened Repository
  import opened Probe

  // ------------------------------------------------------------------ the kept lines

  /** `lines.map(line => line.trim())`. */
  function TrimAll(lines: seq<string>): (r: seq<string>)
    ensures |r| == |lines|
    ensures forall k :: 0 <= k < |r| ==> r[k] == Trim(lines[k])
    decreases |lines|
  {
    if lines == [] then [] else [Trim(lines[0])] + TrimAll(lines[1..])
  }

  /** The test of the `filter`: the line starts with `p`. */
  function Prefixed(p: string): string -> bool {
    (x: string) => StartsWith(x, p)
  }

  /**
   `text.split("\n").map(trim).filter(startsWith(prefix))` with the
   details-page prefix: the trimmed lines that start with it, in order.
   */
  function KeptLines(text: string): (r: seq<string>)
    ensures forall x :: x in r <==> x in TrimAll(Split(text, '\n')) && StartsWith(x, PlayPrefix)
  {
    Filter(TrimAll(Split(text, '\n')), Prefixed(PlayPrefix))
  }

  /**
   A message written as one trimmed line per link, each starting with `p`,
   gives back exactly those links under the same filter.
   */
  lemma KeptOfJoin(links: seq<string>, p: string)
    requires |links| >= 1
    requires forall k :: 0 <= k < |links| ==>
               StartsWith(links[k], p) && Trim(links[k]) == links[k] && '\n' !in links[k]
    ensures Filter(TrimAll(Split(Join(links, '\n'), '\n')), Prefixed(p)) == links
  {
    SplitJoin(links, '\n');
    assert TrimAll(links) == links;
    FilterAll(links, Prefixed(p));
  }

  // ------------------------------------------------------------------ importing

  datatype Verdict = AddedLine | ExistingLine | ErrorLine

  /** The user already has a link with this package name. */
  predicate HasPackage(st: Store, userId: string, pkg: string) {
    exists k :: 0 <= k < |st.links| && st.links[k].userId == userId && st.links[k].packageName == pkg
  }

  /** No user has two links with the same package name. */
  ghost predicate PackagesDistinct(st: Store) {
    forall i, j :: 0 <= i < j < |st.links| && st.links[i].userId == st.links[j].userId ==>
                     st.links[i].packageName != st.links[j].packageName
  }

  /** `r` is `st` with some links appended for `userId` and nothing else changed. */
  ghost predicate GrowsBy(st: Store, r: Store, userId: string, n: nat) {
    && |r.links| == |st.links| + n && r.links[..|st.links|] == st.links
    && (forall k :: |st.links| <= k < |r.links| ==> r.links[k].userId == userId)
    && r.users == st.users && r.proxies == st.proxies
    && r.schedules == st.schedules && r.results == st.results
  }

  /**
   One kept line: a line with no package name is an error; so is a line whose
   lookup or insert throws (`fails`). A package the user already has is
   counted as existing and not created; any other is created with the line
   as its URL.
   */
  function ImportLine(st: Store, userId: string, line: string, fails: bool): (r: (Store, Verdict))
    ensures r.1 == ErrorLine <==> LinkPackageName(line).None? || fails
    ensures r.1 == ExistingLine <==> LinkPackageName(line).Some? && !fails && HasPackage(st, userId, LinkPackageName(line).value)
    ensures r.1 != AddedLine ==> r.0 == st
    ensures r.1 == AddedLine ==> && GrowsBy(st, r.0, userId, 1)
                                 && r.0.links[|st.links|].url == line
                                 && r.0.links[|st.links|].packageName == LinkPackageName(line).value
    ensures LinkPackageName(line).Some? && !fails ==> HasPackage(r.0, userId, LinkPackageName(line).value)
    ensures PackagesDistinct(st) ==> PackagesDistinct(r.0)
  {
    match LinkPackageName(line)
    case None => (st, ErrorLine)
    case Some(pkg) =>
      if fails then (st, ErrorLine)
      else if HasPackage(st, userId, pkg) then (st, ExistingLine)
      else
        var st1 := AddAppLink(st, userId, line, pkg, None);
        assert HasPackage(st1, userId, pkg) by {
          assert st1.links[|st.links|].packageName == pkg;
        }
        assert PackagesDistinct(st) ==> PackagesDistinct(st1) by {
          if PackagesDistinct(st) {
            forall i, j | 0 <= i < j < |st1.links| && st1.links[i].userId == st1.links[j].userId
              ensures st1.links[i].packageName != st1.links[j].packageName
            {
              assert st1.links[i] == st.links[i];
              if j < |st.links| {
                assert st1.links[j] == st.links[j];
              }
            }
          }
        }
        (st1, AddedLine)
  }

  /** Links appended after the fact do not take away a package the user had. */
  lemma HasPackageGrows(st: Store, r: Store, userId: string, n: nat, v: string, pkg: string)
    requires GrowsBy(st, r, userId, n)
    requires HasPackage(st, v, pkg)
    ensures HasPackage(r, v, pkg)
  {
    var k :| 0 <= k < |st.links| && st.links[k].userId == v && st.links[k].packageName == pkg;
    assert r.links[k] == r.links[..|st.links|][k];
  }

  lemma GrowsByTrans(st: Store, st1: Store, r: Store, userId: string, a: nat, b: nat)
    requires GrowsBy(st, st1, userId, a) && GrowsBy(st1, r, userId, b)
    ensures GrowsBy(st, r, userId, a + b)
  {
    assert r.links[..|st.links|] == r.links[..|st1.links|][..|st.links|];
    forall k | |st.links| <= k < |r.links| ensures r.links[k].userId == userId {
      if k < |st1.links| {
        assert r.links[k] == r.links[..|st1.links|][k];
      }
    }
  }

  /**
   The loop of `processAddLinks` over the kept lines, counting added,
   existing and erroneous lines. Every line lands in exactly one counter;
   every line with a package name whose store calls succeed leaves the user
   with that package, including a repeat earlier in the same batch.
   */
  function ImportLines(st: Store, userId: string, lines: seq<string>, at: nat, fails: nat -> bool): (r: (Store, nat, nat, nat))
    ensures r.1 + r.2 + r.3 == |lines|
    ensures GrowsBy(st, r.0, userId, r.1)
    ensures forall k :: 0 <= k < |lines| && LinkPackageName(lines[k]).Some? && !fails(at + k) ==>
              HasPackage(r.0, userId, LinkPackageName(lines[k]).value)
    ensures PackagesDistinct(st) ==> PackagesDistinct(r.0)
    decreases |lines|
  {
    if lines == [] then (st, 0, 0, 0)
    else
      var (st1, v) := ImportLine(st, userId, lines[0], fails(at));
      var n1 := if v == AddedLine then 1 else 0;
      assert GrowsBy(st, st1, userId, n1);
      var (st2, a, e, x) := ImportLines(st1, userId, lines[1..], at + 1, fails);
      GrowsByTrans(st, st1, st2, userId, n1, a);
      forall k | 0 <= k < |lines| && LinkPackageName(lines[k]).Some? && !fails(at + k)
        ensures HasPackage(st2, userId, LinkPackageName(lines[k]).value)
      {
        if k == 0 {
          HasPackageGrows(st1, st2, userId, a, userId, LinkPackageName(lines[0]).value);
        } else {
          assert lines[1..][k - 1] == lines[k];
        }
      }
      match v
      case AddedLine => (st2, a + 1, e, x)
      case ExistingLine => (st2, a, e + 1, x)
      case ErrorLine => (st2, a, e, x + 1)
  }

  /** The same link sent twice, with working store calls, is created at most once and counted as existing at least once. */
  lemma RepeatCountsExisting(st: Store, userId: string, line: string, fails: nat -> bool)
    requires LinkPackageName(line).Some? && !fails(0) && !fails(1)
    ensures var r := ImportLines(st, userId, [line, line], 0, fails);
            r.1 <= 1 && r.2 >= 1 && r.3 == 0
  {
    var (st1, v) := ImportLine(st, userId, line, fails(0));
    assert [line, line][1..] == [line];
    assert [line][1..] == [];
    var (st2, v2) := ImportLine(st1, userId, line, fails(1));
    assert v2 == ExistingLine;
  }

  // ------------------------------------------------------------------ the two handlers

  datatype AddReply = NoUser | NoLinks | Report(added: nat, existing: nat, errors: nat)

  /** What a handler did: the new store, whether it cleared the chat's state, and its reply. */
  datatype AddOutcome = AddOutcome(store: Store, cleared: bool, reply: AddReply)

  /**
   `processAddLinks`: the sender must already be a user (this module looks
   users up and never creates them). A message with no kept line is refused
   and the state stays; otherwise every kept line is imported, the state is
   cleared and the three counters are reported.
   */
  function ProcessAddLinks(st: Store, telegramId: string, text: string, fails: nat -> bool): (r: AddOutcome)
    ensures FindUser(st.users, telegramId) < 0 ==> r == AddOutcome(st, false, NoUser)
    ensures FindUser(st.users, telegramId) >= 0 && KeptLines(text) == [] ==> r == AddOutcome(st, false, NoLinks)
    ensures r.cleared <==> r.reply.Report?
    ensures r.reply.Report? ==> && FindUser(st.users, telegramId) >= 0
                                && r.reply.added + r.reply.existing + r.reply.errors == |KeptLines(text)|
                                && GrowsBy(st, r.store, st.users[FindUser(st.users, telegramId)].id, r.reply.added)
    ensures PackagesDistinct(st) ==> PackagesDistinct(r.store)
  {
    var i := FindUser(st.users, telegramId);
    if i < 0 then AddOutcome(st, false, NoUser)
    else
      var lines := KeptLines(text);
      if lines == [] then AddOutcome(st, false, NoLinks)
      else
        var (st1, a, e, x) := ImportLines(st, st.users[i].id, lines, 0, fails);
        AddOutcome(st1, true, Report(a, e, x))
  }

  /** Each kept line with a package name and working store calls leaves the user with a link to that package. */
  lemma ProcessAddLinksCovers(st: Store, telegramId: string, text: string, fails: nat -> bool, k: nat)
    requires FindUser(st.users, telegramId) >= 0
    requires k < |KeptLines(text)| && LinkPackageName(KeptLines(text)[k]).Some? && !fails(k)
    ensures HasPackage(ProcessAddLinks(st, telegramId, text, fails).store,
                       st.users[FindUser(st.users, telegramId)].id, LinkPackageName(KeptLines(text)[k]).value)
  {
  }

  datatype EditReply = NoState | BadLink | NoPackage | EditFailed | Edited

  /**
   `processEditLink` for a state whose `editingLinkId` is `editing`. A state
   without a (truthy) link id is dropped. The text, untrimmed, must start
   with the details-page prefix and carry a package name; otherwise the
   state stays. The link is then looked up by its id alone, whoever owns it;
   a missing id makes the update throw, which is reported and keeps the
   state.
   */
  function ProcessEditLink(st: Store, editing: Option<string>, text: string): (r: (Store, bool, EditReply))
    ensures !Truthy(editing) ==> r == (st, true, NoState)
    ensures Truthy(editing) && !StartsWith(text, PlayPrefix) ==> r == (st, false, BadLink)
    ensures r.1 <==> r.2 in {NoState, Edited}
    ensures r.2 != Edited ==> r.0 == st
    ensures r.2 == Edited <==> && Truthy(editing) && StartsWith(text, PlayPrefix) && LinkPackageName(text).Some?
                               && exists k :: 0 <= k < |st.links| && st.links[k].id == editing.value
    ensures r.2 == Edited ==> |r.0.links| == |st.links| && forall k :: 0 <= k < |st.links| ==>
              r.0.links[k] == if st.links[k].id == editing.value
                              then st.links[k].(url := text, packageName := LinkPackageName(text).value)
                              else st.links[k]
    ensures r.0.users == st.users && r.0.proxies == st.proxies && r.0.schedules == st.schedules && r.0.results == st.results
  {
    if !Truthy(editing) then (st, true, NoState)
    else if !StartsWith(text, PlayPrefix) then (st, false, BadLink)
    else match LinkPackageName(text)
      case None => (st, false, NoPackage)
      case Some(pkg) =>
        if !exists k :: 0 <= k < |st.links| && st.links[k].id == editing.value then (st, false, EditFailed)
        else
          var links := UpdateWhere(st.links, (l: AppLink) => l.id == editing.value,
                                   (l: AppLink) => l.(url := text, packageName := pkg));
          (st.(links := links), true, Edited)
  }

  /** A well-formed Google Play link edits the link to that link's package name. */
  lemma EditWithPlayLink(st: Store, id: string, pkg: string, rest: string, k: nat)
    requires id != "" && k < |st.links| && st.links[k].id == id
    requires pkg != [] && '&' !in pkg && (rest == [] || rest[0] == '&')
    ensures var r := ProcessEditLink(st, Some(id), PlayPrefix + pkg + rest);
            r.2 == Edited && r.0.links[k].packageName == pkg && r.0.links[k].url == PlayPrefix + pkg + rest
  {
    var text := PlayPrefix + pkg + rest;
    assert StartsWith(text, PlayPrefix) by {
      StartsWithConcat(PlayPrefix, pkg + rest);
      assert text == PlayPrefix + (pkg + rest);
    }
    assert LinkPackageName(text) == Some(pkg) by {
      PackageOfPlayLink(pkg, rest);
    }
    assert Truthy(Some(id));
  }

  /**
   The prefix is the only gate: the bare prefix, with nothing after `id=`,
   passes it and is then refused for lack of a package name.
   */
  lemma BarePrefixHasNoPackage(st: Store, id: string)
    requires id != ""
    ensures ProcessEditLink(st, Some(id), PlayPrefix) == (st, false, NoPackage)
  {
    StartsWithConcat(PlayPrefix, "");
    assert PlayPrefix + "" == PlayPrefix;
    NoEarlyId("", "");
    assert PlayPrefix + "" + "" == PlayPrefix;
  }
}

=== FILE: link_rules.dfy ===
/**
 The link dialog of the app-link commands: adding links up to the per-user
 cap, editing one link with a newly sent one, and the callbacks that show,
 delete one or delete all of a user's links. As in the schedule dialog, each
 handler maps the store and the per-chat dialog map to the new store, the new
 dialog map and the reply it sends. The link parser is a parameter, and so is
 the failure of an individual insert, which the source catches and skips.
 */
module LinkRules {
  import opened Types
  import opened Seqs
  import opened Repository
  import opened Keyboard
  import opened Callbacks

  /** What the chat's next text message means: `add_links`, `delete_links`, or `edit_link` of one link. */
  datatype Dialog = AddingLinks | DeletingLinks | EditingLink(linkId: string)

  datatype Reply =
    | Ignored | Cancelled | AtCap | NoLinks | NothingParsed | Prompted | Shown
    | Added(added: nat, parsed: nat, limitNote: bool)
    | Updated | UpdateFailed | NotFound | Deleted | DeleteFailed
    | AllDeleted(count: nat) | DeleteAllFailed

  datatype Outcome = Outcome(store: Store, dialogs: map<string, Dialog>, reply: Reply)

  /** The number of the user's links. */
  function LinkCount(st: Store, userId: string): nat {
    Count(st.links, LinkOwner(userId))
  }

  /** The length of `getUserAppLinks` is the number of the user's links. */
  lemma ListedLinks(st: Store, userId: string)
    ensures |GetUserAppLinks(st, userId)| == LinkCount(st, userId)
  {
    var r := GetUserAppLinks(st, userId);
    assert |multiset(r)| == |r|;
  }

  /** No user has more than the maximum number of links. */
  ghost predicate WithinCap(st: Store) {
    forall u :: LinkCount(st, u) <= MaxLinksPerUser
  }

  // ------------------------------------------------------------------ commands

  /**
   The add-links command: a user who already has the maximum number of links
   is refused; anyone else is asked for links and the chat enters the add
   dialog.
   */
  function HandleAddLinks(st: Store, dialogs: map<string, Dialog>, chatId: string, profile: Profile): (r: Outcome)
    ensures var (u, st1) := GetOrCreateUser(st, chatId, profile);
            && r.store == st1
            && (r.reply == AtCap <==> LinkCount(st1, u.id) >= MaxLinksPerUser)
            && (r.reply == AtCap ==> r.dialogs == dialogs)
            && (r.reply != AtCap ==> r.reply == Prompted && r.dialogs == dialogs[chatId := AddingLinks])
  {
    var (u, st1) := GetOrCreateUser(st, chatId, profile);
    ListedLinks(st1, u.id);
    if |GetUserAppLinks(st1, u.id)| >= MaxLinksPerUser then Outcome(st1, dialogs, AtCap)
    else Outcome(st1, dialogs[chatId := AddingLinks], Prompted)
  }

  /**
   The delete-links command: a user without links is told so; anyone else is
   shown the deletion menu and the chat enters the delete dialog.
   */
  function HandleDeleteLinks(st: Store, dialogs: map<string, Dialog>, chatId: string, profile: Profile): (r: Outcome)
    ensures var (u, st1) := GetOrCreateUser(st, chatId, profile);
            && r.store == st1
            && (r.reply == NoLinks <==> LinkCount(st1, u.id) == 0)
            && (r.reply == NoLinks ==> r.dialogs == dialogs)
            && (r.reply != NoLinks ==> r.reply == Prompted && r.dialogs == dialogs[chatId := DeletingLinks])
  {
    var (u, st1) := GetOrCreateUser(st, chatId, profile);
    ListedLinks(st1, u.id);
    if |GetUserAppLinks(st1, u.id)| == 0 then Outcome(st1, dialogs, NoLinks)
    else Outcome(st1, dialogs[chatId := DeletingLinks], Prompted)
  }

  // ------------------------------------------------------------------ the batch insert

  /** The stored link a parsed one becomes when added for `userId`. */
  predicate StoredLink(l: AppLink, p: ParsedLink, userId: string) {
    l.userId == userId && l.url == p.url && l.packageName == p.packageName && l.appName.None?
  }

  /** `r` is `st` with the links `ps` appended for `userId` and nothing else changed. */
  ghost predicate AppendsLinks(st: Store, r: Store, userId: string, ps: seq<ParsedLink>) {
    && |r.links| == |st.links| + |ps| && r.links[..|st.links|] == st.links
    && (forall k :: 0 <= k < |ps| ==> StoredLink(r.links[|st.links| + k], ps[k], userId))
    && r.users == st.users && r.proxies == st.proxies
    && r.schedules == st.schedules && r.results == st.results
  }

  lemma AppendsLinksStep(st: Store, st1: Store, r: Store, userId: string, head: seq<ParsedLink>, ps: seq<ParsedLink>)
    requires |head| <= 1
    requires |head| == 1 ==> st1 == AddAppLink(st, userId, head[0].url, head[0].packageName, None)
    requires head == [] ==> st1 == st
    requires AppendsLinks(st1, r, userId, ps)
    ensures AppendsLinks(st, r, userId, head + ps)
  {
    if |head| == 1 {
      assert r.links[..|st.links|] == r.links[..|st1.links|][..|st.links|];
      forall k | 0 <= k < |head + ps| ensures StoredLink(r.links[|st.links| + k], (head + ps)[k], userId) {
        if k > 0 {
          assert (head + ps)[k] == ps[k - 1];
        } else {
          assert r.links[|st.links|] == r.links[..|st1.links|][|st.links|];
        }
      }
    } else {
      assert head + ps == ps;
    }
  }

  /** Appending links for one user adds their number to that user's count and nothing to anyone else's. */
  lemma AppendsLinksCount(st: Store, r: Store, userId: string, ps: seq<ParsedLink>, v: string)
    requires AppendsLinks(st, r, userId, ps)
    ensures LinkCount(r, v) == LinkCount(st, v) + if v == userId then |ps| else 0
  {
    var added := r.links[|st.links|..];
    assert r.links == st.links + added;
    FilterConcat(st.links, added, LinkOwner(v));
    forall x | x in added ensures x.userId == userId {
      var k :| 0 <= k < |added| && added[k] == x;
      assert StoredLink(r.links[|st.links| + k], ps[k], userId);
    }
    if v == userId {
      FilterAll(added, LinkOwner(v));
    } else {
      FilterNone(added, LinkOwner(v));
    }
  }

  /**
   The insert loop of the add dialog: each link is added for the user in
   turn; a failing insert is skipped and not counted.
   */
  function InsertEach(st: Store, userId: string, ps: seq<ParsedLink>, at: nat, fails: nat -> bool): (r: (Store, nat))
    ensures r.1 == |Succeeding(ps, at, fails)|
    ensures AppendsLinks(st, r.0, userId, Succeeding(ps, at, fails))
    decreases |ps|
  {
    if ps == [] then (st, 0)
    else
      var head := if fails(at) then [] else [ps[0]];
      var st1 := if fails(at) then st else AddAppLink(st, userId, ps[0].url, ps[0].packageName, None);
      var rest := InsertEach(st1, userId, ps[1..], at + 1, fails);
      AppendsLinksStep(st, st1, rest.0, userId, head, Succeeding(ps[1..], at + 1, fails));
      (rest.0, rest.1 + |head|)
  }

  // ------------------------------------------------------------------ typed links

  /**
   The links parsed from a message in the add dialog. Nothing parsed is
   reported before the user is even looked up. A user at the cap is refused;
   otherwise at most the free slots are taken, as a prefix of the parsed
   links, and inserted one by one. The reply counts the inserted ones against
   the parsed ones, with the limit note exactly when fewer were inserted.
   */
  function AddLinksInput(st: Store, chatId: string, parsed: seq<ParsedLink>, profile: Profile,
                         fails: nat -> bool): (r: (Store, Reply))
    ensures parsed == [] ==> r == (st, NothingParsed)
    ensures parsed != [] ==>
              var (u, st1) := GetOrCreateUser(st, chatId, profile);
              var n := LinkCount(st1, u.id);
              && (r.1 == AtCap <==> n >= MaxLinksPerUser)
              && (r.1 == AtCap ==> r.0 == st1)
              && (r.1 != AtCap ==> && r.1.Added? && r.1.parsed == |parsed|
                                    && var ins := Succeeding(Take(parsed, MaxLinksPerUser - n), 0, fails);
                                       && AppendsLinks(st1, r.0, u.id, ins)
                                       && r.1.added == |ins|
                                       && (r.1.limitNote <==> |parsed| > |ins|))
    ensures r.0.schedules == st.schedules && r.0.proxies == st.proxies && r.0.results == st.results
  {
    if parsed == [] then (st, NothingParsed)
    else
      var (u, st1) := GetOrCreateUser(st, chatId, profile);
      ListedLinks(st1, u.id);
      var slots := MaxLinksPerUser - |GetUserAppLinks(st1, u.id)|;
      if slots <= 0 then (st1, AtCap)
      else
        var (st2, added) := InsertEach(st1, u.id, Take(parsed, slots), 0, fails);
        (st2, Added(added, |parsed|, |parsed| > added))
  }

  /**
   Inserting never goes past the free slots or the parsed links, so the
   user's count grows by exactly the number reported and stays within the
   cap.
   */
  lemma AddLinksBounds(st: Store, chatId: string, parsed: seq<ParsedLink>, profile: Profile, fails: nat -> bool)
    ensures var (u, st1) := GetOrCreateUser(st, chatId, profile);
            var r := AddLinksInput(st, chatId, parsed, profile, fails);
            r.1.Added? ==> && r.1.added <= |parsed|
                           && r.1.added <= MaxLinksPerUser - LinkCount(st1, u.id)
                           && LinkCount(r.0, u.id) == LinkCount(st1, u.id) + r.1.added
                           && LinkCount(r.0, u.id) <= MaxLinksPerUser
  {
    var (u, st1) := GetOrCreateUser(st, chatId, profile);
    var r := AddLinksInput(st, chatId, parsed, profile, fails);
    if r.1.Added? {
      var ins := Succeeding(Take(parsed, MaxLinksPerUser - LinkCount(st1, u.id)), 0, fails);
      AppendsLinksCount(st1, r.0, u.id, ins, u.id);
    }
  }

  /** When every insert succeeds and the links fit, all of them are added and no limit note is shown. */
  lemma AddLinksAllFit(st: Store, chatId: string, parsed: seq<ParsedLink>, profile: Profile, fails: nat -> bool)
    requires parsed != []
    requires forall k :: 0 <= k < |parsed| ==> !fails(k)
    requires var (u, st1) := GetOrCreateUser(st, chatId, profile);
             LinkCount(st1, u.id) + |parsed| <= MaxLinksPerUser
    ensures AddLinksInput(st, chatId, parsed, profile, fails).1 == Added(|parsed|, |parsed|, false)
  {
    var (u, st1) := GetOrCreateUser(st, chatId, profile);
    assert Take(parsed, MaxLinksPerUser - LinkCount(st1, u.id)) == parsed;
  }

  /** An add keeps every user within the link cap. */
  lemma AddLinksKeeps(st: Store, chatId: string, parsed: seq<ParsedLink>, profile: Profile, fails: nat -> bool)
    requires WithinCap(st)
    ensures WithinCap(AddLinksInput(st, chatId, parsed, profile, fails).0)
  {
    var (u, st1) := GetOrCreateUser(st, chatId, profile);
    var r := AddLinksInput(st, chatId, parsed, profile, fails);
    forall v ensures LinkCount(r.0, v) <= MaxLinksPerUser {
      assert LinkCount(st1, v) == LinkCount(st, v);
      if r.1.Added? {
        var ins := Succeeding(Take(parsed, MaxLinksPerUser - LinkCount(st1, u.id)), 0, fails);
        AppendsLinksCount(st1, r.0, u.id, ins, v);
      }
    }
  }

  /**
   The link sent in an edit dialog. Only the first parsed link is used; with
   none parsed, nothing is updated. The update is scoped to the user, so an
   id that is not the user's fails and the store stays as it was.
   */
  function EditLinkInput(st: Store, chatId: string, linkId: string, parsed: seq<ParsedLink>, profile: Profile): (r: (Store, Reply))
    ensures var (u, st1) := GetOrCreateUser(st, chatId, profile);
            && (parsed == [] ==> r == (st1, NothingParsed))
            && (parsed != [] ==> (r.1 == Updated <==> OwnsLink(st1, u.id, linkId)))
            && (parsed != [] && r.1 != Updated ==> r == (st1, UpdateFailed))
            && (r.1 == Updated ==> |r.0.links| == |st1.links|)
            && (r.1 == Updated ==> forall k :: 0 <= k < |st1.links| ==>
                  r.0.links[k] == if LinkHit(st1.links[k], linkId, u.id)
                                  then st1.links[k].(url := parsed[0].url, packageName := parsed[0].packageName)
                                  else st1.links[k])
            && r.0.users == st1.users
    ensures r.0.schedules == st.schedules && r.0.proxies == st.proxies && r.0.results == st.results
  {
    var (u, st1) := GetOrCreateUser(st, chatId, profile);
    if parsed == [] then (st1, NothingParsed)
    else
      match UpdateAppLink(st1, linkId, u.id, parsed[0].url, parsed[0].packageName)
      case None => (st1, UpdateFailed)
      case Some(st2) => (st2, Updated)
  }

  /** An edit changes no user's number of links, so it keeps every user within the cap. */
  lemma EditLinkKeeps(st: Store, chatId: string, linkId: string, parsed: seq<ParsedLink>, profile: Profile)
    ensures forall v :: LinkCount(EditLinkInput(st, chatId, linkId, parsed, profile).0, v) == LinkCount(st, v)
  {
    var (u, st1) := GetOrCreateUser(st, chatId, profile);
    var r := EditLinkInput(st, chatId, linkId, parsed, profile);
    forall v ensures LinkCount(r.0, v) == LinkCount(st, v) {
      if r.1 == Updated {
        FilterSameVerdicts(r.0.links, st1.links, LinkOwner(v));
      }
    }
  }

  /**
   `handleUserInput` of the link commands: only text in a chat with an open
   dialog is read. The cancel text closes any dialog. In the add and the edit
   dialog the text goes to the parser; the dialog closes exactly when the
   step succeeds. Text in the delete dialog is ignored.
   */
  function LinkInput(st: Store, dialogs: map<string, Dialog>, chatId: string, text: Option<string>,
                     profile: Profile, parse: string -> seq<ParsedLink>, fails: nat -> bool): (r: Outcome)
    ensures !Truthy(text) || chatId !in dialogs ==> r == Outcome(st, dialogs, Ignored)
    ensures r.dialogs == dialogs || r.dialogs == dialogs - {chatId}
    ensures (chatId in dialogs && chatId !in r.dialogs) <==> (r.reply == Cancelled || r.reply.Added? || r.reply == Updated)
    ensures r.reply == Cancelled <==> text == Some(CancelText) && chatId in dialogs
    ensures chatId in dialogs && dialogs[chatId] == DeletingLinks && text != Some(CancelText) ==>
              r == Outcome(st, dialogs, Ignored)
    ensures r.reply == Ignored || r.reply == Cancelled ==> r.store == st
    ensures r.store.schedules == st.schedules && r.store.proxies == st.proxies && r.store.results == st.results
  {
    if !Truthy(text) || chatId !in dialogs then Outcome(st, dialogs, Ignored)
    else if text.value == CancelText then Outcome(st, dialogs - {chatId}, Cancelled)
    else
      match dialogs[chatId]
      case AddingLinks =>
        var (st2, reply) := AddLinksInput(st, chatId, parse(text.value), profile, fails);
        Outcome(st2, if reply.Added? then dialogs - {chatId} else dialogs, reply)
      case EditingLink(id) =>
        var (st2, reply) := EditLinkInput(st, chatId, id, parse(text.value), profile);
        Outcome(st2, if reply == Updated then dialogs - {chatId} else dialogs, reply)
      case DeletingLinks => Outcome(st, dialogs, Ignored)
  }

  /** Every typed message keeps every user within the link cap. */
  lemma LinkInputKeeps(st: Store, dialogs: map<string, Dialog>, chatId: string, text: Option<string>,
                       profile: Profile, parse: string -> seq<ParsedLink>, fails: nat -> bool)
    requires WithinCap(st)
    ensures WithinCap(LinkInput(st, dialogs, chatId, text, profile, parse, fails).store)
  {
    if Truthy(text) && chatId in dialogs && text.value != CancelText {
      match dialogs[chatId]
      case AddingLinks =>
        AddLinksKeeps(st, chatId, parse(text.value), profile, fails);
      case EditingLink(id) =>
        EditLinkKeeps(st, chatId, id, parse(text.value), profile);
      case DeletingLinks =>
    }
  }

  // ------------------------------------------------------------------ deleting

  /** No two links share an id. */
  ghost predicate IdsDistinct(st: Store) {
    forall i, j :: 0 <= i < j < |st.links| ==> st.links[i].id != st.links[j].id
  }

  /** One of `rows` has this id. */
  predicate ListedId(rows: seq<AppLink>, id: string) {
    exists k :: 0 <= k < |rows| && rows[k].id == id
  }

  /**
   The loop of `confirm_delete_all_links`: deletes each listed link by its id
   and the user's id, in order, stopping at the first delete that finds
   nothing. Only the user's links are ever removed; when every delete
   succeeds, exactly the listed ones are.
   */
  function DeleteEach(st: Store, userId: string, rows: seq<AppLink>): (r: (Store, bool))
    ensures forall l :: l in r.0.links ==> l in st.links
    ensures forall l :: l in st.links && l.userId != userId ==> l in r.0.links
    ensures r.1 ==> forall l :: l in r.0.links <==> l in st.links && !(l.userId == userId && ListedId(rows, l.id))
    ensures r.0.users == st.users && r.0.proxies == st.proxies && r.0.schedules == st.schedules && r.0.results == st.results
    decreases |rows|
  {
    if rows == [] then (st, true)
    else
      match DeleteAppLink(st, rows[0].id, userId)
      case None => (st, false)
      case Some(st1) =>
        var r := DeleteEach(st1, userId, rows[1..]);
        assert forall id :: ListedId(rows, id) <==> rows[0].id == id || ListedId(rows[1..], id) by {
          forall id | ListedId(rows, id) && rows[0].id != id ensures ListedId(rows[1..], id) {
            var k :| 0 <= k < |rows| && rows[k].id == id;
            assert rows[1..][k - 1].id == id;
          }
          forall id | ListedId(rows[1..], id) ensures ListedId(rows, id) {
            var k :| 0 <= k < |rows[1..]| && rows[1..][k].id == id;
            assert rows[k + 1].id == id;
          }
        }
        r
  }

  /** Deleting listed links of the user, each with a distinct id, always succeeds. */
  lemma {:induction false} DeleteEachSucceeds(st: Store, userId: string, rows: seq<AppLink>)
    requires forall i, j :: 0 <= i < j < |rows| ==> rows[i].id != rows[j].id
    requires forall k :: 0 <= k < |rows| ==> OwnsLink(st, userId, rows[k].id)
    ensures DeleteEach(st, userId, rows).1
    decreases |rows|
  {
    if rows != [] {
      assert OwnsLink(st, userId, rows[0].id);
      var st1 := DeleteAppLink(st, rows[0].id, userId).value;
      forall k | 0 <= k < |rows[1..]| ensures OwnsLink(st1, userId, rows[1..][k].id) {
        var j :| 0 <= j < |st.links| && st.links[j].userId == userId && st.links[j].id == rows[k + 1].id;
        assert st.links[j] in st1.links;
        var m :| 0 <= m < |st1.links| && st1.links[m] == st.links[j];
      }
      DeleteEachSucceeds(st1, userId, rows[1..]);
    }
  }

  /**
   `confirm_delete_all_links`, once the chat's user is known: every link of
   the user is deleted and the count reported. Other users' links are never
   touched, whether or not every delete succeeds.
   */
  function DeleteAll(st: Store, userId: string): (r: (Store, Reply))
    ensures r.1.AllDeleted? || r.1 == DeleteAllFailed
    ensures forall l :: l in r.0.links ==> l in st.links
    ensures forall l :: l in st.links && l.userId != userId ==> l in r.0.links
    ensures r.1.AllDeleted? ==> r.1.count == LinkCount(st, userId)
    ensures r.1.AllDeleted? ==> forall l :: l in r.0.links <==> l in st.links && l.userId != userId
    ensures r.0.users == st.users && r.0.proxies == st.proxies && r.0.schedules == st.schedules && r.0.results == st.results
  {
    var rows := GetUserAppLinks(st, userId);
    ListedLinks(st, userId);
    var (st2, ok) := DeleteEach(st, userId, rows);
    assert forall l :: l in st.links && l.userId == userId ==> ListedId(rows, l.id) by {
      forall l | l in st.links && l.userId == userId ensures ListedId(rows, l.id) {
        var k :| 0 <= k < |st.links| && st.links[k] == l;
        var j :| 0 <= j < |rows| && rows[j] == l;
      }
    }
    (st2, if ok then AllDeleted(|rows|) else DeleteAllFailed)
  }

  /** With unique ids, deleting all of a user's links succeeds and leaves them none. */
  lemma DeleteAllClears(st: Store, userId: string)
    requires IdsDistinct(st)
    ensures DeleteAll(st, userId).1.AllDeleted?
    ensures LinkCount(DeleteAll(st, userId).0, userId) == 0
  {
    var rows := GetUserAppLinks(st, userId);
    ListedDeletable(st, userId);
    DeleteEachSucceeds(st, userId, rows);
    var r := DeleteAll(st, userId);
    FilterNone(r.0.links, LinkOwner(userId));
  }

  /** The user's listed links are the user's own and carry distinct ids, when the store's ids are unique. */
  lemma ListedDeletable(st: Store, userId: string)
    requires IdsDistinct(st)
    ensures var rows := GetUserAppLinks(st, userId);
            && (forall i, j :: 0 <= i < j < |rows| ==> rows[i].id != rows[j].id)
            && (forall k :: 0 <= k < |rows| ==> OwnsLink(st, userId, rows[k].id))
  {
    var rows := GetUserAppLinks(st, userId);
    ListedDistinct(st, userId);
    forall i, j | 0 <= i < j < |rows| ensures rows[i].id != rows[j].id {
      var a :| 0 <= a < |st.links| && st.links[a] == rows[i];
      var b :| 0 <= b < |st.links| && st.links[b] == rows[j];
      assert a != b;
    }
    forall k | 0 <= k < |rows| ensures OwnsLink(st, userId, rows[k].id) {
      var a :| 0 <= a < |st.links| && st.links[a] == rows[k];
    }
  }

  /** Unique ids make the listed links distinct. */
  lemma ListedDistinct(st: Store, userId: string)
    requires IdsDistinct(st)
    ensures Distinct(GetUserAppLinks(st, userId))
  {
    assert Distinct(st.links);
    FilterDistinct(st.links, LinkOwner(userId));
    DistinctPermutation(Filter(st.links, LinkOwner(userId)), GetUserAppLinks(st, userId));
  }

  // ------------------------------------------------------------------ the callback handler

  /** `link_<id>`: the link is looked up among the user's own; an unknown id is reported. */
  function Select(st: Store, userId: string, linkId: string): (r: Reply)
    ensures r == NotFound <==> !OwnsLink(st, userId, linkId)
    ensures r != NotFound ==> r == Shown
  {
    var i := FindIndex(GetUserAppLinks(st, userId), (l: AppLink) => l.id == linkId);
    assert i >= 0 <==> OwnsLink(st, userId, linkId) by {
      if OwnsLink(st, userId, linkId) {
        var k :| 0 <= k < |st.links| && st.links[k].userId == userId && st.links[k].id == linkId;
        assert st.links[k] in GetUserAppLinks(st, userId);
      }
    }
    if i < 0 then NotFound else Shown
  }

  /** `delete_link_yes_<id>`, once the chat's user is known: only a link of the user's with that id is removed. */
  function DeleteOne(st: Store, userId: string, linkId: string): (r: (Store, Reply))
    ensures r.1 == Deleted <==> OwnsLink(st, userId, linkId)
    ensures r.1 != Deleted ==> r == (st, DeleteFailed)
    ensures r.1 == Deleted ==> forall l :: l in r.0.links <==> l in st.links && !LinkHit(l, linkId, userId)
    ensures r.0.users == st.users && r.0.proxies == st.proxies && r.0.schedules == st.schedules && r.0.results == st.results
  {
    match DeleteAppLink(st, linkId, userId)
    case None => (st, DeleteFailed)
    case Some(st2) => (st2, Deleted)
  }

  /**
   `handleCallbackQuery` of the link commands. Only the edit button opens a
   dialog, and the `cancel` button answers without closing one; only
   deleting one link and deleting all change links.
   */
  function LinkCallback(st: Store, dialogs: map<string, Dialog>, chatId: string, data: string): (r: Outcome)
    ensures RouteLinks(data).None? ==> r == Outcome(st, dialogs, Ignored)
    ensures RouteLinks(data).Some? && RouteLinks(data).value.0 == EditLink ==>
              r == Outcome(st, dialogs[chatId := EditingLink(RouteLinks(data).value.1)], Prompted)
    ensures RouteLinks(data).None? || RouteLinks(data).value.0 != EditLink ==> r.dialogs == dialogs
    ensures RouteLinks(data).Some? && RouteLinks(data).value.0 == SelectLink ==>
              var (u, st1) := GetOrCreateUser(st, chatId, NoProfile);
              r.store == st1 && (r.reply == NotFound <==> !OwnsLink(st1, u.id, RouteLinks(data).value.1))
    ensures RouteLinks(data).None? || RouteLinks(data).value.0 !in {DeleteLinkYes, ConfirmDeleteAllLinks} ==>
              r.store.links == st.links
    ensures r.store.schedules == st.schedules && r.store.proxies == st.proxies && r.store.results == st.results
  {
    match RouteLinks(data)
    case None => Outcome(st, dialogs, Ignored)
    case Some((b, arg)) =>
      var (u, st1) := GetOrCreateUser(st, chatId, NoProfile);
      match b
      case SelectLink => Outcome(st1, dialogs, Select(st1, u.id, arg))
      case EditLink => Outcome(st, dialogs[chatId := EditingLink(arg)], Prompted)
      case DeleteLinkYes =>
        var (st2, reply) := DeleteOne(st1, u.id, arg);
        Outcome(st2, dialogs, reply)
      case ConfirmDeleteAllLinks =>
        var (st2, reply) := DeleteAll(st1, u.id);
        Outcome(st2, dialogs, reply)
      case BackToLinks =>
        ListedLinks(st1, u.id);
        Outcome(st1, dialogs, if |GetUserAppLinks(st1, u.id)| == 0 then NoLinks else Shown)
      case CancelAction => Outcome(st, dialogs, Cancelled)
      case _ => Outcome(st, dialogs, Shown)
  }

  /** No link callback removes or alters a link of another user. */
  lemma CallbackSparesOthers(st: Store, dialogs: map<string, Dialog>, chatId: string, data: string, l: AppLink)
    requires l in st.links && l.userId != GetOrCreateUser(st, chatId, NoProfile).0.id
    ensures l in LinkCallback(st, dialogs, chatId, data).store.links
  {
  }

  /** The delete button of a link's menu leads, through the confirmation, to deleting that link of the user. */
  lemma ConfirmThenDelete(st: Store, dialogs: map<string, Dialog>, chatId: string, id: string)
    ensures var (u, st1) := GetOrCreateUser(st, chatId, NoProfile);
            var r := LinkCallback(st, dialogs, chatId, YesNoKeyboard("delete_link", id)[0][0].data);
            && (r.reply == Deleted <==> OwnsLink(st1, u.id, id))
            && (r.reply == Deleted ==> forall x :: x in r.store.links <==> x in st1.links && !LinkHit(x, id, u.id))
            && (r.reply != Deleted ==> r.store == st1)
  {
    LinkDeleteRoutes(id);
  }
}

=== FILE: probe.dfy ===
/**
 Reading a package name out of a Google Play link, and the result records
 the two page probes build. The page itself (navigation, selectors, the
 scraped heading) is an input here: what the browser saw is given as a
 `Navigation` or a `PageOutcome`, and the functions map it to the record
 the source returns.
 */
module Probe {
  import opened Types
  import opened Text
  import opened ProxyCodec

  // ------------------------------------------------------------------ package names

  /** The part of every accepted link before the package name. */
  const PlayDetails: string := "https://play.google.com/store/apps/details"
  const PlayPrefix: string := PlayDetails + "?id="

  /**
   The regular expression `id=([^&]+)` matches at `i` (with `sep`, the
   expression `[?&]id=([^&]+)`, whose `id=` must follow a `?` or `&`).
   */
  predicate IdAt(s: string, i: nat, sep: bool) {
    && i + 3 < |s|
    && s[i] == 'i' && s[i + 1] == 'd' && s[i + 2] == '='
    && s[i + 3] != '&'
    && (sep ==> i >= 1 && (s[i - 1] == '?' || s[i - 1] == '&'))
  }

  /** Length of the run of characters other than `&` from `i`: what `[^&]+` takes greedily. */
  function AmpFreeRun(s: string, i: nat): (n: nat)
    requires i <= |s|
    ensures i + n <= |s|
    ensures forall k :: i <= k < i + n ==> s[k] != '&'
    ensures i + n == |s| || s[i + n] == '&'
    decreases |s| - i
  {
    if i == |s| || s[i] == '&' then 0 else 1 + AmpFreeRun(s, i + 1)
  }

  /** The leftmost position at or after `i` where the expression matches. */
  function FindId(s: string, i: nat, sep: bool): (r: Option<nat>)
    ensures r.Some? ==> i <= r.value && IdAt(s, r.value, sep)
    ensures r.Some? ==> forall j :: i <= j < r.value ==> !IdAt(s, j, sep)
    ensures r.None? ==> forall j :: i <= j ==> !IdAt(s, j, sep)
    decreases |s| - i
  {
    if i + 3 >= |s| then None
    else if IdAt(s, i, sep) then Some(i)
    else FindId(s, i + 1, sep)
  }

  /** The first capture group of the leftmost match, or `null` when nothing matches. */
  function MatchPackage(s: string, sep: bool): (r: Option<string>)
    ensures r.None? <==> forall j :: !IdAt(s, j, sep)
    ensures r.Some? ==> r.value != [] && '&' !in r.value
  {
    match FindId(s, 0, sep)
    case None => None
    case Some(i) =>
      var n := AmpFreeRun(s, i + 3);
      assert s[i + 3..i + 3 + n][0] == s[i + 3];
      Some(s[i + 3..i + 3 + n])
  }

  /** `extractPackageName` of the Google Play probe: `[?&]id=([^&]+)`. */
  function ExtractPackageName(url: string): Option<string> {
    MatchPackage(url, true)
  }

  /** The package name read by the link commands: `id=([^&]+)`. */
  function LinkPackageName(link: string): Option<string> {
    MatchPackage(link, false)
  }

  /** A match starting inside a prefix without `=` can only begin in its last two places. */
  lemma NoIdBefore(pre: string, rest: string, j: nat, sep: bool)
    requires '=' !in pre
    requires j + 2 < |pre|
    ensures !IdAt(pre + rest, j, sep)
  {
    assert (pre + rest)[j + 2] == pre[j + 2];
  }

  lemma PlayDetailsHasNoEquals()
    ensures '=' !in PlayDetails
  {
  }

  /**
   A link made of the details page, `?id=`, a package name without `&`, and
   optionally further `&` parameters yields that package name under both
   expressions.
   */
  lemma PackageOfPlayLink(pkg: string, rest: string)
    requires pkg != [] && '&' !in pkg
    requires rest == [] || rest[0] == '&'
    ensures ExtractPackageName(PlayPrefix + pkg + rest) == Some(pkg)
    ensures LinkPackageName(PlayPrefix + pkg + rest) == Some(pkg)
  {
    var s := PlayPrefix + pkg + rest;
    var at := |PlayDetails| + 1;
    NoEarlyId(pkg, rest);
    assert s[at..at + 3] == "id=";
    assert IdAt(s, at, true) && IdAt(s, at, false);
    FirstMatch(s, at, true);
    FirstMatch(s, at, false);
    assert s[at + 3..] == pkg + rest;
    RunOver(s, at + 3, pkg, rest);
  }

  /** Inside the details page no `id=` begins: the first candidate is the one after `?`. */
  lemma NoEarlyId(pkg: string, rest: string)
    ensures forall j: nat :: j < |PlayDetails| + 1 ==>
              !IdAt(PlayPrefix + pkg + rest, j, true) && !IdAt(PlayPrefix + pkg + rest, j, false)
  {
    var s := PlayPrefix + pkg + rest;
    assert s == PlayDetails + ("?id=" + pkg + rest);
    PlayDetailsHasNoEquals();
    forall j: nat | j < |PlayDetails| + 1
      ensures !IdAt(s, j, true) && !IdAt(s, j, false)
    {
      if j + 2 < |PlayDetails| {
        NoIdBefore(PlayDetails, "?id=" + pkg + rest, j, true);
        NoIdBefore(PlayDetails, "?id=" + pkg + rest, j, false);
      } else {
        assert s[j + 2] != '=';
      }
    }
  }

  /** When the leftmost match is at `at`, the search from the start finds it. */
  lemma {:induction false} FirstMatch(s: string, at: nat, sep: bool)
    requires IdAt(s, at, sep)
    requires forall j: nat :: j < at ==> !IdAt(s, j, sep)
    ensures FindId(s, 0, sep) == Some(at)
  {
    FindFrom(s, 0, at, sep);
  }

  lemma {:induction false} FindFrom(s: string, i: nat, at: nat, sep: bool)
    requires i <= at && IdAt(s, at, sep)
    requires forall j: nat :: i <= j < at ==> !IdAt(s, j, sep)
    ensures FindId(s, i, sep) == Some(at)
    decreases at - i
  {
    if i < at {
      FindFrom(s, i + 1, at, sep);
    }
  }

  /** The `&`-free run from the start of `pkg` stops exactly where `rest` begins. */
  lemma RunOver(s: string, i: nat, pkg: string, rest: string)
    requires i <= |s| && s[i..] == pkg + rest
    requires '&' !in pkg
    requires rest == [] || rest[0] == '&'
    ensures AmpFreeRun(s, i) == |pkg| && s[i..i + |pkg|] == pkg
  {
    var n := AmpFreeRun(s, i);
    forall k | i <= k < i + |pkg|
      ensures s[k] != '&'
    {
      assert s[k] == s[i..][k - i] == pkg[k - i];
    }
    assert rest != [] ==> s[i + |pkg|] == s[i..][|pkg|];
    assert s[i..i + |pkg|] == s[i..][..|pkg|];
  }

  // ------------------------------------------------------------------ Google Play probe

  /** What the page load produced: a response with its status and scraped name, none, or an exception. */
  datatype Navigation = Responded(status: nat, appName: Option<string>) | NoResponse | Threw

  datatype PlayResult = PlayResult(packageName: string, appName: Option<string>,
                                   isAvailable: bool, errorMessage: Option<string>)

  const Unavailable: string := "Это приложение сейчас временно недоступно"

  /** The message for a response whose status is not 200. */
  function StatusMessage(status: nat): string {
    Unavailable + " (Status: " + NatToString(status) + ")"
  }

  /**
   `checkAppAvailability`. With no browser after the start-up attempt it
   throws (None). A link without a package name is refused before any page
   is opened; opening the page can throw too (`pageOpens` false). Once the
   page is open, a status of 200 is available; any other status, or no
   response (read as 0), is unavailable with the status in the message; an
   exception is unavailable with the fixed message.
   */
  function CheckAppAvailability(url: string, browserReady: bool, pageOpens: bool, nav: Navigation): (r: Option<PlayResult>)
    ensures r.None? <==> !browserReady || (ExtractPackageName(url).Some? && !pageOpens)
    ensures r.Some? ==> (r.value.isAvailable <==> r.value.errorMessage.None?)
    ensures r.Some? ==> (r.value.isAvailable <==>
              ExtractPackageName(url).Some? && nav.Responded? && nav.status == 200)
    ensures r.Some? && ExtractPackageName(url).None? ==>
              r.value == PlayResult("unknown", None, false, Some("Invalid Google Play URL"))
    ensures r.Some? && ExtractPackageName(url).Some? ==> r.value.packageName == ExtractPackageName(url).value
    ensures r.Some? && r.value.appName.Some? ==> r.value.isAvailable
  {
    if !browserReady then None
    else match ExtractPackageName(url)
      case None => Some(PlayResult("unknown", None, false, Some("Invalid Google Play URL")))
      case Some(pkg) =>
        if !pageOpens then None
        else match nav
        case Threw => Some(PlayResult(pkg, None, false, Some(Unavailable)))
        case NoResponse => Some(PlayResult(pkg, None, false, Some(StatusMessage(0))))
        case Responded(status, name) =>
          if status == 200 then Some(PlayResult(pkg, name, true, None))
          else Some(PlayResult(pkg, None, false, Some(StatusMessage(status))))
  }

  /** Different statuses give different messages, and none of them is the exception's message. */
  lemma StatusMessagesDistinct(a: nat, b: nat)
    ensures StatusMessage(a) == StatusMessage(b) ==> a == b
    ensures StatusMessage(a) != Unavailable
  {
    var pre := Unavailable + " (Status: ";
    assert StatusMessage(a) == pre + (NatToString(a) + ")");
    assert StatusMessage(b) == pre + (NatToString(b) + ")");
    if StatusMessage(a) == StatusMessage(b) {
      assert NatToString(a) + ")" == StatusMessage(a)[|pre|..];
      assert NatToString(b) + ")" == StatusMessage(b)[|pre|..];
      DigitsBeforeParen(NatToString(a), NatToString(b));
      NatToStringInjective(a, b);
    }
    assert |StatusMessage(a)| > |Unavailable|;
  }

  /** Two digit strings each followed by `)` are equal only when the digit strings are. */
  lemma DigitsBeforeParen(da: string, db: string)
    requires forall k :: 0 <= k < |da| ==> IsDigit(da[k])
    requires forall k :: 0 <= k < |db| ==> IsDigit(db[k])
    requires da + ")" == db + ")"
    ensures da == db
  {
    assert da == (da + ")")[..|da|];
    assert db == (db + ")")[..|db|];
  }

  /** A missing response reads as status 0, the same as a response with status 0. */
  lemma NoResponseIsStatusZero(url: string)
    ensures CheckAppAvailability(url, true, true, NoResponse) == CheckAppAvailability(url, true, true, Responded(0, None))
  {
  }

  // ------------------------------------------------------------------ app checker probe

  /**
   What the page showed: whether a not-found text matched, and the trimmed
   `h1` when it could be read; or the exception the page threw, and whether
   it came before the proxy step (opening the page or setting the user agent).
   */
  datatype PageOutcome = Loaded(notFound: bool, heading: Option<string>) | PageError(early: bool, message: string)

  /** `checkApp`'s record, with the proxy URL it applied to the page, if any. */
  datatype AppCheck = AppCheck(appLink: AppLink, proxy: Option<Proxy>, isAvailable: bool,
                               errorMessage: Option<string>, appName: Option<string>)

  /**
   `checkApp(appLink, proxy)`: the proxy, when there is one, is applied
   as `type://[user:pass@]ip:port` unless the page threw before that step;
   on a loaded page the link is available
   unless a not-found text matched, and a stored app name wins over the
   page's heading; any exception gives an unavailable record whose message
   starts with `Error: `.
   */
  function CheckApp(link: AppLink, proxy: Option<Proxy>, page: PageOutcome): (r: (AppCheck, Option<string>))
    ensures r.0.appLink == link && r.0.proxy == proxy
    ensures r.1.Some? <==> proxy.Some? && !(page.PageError? && page.early)
    ensures r.1.Some? ==> r.1.value == AppCheckerProxyUrl(proxy.value)
    ensures r.0.isAvailable <==> r.0.errorMessage.None?
    ensures page.Loaded? ==> (r.0.isAvailable <==> !page.notFound)
    ensures page.Loaded? && Truthy(link.appName) ==> r.0.appName == link.appName
    ensures page.Loaded? && !Truthy(link.appName) && page.heading.Some? ==> r.0.appName == page.heading
    ensures page.PageError? ==> !r.0.isAvailable && r.0.appName.None?
    ensures page.PageError? ==> r.0.errorMessage == Some("Error: " + page.message)
  {
    var url := if proxy.Some? then Some(AppCheckerProxyUrl(proxy.value)) else None;
    match page
    case PageError(early, msg) =>
      if early then (AppCheck(link, proxy, false, Some("Error: " + msg), None), None)
      else (AppCheck(link, proxy, false, Some("Error: " + msg), None), url)
    case Loaded(notFound, heading) =>
      var name := if Truthy(link.appName) || heading.None? then link.appName else heading;
      (AppCheck(link, proxy, !notFound, if notFound then Some(Unavailable) else None, name), url)
  }
}

=== FILE: proxy_codec.dfy ===
/**
 Proxy text formats: the `ip:port[:username:password]` line users type, the
 proxy URLs the three checkers build from a stored or parsed proxy, and the
 batch insert of typed proxy lines.
 */
module ProxyCodec {
  import opened Types
  import opened Text
  import opened Repository

  // ------------------------------------------------------------------ proxy lines

  /** The `:`-separated fields of a parsed proxy, in the order they are typed. */
  function Fields(p: ParsedProxy): seq<string> {
    if p.username.Some? && p.password.Some? then [p.ipAddress, p.port, p.username.value, p.password.value]
    else [p.ipAddress, p.port]
  }

  /** The line a user types for a proxy: `ip:port` or `ip:port:username:password`. */
  function ProxyLine(p: ParsedProxy): string {
    Join(Fields(p), ':')
  }

  /** A parsed proxy either has both credentials or neither. */
  predicate CredentialsPaired(p: ParsedProxy) {
    p.username.Some? == p.password.Some?
  }

  /**
   A proxy that can be written as a line and read back: no field holds the
   separator, and the line starts and ends with something `trim` keeps.
   */
  predicate Typable(p: ParsedProxy) {
    var f := Fields(p);
    && CredentialsPaired(p)
    && (forall k :: 0 <= k < |f| ==> ':' !in f[k])
    && (p.ipAddress == [] || !IsWhitespace(p.ipAddress[0]))
    && (f[|f| - 1] == [] || !IsWhitespace(f[|f| - 1][|f[|f| - 1]| - 1]))
  }

  /** The proxy made of the pieces of a split line: two or four pieces, nothing else. */
  function FromPieces(parts: seq<string>): (r: Option<ParsedProxy>)
    ensures r.Some? <==> |parts| == 2 || |parts| == 4
    ensures r.Some? ==> CredentialsPaired(r.value) && Fields(r.value) == parts
  {
    if |parts| == 2 then
      Some(ParsedProxy(parts[0], parts[1], None, None))
    else if |parts| == 4 then
      Some(ParsedProxy(parts[0], parts[1], Some(parts[2]), Some(parts[3])))
    else None
  }

  /**
   `parseProxyString`: the trimmed text split on `:`; two pieces are an
   address and a port, four add a username and a password, any other number
   of pieces is rejected (`null`).
   */
  function ParseProxyString(s: string): (r: Option<ParsedProxy>)
    ensures r.Some? <==> Occurrences(Trim(s), ':') == 1 || Occurrences(Trim(s), ':') == 3
    ensures r.Some? ==> CredentialsPaired(r.value) && ProxyLine(r.value) == Trim(s)
    ensures r.Some? ==> forall k :: 0 <= k < |Fields(r.value)| ==> ':' !in Fields(r.value)[k]
  {
    var t := Trim(s);
    SplitLength(t, ':');
    JoinSplit(t, ':');
    FromPieces(Split(t, ':'))
  }

  lemma JoinEnds(f: seq<string>)
    requires |f| >= 2
    ensures |Join(f, ':')| >= 1
    ensures Join(f, ':')[0] == if f[0] == [] then ':' else f[0][0]
    ensures var j := Join(f, ':'); var l := f[|f| - 1];
              j[|j| - 1] == if l == [] then ':' else l[|l| - 1]
    decreases |f|
  {
    var rest := f[1..];
    assert Join(f, ':') == f[0] + [':'] + Join(rest, ':');
    if |rest| >= 2 {
      JoinEnds(rest);
    }
  }

  /** Reading back the line of a typable proxy gives the proxy. */
  lemma ParseProxyLine(p: ParsedProxy)
    requires Typable(p)
    ensures ParseProxyString(ProxyLine(p)) == Some(p)
  {
    LineUntrimmed(p);
    LineSplits(p);
    FromFields(p);
  }

  /** The line of a typable proxy has nothing for `trim` to remove at either end. */
  lemma LineUntrimmed(p: ParsedProxy)
    requires Typable(p)
    ensures Trim(ProxyLine(p)) == ProxyLine(p)
  {
    var line := ProxyLine(p);
    JoinEnds(Fields(p));
    assert line == [] || (!IsWhitespace(line[0]) && !IsWhitespace(line[|line| - 1]));
    TrimIdentity(line);
  }

  /** Splitting the line of a typable proxy on `:` gives its fields back. */
  lemma LineSplits(p: ParsedProxy)
    requires Typable(p)
    ensures Split(ProxyLine(p), ':') == Fields(p)
  {
    SplitJoin(Fields(p), ':');
  }

  /** A proxy with both credentials or neither is rebuilt from its own fields. */
  lemma FromFields(p: ParsedProxy)
    requires CredentialsPaired(p)
    ensures FromPieces(Fields(p)) == Some(p)
  {
  }

  lemma TypableOfLine(p: ParsedProxy, t: string)
    requires CredentialsPaired(p) && ProxyLine(p) == t
    requires forall k :: 0 <= k < |Fields(p)| ==> ':' !in Fields(p)[k]
    requires t == [] || (!IsWhitespace(t[0]) && !IsWhitespace(t[|t| - 1]))
    ensures Typable(p)
  {
    JoinEnds(Fields(p));
  }

  /** A parsed proxy is typable again, so its line reads back to it. */
  lemma ParsedIsTypable(s: string)
    ensures ParseProxyString(s).Some? ==> Typable(ParseProxyString(s).value)
  {
    var r := ParseProxyString(s);
    if r.Some? {
      TypableOfLine(r.value, Trim(s));
    }
  }

  // ------------------------------------------------------------------ proxy URLs

  /** The `user:pass@` part of a proxy URL, empty unless both credentials are truthy. */
  function AuthPart(username: Option<string>, password: Option<string>): string {
    if Truthy(username) && Truthy(password) then username.value + ":" + password.value + "@" else ""
  }

  /** `scheme://[username:password@]ip:port`, with the credentials only when both are truthy. */
  function ProxyUrl(scheme: string, username: Option<string>, password: Option<string>,
                    ipAddress: string, port: string): string {
    scheme + "://" + AuthPart(username, password) + ipAddress + ":" + port
  }

  /** `ProxyService.formatProxyUrl(proxy, isHttps)`. */
  function ServiceProxyUrl(p: ParsedProxy, isHttps: bool): string {
    ProxyUrl(if isHttps then "https" else "http", p.username, p.password, p.ipAddress, p.port)
  }

  /** `GooglePlayCheckerService.formatProxyUrl(proxy)`: always plain `http`. */
  function GooglePlayProxyUrl(p: ParsedProxy): string {
    ProxyUrl("http", p.username, p.password, p.ipAddress, p.port)
  }

  /** The URL `AppChecker.checkApp` hands to the page: the scheme is the lowered type name. */
  function AppCheckerProxyUrl(p: Proxy): string {
    ProxyUrl(LowerAscii(ProxyTypeName(p.ptype)), p.username, p.password, p.ipAddress, p.port)
  }

  /** The pieces of a proxy URL. */
  datatype UrlParts = UrlParts(scheme: string, auth: Option<(string, string)>, host: string, port: string)

  /** Splits `host:port` on its single colon. */
  function HostPort(s: string): Option<(string, string)> {
    var parts := Split(s, ':');
    if |parts| == 2 then Some((parts[0], parts[1])) else None
  }

  /** The part after `://`: an optional `user:pass@`, then `host:port`. */
  function ParseAuthority(rest: string): Option<(Option<(string, string)>, (string, string))> {
    var j := FirstIndex(rest, '@');
    if j == |rest| then
      var hp := HostPort(rest);
      if hp.None? then None else Some((None, hp.value))
    else
      var cred := HostPort(rest[..j]);
      var hp := HostPort(rest[j + 1..]);
      if cred.None? || hp.None? then None else Some((cred, hp.value))
  }

  /** Reads a proxy URL back: the scheme ends at the first `:`, which must open `://`. */
  function ParseProxyUrl(u: string): Option<UrlParts> {
    var i := FirstIndex(u, ':');
    if !OccursAt(u, "://", i) then None
    else
      var a := ParseAuthority(u[i + 3..]);
      if a.None? then None else Some(UrlParts(u[..i], a.value.0, a.value.1.0, a.value.1.1))
  }

  /** No `:` and no `@` in a URL field, so the URL can be read back. */
  predicate UrlSafe(s: string) {
    ':' !in s && '@' !in s
  }

  lemma HostPortOf(a: string, b: string)
    requires ':' !in a && ':' !in b
    ensures HostPort(a + ":" + b) == Some((a, b))
  {
    assert a + ":" + b == Join([a, b], ':');
    SplitJoin([a, b], ':');
  }

  lemma SchemeOf(scheme: string, rest: string)
    requires ':' !in scheme
    ensures var u := scheme + "://" + rest;
              FirstIndex(u, ':') == |scheme| && OccursAt(u, "://", |scheme|)
              && u[..|scheme|] == scheme && u[|scheme| + 3..] == rest
  {
    var u := scheme + "://" + rest;
    assert u == scheme + [':'] + ("//" + rest);
    FirstIndexOfJoin(scheme, ':', "//" + rest);
    assert u[|scheme|..|scheme| + 3] == "://";
  }

  /** Without `@`, the authority is just `host:port`. */
  lemma AuthorityBare(host: string, port: string)
    requires UrlSafe(host) && UrlSafe(port)
    ensures ParseAuthority(host + ":" + port) == Some((None, (host, port)))
  {
    var hp := host + ":" + port;
    assert '@' !in hp;
    HostPortOf(host, port);
    FirstIndexAbsent(hp, '@');
  }

  /** With `user:pass@` in front, the credentials are read from before the `@`. */
  lemma AuthorityWithCredentials(username: string, password: string, host: string, port: string)
    requires UrlSafe(username) && UrlSafe(password) && UrlSafe(host) && UrlSafe(port)
    ensures ParseAuthority(username + ":" + password + "@" + host + ":" + port) ==
              Some((Some((username, password)), (host, port)))
  {
    var hp := host + ":" + port;
    assert '@' !in hp;
    HostPortOf(host, port);
    var cr := username + ":" + password;
    assert '@' !in cr;
    var rest := username + ":" + password + "@" + host + ":" + port;
    assert rest == cr + ['@'] + hp;
    FirstIndexOfJoin(cr, '@', hp);
    assert rest[..|cr|] == cr;
    assert rest[|cr| + 1..] == hp;
    HostPortOf(username, password);
  }

  lemma ProxyUrlShape(scheme: string, username: Option<string>, password: Option<string>,
                      ipAddress: string, port: string)
    ensures ProxyUrl(scheme, username, password, ipAddress, port) ==
              scheme + "://" + (AuthPart(username, password) + ipAddress + ":" + port)
  {
  }

  /**
   The formatted URL reads back to its scheme, host and port, and carries
   credentials exactly when both username and password are truthy.
   */
  lemma ProxyUrlRoundTrip(scheme: string, username: Option<string>, password: Option<string>,
                          ipAddress: string, port: string)
    requires ':' !in scheme && UrlSafe(ipAddress) && UrlSafe(port)
    requires username.Some? ==> UrlSafe(username.value)
    requires password.Some? ==> UrlSafe(password.value)
    ensures ParseProxyUrl(ProxyUrl(scheme, username, password, ipAddress, port)) ==
              Some(UrlParts(scheme,
                            if Truthy(username) && Truthy(password) then Some((username.value, password.value)) else None,
                            ipAddress, port))
  {
    var rest := AuthPart(username, password) + ipAddress + ":" + port;
    ProxyUrlShape(scheme, username, password, ipAddress, port);
    AuthorityOfPart(username, password, ipAddress, port);
    UrlOf(scheme, rest);
  }

  /** A URL whose scheme has no `:` reads back to that scheme and whatever its authority reads back to. */
  lemma UrlOf(scheme: string, rest: string)
    requires ':' !in scheme && ParseAuthority(rest).Some?
    ensures var a := ParseAuthority(rest).value;
            ParseProxyUrl(scheme + "://" + rest) == Some(UrlParts(scheme, a.0, a.1.0, a.1.1))
  {
    SchemeOf(scheme, rest);
  }

  /** The authority part of a formatted URL reads back to its credentials, when both are truthy, and its host and port. */
  lemma AuthorityOfPart(username: Option<string>, password: Option<string>, ipAddress: string, port: string)
    requires UrlSafe(ipAddress) && UrlSafe(port)
    requires username.Some? ==> UrlSafe(username.value)
    requires password.Some? ==> UrlSafe(password.value)
    ensures ParseAuthority(AuthPart(username, password) + ipAddress + ":" + port) ==
              Some((if Truthy(username) && Truthy(password) then Some((username.value, password.value)) else None,
                    (ipAddress, port)))
  {
    if Truthy(username) && Truthy(password) {
      AuthorityWithCredentials(username.value, password.value, ipAddress, port);
      assert AuthPart(username, password) + ipAddress + ":" + port
          == username.value + ":" + password.value + "@" + ipAddress + ":" + port;
    } else {
      AuthorityBare(ipAddress, port);
      assert AuthPart(username, password) + ipAddress + ":" + port == ipAddress + ":" + port;
    }
  }

  lemma LowerTypeNames()
    ensures LowerAscii(ProxyTypeName(HTTP)) == "http"
    ensures LowerAscii(ProxyTypeName(HTTPS)) == "https"
    ensures LowerAscii(ProxyTypeName(SOCKS5)) == "socks5"
  {
  }

  /** The stored proxy with its address and credentials, as the services see it. */
  function AsParsed(p: Proxy): ParsedProxy {
    ParsedProxy(p.ipAddress, p.port, p.username, p.password)
  }

  /**
   The three URL builders agree where their schemes do: the page checker's URL
   for an HTTP or HTTPS proxy is the service's URL with the matching scheme,
   and the store checker's URL is always the service's plain-`http` one.
   */
  lemma ProxyUrlsAgree(p: Proxy)
    ensures p.ptype != SOCKS5 ==> AppCheckerProxyUrl(p) == ServiceProxyUrl(AsParsed(p), p.ptype == HTTPS)
    ensures p.ptype == SOCKS5 ==> StartsWith(AppCheckerProxyUrl(p), "socks5://")
    ensures GooglePlayProxyUrl(AsParsed(p)) == ServiceProxyUrl(AsParsed(p), false)
  {
    LowerTypeNames();
    if p.ptype == SOCKS5 {
      var u := AppCheckerProxyUrl(p);
      assert u[..9] == "socks5://";
    }
  }

  // ------------------------------------------------------------------ batch add

  /** The lines that parse as proxies, in order. */
  function ValidLines(lines: seq<string>): seq<ParsedProxy> {
    if lines == [] then []
    else
      var p := ParseProxyString(lines[0]);
      (if p.Some? then [p.value] else []) + ValidLines(lines[1..])
  }

  /** The stored proxy a parsed one becomes when added for `userId` with type HTTP. */
  predicate StoredAs(q: Proxy, p: ParsedProxy, userId: string) {
    && q.userId == userId && q.ipAddress == p.ipAddress && q.port == p.port
    && q.username == p.username && q.password == p.password
    && q.ptype == HTTP && q.isActive && q.lastUsed.None?
  }

  /** `r` is `st` with the proxies `ps` appended for `userId` and nothing else changed. */
  ghost predicate AppendsStored(st: Store, r: Store, userId: string, ps: seq<ParsedProxy>) {
    && |r.proxies| == |st.proxies| + |ps| && r.proxies[..|st.proxies|] == st.proxies
    && (forall k :: 0 <= k < |ps| ==> StoredAs(r.proxies[|st.proxies| + k], ps[k], userId))
    && r.users == st.users && r.links == st.links
    && r.schedules == st.schedules && r.results == st.results
  }

  lemma AppendsStoredStep(st: Store, st1: Store, r: Store, userId: string, head: seq<ParsedProxy>, ps: seq<ParsedProxy>)
    requires |head| <= 1
    requires |head| == 1 ==> st1 == AddProxy(st, userId, head[0], HTTP)
    requires head == [] ==> st1 == st
    requires AppendsStored(st1, r, userId, ps)
    ensures AppendsStored(st, r, userId, head + ps)
  {
    if |head| == 1 {
      assert r.proxies[..|st.proxies|] == r.proxies[..|st1.proxies|][..|st.proxies|];
      forall k | 0 <= k < |head + ps| ensures StoredAs(r.proxies[|st.proxies| + k], (head + ps)[k], userId) {
        if k > 0 {
          assert (head + ps)[k] == ps[k - 1];
        } else {
          assert r.proxies[|st.proxies|] == r.proxies[..|st1.proxies|][|st.proxies|];
        }
      }
    } else {
      assert head + ps == ps;
    }
  }

  /**
   The first line, from `i` on, whose `prisma.proxy.create` throws, or
   `|lines|` when none does. `fails(j)` says the create for line `j` throws;
   only a line that parses reaches the create.
   */
  function FirstFailedCreate(lines: seq<string>, fails: nat -> bool, i: nat): (s: nat)
    requires i <= |lines|
    ensures i <= s <= |lines|
    ensures s < |lines| ==> ParseProxyString(lines[s]).Some? && fails(s)
    ensures forall j :: i <= j < s && ParseProxyString(lines[j]).Some? ==> !fails(j)
    decreases |lines| - i
  {
    if i == |lines| then i
    else if ParseProxyString(lines[i]).Some? && fails(i) then i
    else FirstFailedCreate(lines, fails, i + 1)
  }

  lemma ValidLinesUnfold(lines: seq<string>, i: nat, s: nat)
    requires i < s <= |lines|
    ensures var p := ParseProxyString(lines[i]);
            ValidLines(lines[i..s]) == (if p.Some? then [p.value] else []) + ValidLines(lines[i + 1..s])
  {
    assert lines[i..s][0] == lines[i] && lines[i..s][1..] == lines[i + 1..s];
  }

  /**
   The loop of `addProxies` from line `i` on. A create that throws is not
   caught: the loop stops there, the rows created before it stay, and the
   call rejects (`r.1 == None`). Otherwise `r.1` holds the added and invalid
   counts of lines `i..`.
   */
  function AddProxiesFrom(st: Store, userId: string, lines: seq<string>, fails: nat -> bool, i: nat)
    : (r: (Store, Option<(nat, nat)>))
    requires i <= |lines|
    decreases |lines| - i
  {
    if i == |lines| then (st, Some((0, 0)))
    else
      var p := ParseProxyString(lines[i]);
      if p.Some? && fails(i) then (st, None)
      else
        var st1 := if p.Some? then AddProxy(st, userId, p.value, HTTP) else st;
        var rest := AddProxiesFrom(st1, userId, lines, fails, i + 1);
        if rest.1.None? then (rest.0, None)
        else if p.Some? then (rest.0, Some((rest.1.value.0 + 1, rest.1.value.1)))
        else (rest.0, Some((rest.1.value.0, rest.1.value.1 + 1)))
  }

  /** One pass of the store lemma: line `i` does not throw, and the loop from `i + 1` appends as promised. */
  lemma AddProxiesFromStoresStep(st: Store, userId: string, lines: seq<string>, fails: nat -> bool, i: nat)
    requires i < |lines|
    requires var p := ParseProxyString(lines[i]);
             && !(p.Some? && fails(i))
             && var st1 := if p.Some? then AddProxy(st, userId, p.value, HTTP) else st;
                AppendsStored(st1, AddProxiesFrom(st1, userId, lines, fails, i + 1).0, userId,
                              ValidLines(lines[i + 1..FirstFailedCreate(lines, fails, i + 1)]))
    ensures AppendsStored(st, AddProxiesFrom(st, userId, lines, fails, i).0, userId,
                          ValidLines(lines[i..FirstFailedCreate(lines, fails, i)]))
  {
    var p := ParseProxyString(lines[i]);
    var s := FirstFailedCreate(lines, fails, i + 1);
    var st1 := if p.Some? then AddProxy(st, userId, p.value, HTTP) else st;
    assert FirstFailedCreate(lines, fails, i) == s;
    assert AddProxiesFrom(st, userId, lines, fails, i).0 == AddProxiesFrom(st1, userId, lines, fails, i + 1).0;
    ValidLinesUnfold(lines, i, s);
    var head := if p.Some? then [p.value] else [];
    AppendsStoredStep(st, st1, AddProxiesFrom(st1, userId, lines, fails, i + 1).0, userId, head, ValidLines(lines[i + 1..s]));
  }

  /** The loop from line `i` on appends the lines that parse, up to the first create that throws. */
  lemma {:induction false} AddProxiesFromStores(st: Store, userId: string, lines: seq<string>, fails: nat -> bool, i: nat)
    requires i <= |lines|
    ensures AppendsStored(st, AddProxiesFrom(st, userId, lines, fails, i).0, userId,
                          ValidLines(lines[i..FirstFailedCreate(lines, fails, i)]))
    decreases |lines| - i
  {
    if i < |lines| {
      var p := ParseProxyString(lines[i]);
      if !(p.Some? && fails(i)) {
        var st1 := if p.Some? then AddProxy(st, userId, p.value, HTTP) else st;
        AddProxiesFromStores(st1, userId, lines, fails, i + 1);
        AddProxiesFromStoresStep(st, userId, lines, fails, i);
      } else {
        assert FirstFailedCreate(lines, fails, i) == i && lines[i..i] == [];
      }
    }
  }

  /** The loop from line `i` on resolves iff no create throws, and then counts every line once. */
  lemma {:induction false} AddProxiesFromCounts(st: Store, userId: string, lines: seq<string>, fails: nat -> bool, i: nat)
    requires i <= |lines|
    ensures var r := AddProxiesFrom(st, userId, lines, fails, i);
            && (r.1.Some? <==> FirstFailedCreate(lines, fails, i) == |lines|)
            && (r.1.Some? ==> r.1.value.0 == |ValidLines(lines[i..])| && r.1.value.0 + r.1.value.1 == |lines| - i)
    decreases |lines| - i
  {
    if i < |lines| {
      var p := ParseProxyString(lines[i]);
      if !(p.Some? && fails(i)) {
        var st1 := if p.Some? then AddProxy(st, userId, p.value, HTTP) else st;
        var rest := AddProxiesFrom(st1, userId, lines, fails, i + 1);
        AddProxiesFromCounts(st1, userId, lines, fails, i + 1);
        assert FirstFailedCreate(lines, fails, i) == FirstFailedCreate(lines, fails, i + 1);
        assert lines[i..][0] == lines[i] && lines[i..][1..] == lines[i + 1..];
        if rest.1.Some? {
          assert |ValidLines(lines[i..])| == |ValidLines(lines[i + 1..])| + (if p.Some? then 1 else 0);
        }
      }
    }
  }

  /**
   `ProxyService.addProxies(userId, lines)`: every line that parses is stored
   as an HTTP proxy, in order, and the rest are counted as invalid. When a
   create throws, the lines before it keep their rows and the call rejects
   (`r.1 == None`).
   */
  function AddProxies(st: Store, userId: string, lines: seq<string>, fails: nat -> bool): (r: (Store, Option<(nat, nat)>))
    ensures r.1.Some? <==> forall j :: 0 <= j < |lines| && ParseProxyString(lines[j]).Some? ==> !fails(j)
    ensures r.1.Some? ==> r.1.value.0 + r.1.value.1 == |lines| && r.1.value.0 == |ValidLines(lines)|
    ensures r.1.Some? ==> AppendsStored(st, r.0, userId, ValidLines(lines))
    ensures r.1.None? ==> var s := FirstFailedCreate(lines, fails, 0);
                          && s < |lines| && ParseProxyString(lines[s]).Some? && fails(s)
                          && AppendsStored(st, r.0, userId, ValidLines(lines[..s]))
  {
    assert lines[0..] == lines && lines[0..|lines|] == lines;
    var s := FirstFailedCreate(lines, fails, 0);
    assert lines[0..s] == lines[..s];
    AddProxiesFromStores(st, userId, lines, fails, 0);
    AddProxiesFromCounts(st, userId, lines, fails, 0);
    AddProxiesFrom(st, userId, lines, fails, 0)
  }
}

=== FILE: proxy_rules.dfy ===
/**
 The proxy dialog of the proxy commands. Adding proxies takes two steps: the
 typed list is parsed and, when the user has free slots, kept in the dialog
 together with the number of slots while a type is asked for; the type
 button then inserts at most that many proxies with the chosen type. The cap
 counts only active proxies. Editing replaces one proxy with the first one
 parsed, and the callbacks show, delete one or delete all of a user's active
 proxies. The proxy-list parser is a parameter, as are the failures of
 individual inserts and the placement of never-used proxies in the store's
 ordering.
 */
module ProxyRules {
  import opened Types
  import opened Text
  import opened Seqs
  import opened Repository
  import opened Keyboard
  import opened Callbacks

  /**
   What the chat's next message means: `add_proxies`, `delete_proxies`,
   `edit_proxy` of one proxy, or `select_proxy_type` holding the parsed
   proxies and the free slots counted when they were parsed.
   */
  datatype Dialog = AddingProxies | DeletingProxies | EditingProxy(proxyId: string)
                  | SelectingType(parsed: seq<ParsedProxy>, slots: nat)

  datatype Reply =
    | Ignored | Cancelled | AtCap | NoProxies | NothingParsed | Prompted | Shown
    | TypeAsked(count: nat) | TypeError | TypesAdded(added: nat, limitNote: bool)
    | Updated | UpdateFailed | NotFound | Deleted | DeleteFailed
    | AllDeleted(count: nat) | DeleteAllFailed

  datatype Outcome = Outcome(store: Store, dialogs: map<string, Dialog>, reply: Reply)

  /** The number of the user's active proxies: the length of `getUserProxies`. */
  function ActiveCount(st: Store, userId: string): nat {
    Count(st.proxies, ActiveProxyOf(userId))
  }

  lemma ListedProxies(st: Store, userId: string, nullsFirst: bool)
    ensures |GetUserProxies(st, userId, nullsFirst)| == ActiveCount(st, userId)
  {
    var r := GetUserProxies(st, userId, nullsFirst);
    assert |multiset(r)| == |r|;
  }

  /** No user has more than the maximum number of active proxies. */
  ghost predicate WithinCap(st: Store) {
    forall u :: ActiveCount(st, u) <= MaxProxiesPerUser
  }

  // ------------------------------------------------------------------ commands

  /**
   The add-proxies command: a user with the maximum number of active proxies
   is refused; anyone else is asked for proxies and the chat enters the add
   dialog.
   */
  function HandleAddProxies(st: Store, dialogs: map<string, Dialog>, chatId: string, profile: Profile): (r: Outcome)
    ensures var (u, st1) := GetOrCreateUser(st, chatId, profile);
            && r.store == st1
            && (r.reply == AtCap <==> ActiveCount(st1, u.id) >= MaxProxiesPerUser)
            && (r.reply == AtCap ==> r.dialogs == dialogs)
            && (r.reply != AtCap ==> r.reply == Prompted && r.dialogs == dialogs[chatId := AddingProxies])
  {
    var (u, st1) := GetOrCreateUser(st, chatId, profile);
    if ActiveCount(st1, u.id) >= MaxProxiesPerUser then Outcome(st1, dialogs, AtCap)
    else Outcome(st1, dialogs[chatId := AddingProxies], Prompted)
  }

  /**
   The delete-proxies command: a user without active proxies is told so;
   anyone else is shown the deletion menu and the chat enters the delete
   dialog.
   */
  function HandleDeleteProxies(st: Store, dialogs: map<string, Dialog>, chatId: string, profile: Profile): (r: Outcome)
    ensures var (u, st1) := GetOrCreateUser(st, chatId, profile);
            && r.store == st1
            && (r.reply == NoProxies <==> ActiveCount(st1, u.id) == 0)
            && (r.reply == NoProxies ==> r.dialogs == dialogs)
            && (r.reply != NoProxies ==> r.reply == Prompted && r.dialogs == dialogs[chatId := DeletingProxies])
  {
    var (u, st1) := GetOrCreateUser(st, chatId, profile);
    if ActiveCount(st1, u.id) == 0 then Outcome(st1, dialogs, NoProxies)
    else Outcome(st1, dialogs[chatId := DeletingProxies], Prompted)
  }

  // ------------------------------------------------------------------ the batch insert

  /** The stored proxy a parsed one becomes when added for `userId` with type `t`. */
  predicate StoredProxy(q: Proxy, p: ParsedProxy, userId: string, t: ProxyType) {
    && q.userId == userId && q.ipAddress == p.ipAddress && q.port == p.port
    && q.username == p.username && q.password == p.password
    && q.ptype == t && q.isActive && q.lastUsed.None?
  }

  /** `r` is `st` with the proxies `ps` appended for `userId` with type `t`, and nothing else changed. */
  ghost predicate AppendsProxies(st: Store, r: Store, userId: string, ps: seq<ParsedProxy>, t: ProxyType) {
    && |r.proxies| == |st.proxies| + |ps| && r.proxies[..|st.proxies|] == st.proxies
    && (forall k :: 0 <= k < |ps| ==> StoredProxy(r.proxies[|st.proxies| + k], ps[k], userId, t))
    && r.users == st.users && r.links == st.links
    && r.schedules == st.schedules && r.results == st.results
  }

  lemma AppendsProxiesStep(st: Store, st1: Store, r: Store, userId: string, t: ProxyType,
                           head: seq<ParsedProxy>, ps: seq<ParsedProxy>)
    requires |head| <= 1
    requires |head| == 1 ==> st1 == AddProxy(st, userId, head[0], t)
    requires head == [] ==> st1 == st
    requires AppendsProxies(st1, r, userId, ps, t)
    ensures AppendsProxies(st, r, userId, head + ps, t)
  {
    if |head| == 1 {
      assert r.proxies[..|st.proxies|] == r.proxies[..|st1.proxies|][..|st.proxies|];
      forall k | 0 <= k < |head + ps| ensures StoredProxy(r.proxies[|st.proxies| + k], (head + ps)[k], userId, t) {
        if k > 0 {
          assert (head + ps)[k] == ps[k - 1];
        } else {
          assert r.proxies[|st.proxies|] == r.proxies[..|st1.proxies|][|st.proxies|];
        }
      }
    } else {
      assert head + ps == ps;
    }
  }

  /** The appended proxies, read by their place in `added`, are active proxies of the user. */
  lemma AppendedAreActive(st: Store, r: Store, userId: string, ps: seq<ParsedProxy>, t: ProxyType)
    requires AppendsProxies(st, r, userId, ps, t)
    ensures forall x :: x in r.proxies[|st.proxies|..] ==> ActiveOf(x, userId)
  {
    var added := r.proxies[|st.proxies|..];
    forall x | x in added ensures ActiveOf(x, userId) {
      var k :| 0 <= k < |added| && added[k] == x;
      assert added[k] == r.proxies[|st.proxies| + k];
      assert StoredProxy(r.proxies[|st.proxies| + k], ps[k], userId, t);
    }
  }

  /** Appending active proxies for one user adds their number to that user's count and nothing to anyone else's. */
  lemma AppendsProxiesCount(st: Store, r: Store, userId: string, ps: seq<ParsedProxy>, t: ProxyType, v: string)
    requires AppendsProxies(st, r, userId, ps, t)
    ensures ActiveCount(r, v) == ActiveCount(st, v) + if v == userId then |ps| else 0
  {
    var added := r.proxies[|st.proxies|..];
    assert r.proxies == st.proxies + added;
    FilterConcat(st.proxies, added, ActiveProxyOf(v));
    AppendedAreActive(st, r, userId, ps, t);
    if v == userId {
      FilterAll(added, ActiveProxyOf(v));
    } else {
      FilterNone(added, ActiveProxyOf(v));
    }
  }

  /**
   The insert loop of the type callback: each proxy is added for the user
   with type `t` in turn; a failing insert is skipped and not counted.
   */
  function InsertEach(st: Store, userId: string, ps: seq<ParsedProxy>, at: nat, fails: nat -> bool, t: ProxyType): (r: (Store, nat))
    ensures r.1 == |Succeeding(ps, at, fails)|
    ensures AppendsProxies(st, r.0, userId, Succeeding(ps, at, fails), t)
    decreases |ps|
  {
    if ps == [] then (st, 0)
    else
      var head := if fails(at) then [] else [ps[0]];
      var st1 := if fails(at) then st else AddProxy(st, userId, ps[0], t);
      var rest := InsertEach(st1, userId, ps[1..], at + 1, fails, t);
      AppendsProxiesStep(st, st1, rest.0, userId, t, head, Succeeding(ps[1..], at + 1, fails));
      (rest.0, rest.1 + |head|)
  }

  // ------------------------------------------------------------------ typed proxies

  /**
   The list typed in the add dialog. Nothing parsed is reported before the
   user is looked up. A user without free slots is refused; otherwise the
   dialog moves on to the type question, keeping the parsed proxies and the
   number of free slots, and the three type buttons carry the parsed count.
   */
  function AddProxiesInput(st: Store, dialogs: map<string, Dialog>, chatId: string, parsed: seq<ParsedProxy>,
                           profile: Profile): (r: Outcome)
    ensures parsed == [] ==> r == Outcome(st, dialogs, NothingParsed)
    ensures parsed != [] ==>
              var (u, st1) := GetOrCreateUser(st, chatId, profile);
              && r.store == st1
              && (r.reply == AtCap <==> ActiveCount(st1, u.id) >= MaxProxiesPerUser)
              && (r.reply == AtCap ==> r.dialogs == dialogs)
              && (r.reply != AtCap ==>
                    && r.reply == TypeAsked(|parsed|)
                    && r.dialogs == dialogs[chatId := SelectingType(parsed, MaxProxiesPerUser - ActiveCount(st1, u.id))])
  {
    if parsed == [] then Outcome(st, dialogs, NothingParsed)
    else
      var (u, st1) := GetOrCreateUser(st, chatId, profile);
      var slots := MaxProxiesPerUser - ActiveCount(st1, u.id);
      if slots <= 0 then Outcome(st1, dialogs, AtCap)
      else Outcome(st1, dialogs[chatId := SelectingType(parsed, slots)], TypeAsked(|parsed|))
  }

  /**
   The proxy typed in an edit dialog. Only the first parsed proxy is used;
   with none parsed nothing is updated. The update is scoped to the user, so
   an id that is not the user's fails and the store stays as it was.
   */
  function EditProxyInput(st: Store, chatId: string, proxyId: string, parsed: seq<ParsedProxy>): (r: (Store, Reply))
    ensures var (u, st1) := GetOrCreateUser(st, chatId, NoProfile);
            && (parsed == [] ==> r == (st1, NothingParsed))
            && (parsed != [] ==> (r.1 == Updated <==> exists k :: 0 <= k < |st1.proxies| && ProxyHit(st1.proxies[k], proxyId, u.id)))
            && (parsed != [] && r.1 != Updated ==> r == (st1, UpdateFailed))
            && (r.1 == Updated ==> |r.0.proxies| == |st1.proxies|)
            && (r.1 == Updated ==> forall k :: 0 <= k < |st1.proxies| ==>
                  r.0.proxies[k] == if ProxyHit(st1.proxies[k], proxyId, u.id) then PatchProxy(st1.proxies[k], parsed[0])
                                    else st1.proxies[k])
            && r.0.users == st1.users
    ensures r.0.links == st.links && r.0.schedules == st.schedules && r.0.results == st.results
  {
    var (u, st1) := GetOrCreateUser(st, chatId, NoProfile);
    if parsed == [] then (st1, NothingParsed)
    else
      match UpdateProxy(st1, proxyId, u.id, parsed[0])
      case None => (st1, UpdateFailed)
      case Some(st2) => (st2, Updated)
  }

  /** An edit keeps the user, activity and type of every proxy, so no count of active proxies changes. */
  lemma EditProxyKeeps(st: Store, chatId: string, proxyId: string, parsed: seq<ParsedProxy>)
    ensures forall v :: ActiveCount(EditProxyInput(st, chatId, proxyId, parsed).0, v) == ActiveCount(st, v)
  {
    var (u, st1) := GetOrCreateUser(st, chatId, NoProfile);
    var r := EditProxyInput(st, chatId, proxyId, parsed);
    forall v ensures ActiveCount(r.0, v) == ActiveCount(st, v) {
      if r.1 == Updated {
        FilterSameVerdicts(r.0.proxies, st1.proxies, ActiveProxyOf(v));
      }
    }
  }

  /**
   `handleUserInput` of the proxy commands: only text in a chat with an open
   dialog is read. The cancel text closes any dialog. The add dialog moves to
   the type question when it succeeds; the edit dialog closes when its update
   succeeds. Text in the delete dialog or at the type question is ignored.
   */
  function ProxyInput(st: Store, dialogs: map<string, Dialog>, chatId: string, text: Option<string>,
                      profile: Profile, parse: string -> seq<ParsedProxy>): (r: Outcome)
    ensures !Truthy(text) || chatId !in dialogs ==> r == Outcome(st, dialogs, Ignored)
    ensures r.reply == Cancelled <==> text == Some(CancelText) && chatId in dialogs
    ensures r.reply == Cancelled ==> r == Outcome(st, dialogs - {chatId}, Cancelled)
    ensures (chatId in dialogs && (dialogs[chatId].DeletingProxies? || dialogs[chatId].SelectingType?) &&
             text != Some(CancelText)) ==> r == Outcome(st, dialogs, Ignored)
    ensures r.reply.TypeAsked? ==> chatId in dialogs && dialogs[chatId] == AddingProxies &&
                                   chatId in r.dialogs && r.dialogs[chatId].SelectingType?
    ensures (chatId in dialogs && chatId !in r.dialogs) <==> (r.reply == Cancelled || r.reply == Updated)
    ensures r.store.proxies == st.proxies || r.reply == Updated
    ensures r.store.links == st.links && r.store.schedules == st.schedules && r.store.results == st.results
  {
    if !Truthy(text) || chatId !in dialogs then Outcome(st, dialogs, Ignored)
    else if text.value == CancelText then Outcome(st, dialogs - {chatId}, Cancelled)
    else
      match dialogs[chatId]
      case AddingProxies =>
        var r := AddProxiesInput(st, dialogs, chatId, parse(text.value), profile);
        assert r.reply.TypeAsked? ==> r.dialogs[chatId].SelectingType?;
        r
      case EditingProxy(id) =>
        var (st2, reply) := EditProxyInput(st, chatId, id, parse(text.value));
        Outcome(st2, if reply == Updated then dialogs - {chatId} else dialogs, reply)
      case _ => Outcome(st, dialogs, Ignored)
  }

  // ------------------------------------------------------------------ the type button

  /** The type `parts[2]` names, when it names one; the source casts without checking. */
  function ChosenType(c: TypeChoice): Option<ProxyType> {
    if c.typeName.Some? then TypeOfName(c.typeName.value) else None
  }

  /**
   The inserts of the type button. Proxies are inserted with the chosen type;
   a name that is not one of the three types is refused by the store on
   every insert, so nothing is added.
   */
  function AddTyped(st: Store, userId: string, ps: seq<ParsedProxy>, t: Option<ProxyType>, fails: nat -> bool): (r: (Store, nat))
    ensures t.None? ==> r == (st, 0)
    ensures t.Some? ==> AppendsProxies(st, r.0, userId, Succeeding(ps, 0, fails), t.value)
                        && r.1 == |Succeeding(ps, 0, fails)|
  {
    match t
    case None => (st, 0)
    case Some(ty) => InsertEach(st, userId, ps, 0, fails, ty)
  }

  /**
   `proxy_type_<T>_<n>`: without a type question pending in the chat it
   answers with an error and changes nothing. Otherwise at most the kept
   number of slots is taken from the kept proxies, as a prefix, and inserted
   with the chosen type; the dialog closes; the limit note is shown exactly
   when the count read from the button exceeds the number inserted.
   */
  function ChooseTypeStep(st: Store, dialogs: map<string, Dialog>, chatId: string, data: string,
                          fails: nat -> bool): (r: Outcome)
    ensures chatId !in dialogs || !dialogs[chatId].SelectingType? ==> r == Outcome(st, dialogs, TypeError)
    ensures chatId in dialogs && dialogs[chatId].SelectingType? ==>
              var (u, st1) := GetOrCreateUser(st, chatId, NoProfile);
              var ps := Take(dialogs[chatId].parsed, dialogs[chatId].slots);
              var c := DecodeTypeChoice(data);
              && r.dialogs == dialogs - {chatId}
              && r.reply.TypesAdded?
              && (r.reply.limitNote <==> c.count.Some? && c.count.value > r.reply.added)
              && (ChosenType(c).None? ==> r.store == st1 && r.reply.added == 0)
              && (ChosenType(c).Some? ==>
                    AppendsProxies(st1, r.store, u.id, Succeeding(ps, 0, fails), ChosenType(c).value)
                    && r.reply.added == |Succeeding(ps, 0, fails)|)
    ensures r.store.links == st.links && r.store.schedules == st.schedules && r.store.results == st.results
  {
    if chatId !in dialogs || !dialogs[chatId].SelectingType? then Outcome(st, dialogs, TypeError)
    else
      var (u, st1) := GetOrCreateUser(st, chatId, NoProfile);
      var c := DecodeTypeChoice(data);
      var (st2, added) := AddTyped(st1, u.id, Take(dialogs[chatId].parsed, dialogs[chatId].slots), ChosenType(c), fails);
      Outcome(st2, dialogs - {chatId}, TypesAdded(added, c.count.Some? && c.count.value > added))
  }

  /**
   Pressing the type button that was offered for the batch, when the batch
   fits the slots and every insert succeeds, adds every parsed proxy with
   that type and shows no limit note.
   */
  lemma OfferedButtonAddsAll(st: Store, dialogs: map<string, Dialog>, chatId: string, t: ProxyType,
                             parsed: seq<ParsedProxy>, slots: nat, fails: nat -> bool)
    requires chatId in dialogs && dialogs[chatId] == SelectingType(parsed, slots)
    requires |parsed| <= slots
    requires forall k :: 0 <= k < |parsed| ==> !fails(k)
    ensures var r := ChooseTypeStep(st, dialogs, chatId, TypeChoiceData(t, |parsed|), fails);
            var (u, st1) := GetOrCreateUser(st, chatId, NoProfile);
            && r.reply == TypesAdded(|parsed|, false)
            && AppendsProxies(st1, r.store, u.id, parsed, t)
  {
    TypeChoiceRoundTrip(t, |parsed|);
    TypeOfNameOfType(t);
    assert Take(parsed, slots) == parsed;
  }

  /**
   The type button keeps the cap when the slots kept in the dialog fit the
   chat's user: at most that many proxies are inserted, all for that user.
   */
  lemma ChooseTypeKeeps(st: Store, dialogs: map<string, Dialog>, chatId: string, data: string, fails: nat -> bool)
    requires WithinCap(st)
    requires chatId in dialogs && dialogs[chatId].SelectingType? ==>
               ActiveCount(st, GetOrCreateUser(st, chatId, NoProfile).0.id) + dialogs[chatId].slots <= MaxProxiesPerUser
    ensures WithinCap(ChooseTypeStep(st, dialogs, chatId, data, fails).store)
  {
    var r := ChooseTypeStep(st, dialogs, chatId, data, fails);
    if chatId in dialogs && dialogs[chatId].SelectingType? {
      var (u, st1) := GetOrCreateUser(st, chatId, NoProfile);
      var ps := Take(dialogs[chatId].parsed, dialogs[chatId].slots);
      var c := DecodeTypeChoice(data);
      forall v ensures ActiveCount(r.store, v) <= MaxProxiesPerUser {
        assert ActiveCount(st1, v) == ActiveCount(st, v);
        if ChosenType(c).Some? {
          AppendsProxiesCount(st1, r.store, u.id, Succeeding(ps, 0, fails), ChosenType(c).value, v);
        }
      }
    }
  }

  /**
   The two steps of an add keep the cap: the list typed in the add dialog
   stores the free slots, and the type button pressed next never inserts
   more than those.
   */
  lemma AddThenChooseKeeps(st: Store, dialogs: map<string, Dialog>, chatId: string, text: string,
                           profile: Profile, parse: string -> seq<ParsedProxy>, data: string, fails: nat -> bool)
    requires WithinCap(st)
    requires chatId in dialogs && dialogs[chatId] == AddingProxies
    ensures var r1 := ProxyInput(st, dialogs, chatId, Some(text), profile, parse);
            WithinCap(ChooseTypeStep(r1.store, r1.dialogs, chatId, data, fails).store)
  {
    var r1 := ProxyInput(st, dialogs, chatId, Some(text), profile, parse);
    assert r1.store.proxies == st.proxies;
    assert WithinCap(r1.store) by {
      forall v ensures ActiveCount(r1.store, v) <= MaxProxiesPerUser {
        assert ActiveCount(r1.store, v) == ActiveCount(st, v);
      }
    }
    if r1.reply.TypeAsked? {
      LookupAgain(st, chatId, profile, NoProfile);
    }
    ChooseTypeKeeps(r1.store, r1.dialogs, chatId, data, fails);
  }

  // ------------------------------------------------------------------ deleting

  /** No two proxies share an id. */
  ghost predicate IdsDistinct(st: Store) {
    forall i, j :: 0 <= i < j < |st.proxies| ==> st.proxies[i].id != st.proxies[j].id
  }

  /** The user has a proxy, active or not, with this id. */
  predicate OwnsProxy(st: Store, userId: string, id: string) {
    exists k :: 0 <= k < |st.proxies| && ProxyHit(st.proxies[k], id, userId)
  }

  /** `proxy_<id>`: the proxy is looked up among the user's active ones; any other id is reported. */
  function Select(st: Store, userId: string, proxyId: string, nullsFirst: bool): (r: Reply)
    ensures r == NotFound <==> !exists k :: 0 <= k < |st.proxies| && ProxyHit(st.proxies[k], proxyId, userId) && st.proxies[k].isActive
    ensures r != NotFound ==> r == Shown
  {
    var i := FindIndex(GetUserProxies(st, userId, nullsFirst), (p: Proxy) => p.id == proxyId);
    assert i >= 0 <==> exists k :: 0 <= k < |st.proxies| && ProxyHit(st.proxies[k], proxyId, userId) && st.proxies[k].isActive by {
      if exists k :: 0 <= k < |st.proxies| && ProxyHit(st.proxies[k], proxyId, userId) && st.proxies[k].isActive {
        var k :| 0 <= k < |st.proxies| && ProxyHit(st.proxies[k], proxyId, userId) && st.proxies[k].isActive;
        assert st.proxies[k] in GetUserProxies(st, userId, nullsFirst);
      }
    }
    if i < 0 then NotFound else Shown
  }

  /** `delete_proxy_yes_<id>`, once the chat's user is known: only a proxy of the user's with that id is removed. */
  function DeleteOne(st: Store, userId: string, proxyId: string): (r: (Store, Reply))
    ensures r.1 == Deleted <==> OwnsProxy(st, userId, proxyId)
    ensures r.1 != Deleted ==> r == (st, DeleteFailed)
    ensures r.1 == Deleted ==> forall p :: p in r.0.proxies <==> p in st.proxies && !ProxyHit(p, proxyId, userId)
    ensures r.0.users == st.users && r.0.links == st.links && r.0.schedules == st.schedules && r.0.results == st.results
  {
    match DeleteProxy(st, proxyId, userId)
    case None => (st, DeleteFailed)
    case Some(st2) => (st2, Deleted)
  }

  /** One of `rows` has this id. */
  predicate ListedId(rows: seq<Proxy>, id: string) {
    exists k :: 0 <= k < |rows| && rows[k].id == id
  }

  /**
   The loop of `confirm_delete_all_proxies`: deletes each listed proxy by its
   id and the user's id, in order, stopping at the first delete that finds
   nothing. Only the user's proxies are ever removed; when every delete
   succeeds, exactly those with a listed id are.
   */
  function DeleteEach(st: Store, userId: string, rows: seq<Proxy>): (r: (Store, bool))
    ensures forall p :: p in r.0.proxies ==> p in st.proxies
    ensures forall p :: p in st.proxies && p.userId != userId ==> p in r.0.proxies
    ensures r.1 ==> forall p :: p in r.0.proxies <==> p in st.proxies && !(p.userId == userId && ListedId(rows, p.id))
    ensures r.0.users == st.users && r.0.links == st.links && r.0.schedules == st.schedules && r.0.results == st.results
    decreases |rows|
  {
    if rows == [] then (st, true)
    else
      match DeleteProxy(st, rows[0].id, userId)
      case None => (st, false)
      case Some(st1) =>
        var r := DeleteEach(st1, userId, rows[1..]);
        assert forall id :: ListedId(rows, id) <==> rows[0].id == id || ListedId(rows[1..], id) by {
          forall id | ListedId(rows, id) && rows[0].id != id ensures ListedId(rows[1..], id) {
            var k :| 0 <= k < |rows| && rows[k].id == id;
            assert rows[1..][k - 1].id == id;
          }
          forall id | ListedId(rows[1..], id) ensures ListedId(rows, id) {
            var k :| 0 <= k < |rows[1..]| && rows[1..][k].id == id;
            assert rows[k + 1].id == id;
          }
        }
        r
  }

  /** Deleting listed proxies of the user, each with a distinct id, always succeeds. */
  lemma {:induction false} DeleteEachSucceeds(st: Store, userId: string, rows: seq<Proxy>)
    requires forall i, j :: 0 <= i < j < |rows| ==> rows[i].id != rows[j].id
    requires forall k :: 0 <= k < |rows| ==> OwnsProxy(st, userId, rows[k].id)
    ensures DeleteEach(st, userId, rows).1
    decreases |rows|
  {
    if rows != [] {
      assert OwnsProxy(st, userId, rows[0].id);
      var st1 := DeleteProxy(st, rows[0].id, userId).value;
      forall k | 0 <= k < |rows[1..]| ensures OwnsProxy(st1, userId, rows[1..][k].id) {
        var j :| 0 <= j < |st.proxies| && ProxyHit(st.proxies[j], rows[k + 1].id, userId);
        assert st.proxies[j] in st1.proxies;
        var m :| 0 <= m < |st1.proxies| && st1.proxies[m] == st.proxies[j];
      }
      DeleteEachSucceeds(st1, userId, rows[1..]);
    }
  }

  /**
   `confirm_delete_all_proxies`, once the chat's user is known: the user's
   active proxies, as `getUserProxies` lists them, are deleted one by one and
   their number reported. Other users' proxies are never touched.
   */
  function DeleteAll(st: Store, userId: string, nullsFirst: bool): (r: (Store, Reply))
    ensures r.1.AllDeleted? || r.1 == DeleteAllFailed
    ensures forall p :: p in r.0.proxies ==> p in st.proxies
    ensures forall p :: p in st.proxies && p.userId != userId ==> p in r.0.proxies
    ensures r.1.AllDeleted? ==> r.1.count == ActiveCount(st, userId)
    ensures r.1.AllDeleted? ==> forall p :: p in r.0.proxies <==>
              p in st.proxies && !(p.userId == userId && exists q :: q in st.proxies && ActiveOf(q, userId) && q.id == p.id)
    ensures r.0.users == st.users && r.0.links == st.links && r.0.schedules == st.schedules && r.0.results == st.results
  {
    var rows := GetUserProxies(st, userId, nullsFirst);
    ListedProxies(st, userId, nullsFirst);
    var (st2, ok) := DeleteEach(st, userId, rows);
    ListedIdsAreActive(st, userId, rows);
    (st2, if ok then AllDeleted(|rows|) else DeleteAllFailed)
  }

  /** The ids the delete-all loop visits are exactly the ids of the user's active proxies. */
  lemma ListedIdsAreActive(st: Store, userId: string, rows: seq<Proxy>)
    requires rows == GetUserProxies(st, userId, false) || rows == GetUserProxies(st, userId, true)
    ensures forall id :: ListedId(rows, id) <==> exists q :: q in st.proxies && ActiveOf(q, userId) && q.id == id
  {
    forall id | ListedId(rows, id) ensures exists q :: q in st.proxies && ActiveOf(q, userId) && q.id == id {
      var k :| 0 <= k < |rows| && rows[k].id == id;
      assert rows[k] in st.proxies && ActiveOf(rows[k], userId);
    }
    forall id | exists q :: q in st.proxies && ActiveOf(q, userId) && q.id == id ensures ListedId(rows, id) {
      var q :| q in st.proxies && ActiveOf(q, userId) && q.id == id;
      var k :| 0 <= k < |st.proxies| && st.proxies[k] == q;
      var j :| 0 <= j < |rows| && rows[j] == q;
    }
  }

  /**
   With unique ids, deleting all proxies succeeds and leaves the user no
   active proxy, while every inactive proxy of the user is still there.
   */
  lemma DeleteAllClears(st: Store, userId: string, nullsFirst: bool)
    requires IdsDistinct(st)
    ensures DeleteAll(st, userId, nullsFirst).1.AllDeleted?
    ensures ActiveCount(DeleteAll(st, userId, nullsFirst).0, userId) == 0
    ensures forall p :: p in st.proxies && !p.isActive ==> p in DeleteAll(st, userId, nullsFirst).0.proxies
  {
    var rows := GetUserProxies(st, userId, nullsFirst);
    ListedDeletable(st, userId, nullsFirst);
    DeleteEachSucceeds(st, userId, rows);
    var r := DeleteAll(st, userId, nullsFirst);
    assert forall p :: p in r.0.proxies ==> !ActiveProxyOf(userId)(p);
    FilterNone(r.0.proxies, ActiveProxyOf(userId));
    forall p | p in st.proxies && !p.isActive ensures p in r.0.proxies {
      NoActiveTwin(st, userId, p);
    }
  }

  /** The user's listed proxies are the user's own and carry distinct ids, when the store's ids are unique. */
  lemma ListedDeletable(st: Store, userId: string, nullsFirst: bool)
    requires IdsDistinct(st)
    ensures var rows := GetUserProxies(st, userId, nullsFirst);
            && (forall i, j :: 0 <= i < j < |rows| ==> rows[i].id != rows[j].id)
            && (forall k :: 0 <= k < |rows| ==> OwnsProxy(st, userId, rows[k].id))
  {
    var rows := GetUserProxies(st, userId, nullsFirst);
    ListedDistinct(st, userId, nullsFirst);
    forall i, j | 0 <= i < j < |rows| ensures rows[i].id != rows[j].id {
      var a :| 0 <= a < |st.proxies| && st.proxies[a] == rows[i];
      var b :| 0 <= b < |st.proxies| && st.proxies[b] == rows[j];
      assert a != b;
    }
    forall k | 0 <= k < |rows| ensures OwnsProxy(st, userId, rows[k].id) {
      var a :| 0 <= a < |st.proxies| && st.proxies[a] == rows[k];
    }
  }

  /** Unique ids make the listed proxies distinct. */
  lemma ListedDistinct(st: Store, userId: string, nullsFirst: bool)
    requires IdsDistinct(st)
    ensures Distinct(GetUserProxies(st, userId, nullsFirst))
  {
    assert Distinct(st.proxies);
    FilterDistinct(st.proxies, ActiveProxyOf(userId));
    DistinctPermutation(Filter(st.proxies, ActiveProxyOf(userId)), GetUserProxies(st, userId, nullsFirst));
  }

  /** With unique ids, no active proxy of the user shares its id with an inactive proxy. */
  lemma NoActiveTwin(st: Store, userId: string, p: Proxy)
    requires IdsDistinct(st)
    requires p in st.proxies && !p.isActive
    ensures !exists q :: q in st.proxies && ActiveOf(q, userId) && q.id == p.id
  {
    forall q | q in st.proxies && ActiveOf(q, userId) ensures q.id != p.id {
      var a :| 0 <= a < |st.proxies| && st.proxies[a] == p;
      var b :| 0 <= b < |st.proxies| && st.proxies[b] == q;
      assert a != b;
    }
  }

  // ------------------------------------------------------------------ the callback handler

  /**
   `handleCallbackQuery` of the proxy commands. Only the edit button opens a
   dialog and only the type button closes one; only the type button, deleting
   one and deleting all change proxies.
   */
  function ProxyCallback(st: Store, dialogs: map<string, Dialog>, chatId: string, data: string,
                         nullsFirst: bool, fails: nat -> bool): (r: Outcome)
    ensures RouteProxies(data).None? ==> r == Outcome(st, dialogs, Ignored)
    ensures RouteProxies(data).Some? && RouteProxies(data).value.0 == ChooseType ==>
              r == ChooseTypeStep(st, dialogs, chatId, data, fails)
    ensures RouteProxies(data).Some? && RouteProxies(data).value.0 == EditProxy ==>
              r == Outcome(st, dialogs[chatId := EditingProxy(RouteProxies(data).value.1)], Prompted)
    ensures RouteProxies(data).None? || RouteProxies(data).value.0 !in {ChooseType, EditProxy} ==> r.dialogs == dialogs
    ensures RouteProxies(data).None? || RouteProxies(data).value.0 !in {ChooseType, DeleteProxyYes, ConfirmDeleteAllProxies} ==>
              r.store.proxies == st.proxies
    ensures r.store.links == st.links && r.store.schedules == st.schedules && r.store.results == st.results
  {
    match RouteProxies(data)
    case None => Outcome(st, dialogs, Ignored)
    case Some((b, arg)) =>
      var (u, st1) := GetOrCreateUser(st, chatId, NoProfile);
      match b
      case ChooseType => ChooseTypeStep(st, dialogs, chatId, data, fails)
      case SelectProxy => Outcome(st1, dialogs, Select(st1, u.id, arg, nullsFirst))
      case EditProxy => Outcome(st, dialogs[chatId := EditingProxy(arg)], Prompted)
      case DeleteProxyYes =>
        var (st2, reply) := DeleteOne(st1, u.id, arg);
        Outcome(st2, dialogs, reply)
      case ConfirmDeleteAllProxies =>
        var (st2, reply) := DeleteAll(st1, u.id, nullsFirst);
        Outcome(st2, dialogs, reply)
      case BackToProxies => Outcome(st1, dialogs, if ActiveCount(st1, u.id) == 0 then NoProxies else Shown)
      case ProxiesPage => Outcome(st1, dialogs, if ActiveCount(st1, u.id) == 0 then NoProxies else Shown)
      case _ => Outcome(st, dialogs, Shown)
  }

  /** Every type button reaches the type step, never the proxy-selection branch. */
  lemma TypeButtonsChooseType(st: Store, dialogs: map<string, Dialog>, chatId: string, t: ProxyType, count: nat,
                              nullsFirst: bool, fails: nat -> bool)
    ensures ProxyCallback(st, dialogs, chatId, TypeChoiceData(t, count), nullsFirst, fails)
            == ChooseTypeStep(st, dialogs, chatId, TypeChoiceData(t, count), fails)
  {
    TypeChoiceRoundTrip(t, count);
  }
}

=== FILE: repository.dfy ===
/**
 The persistence layer as pure functions over in-memory relations. Each
 query of the repository becomes a function of a `Store`; each write returns
 the new `Store`. A write that addresses a record by key and finds none is
 the store's "record not found" error, modelled as `None`.

 The store keeps a clock (the `now()` it stamps records with) that moves
 forward after every stamped write, and a counter from which it mints fresh
 record ids.
 */
module Repository {
  import opened Types
  import opened Text
  import opened Seqs

  datatype Store = Store(users: seq<User>, links: seq<AppLink>, proxies: seq<Proxy>,
                         schedules: seq<CheckSchedule>, results: seq<CheckResult>,
                         clock: int, nextId: nat)

  /** The id given to the next record the store creates. */
  function FreshId(st: Store): string {
    NatToString(st.nextId)
  }

  /** The store after minting one id and consuming one clock tick. */
  function Advance(st: Store): Store {
    st.(clock := st.clock + 1, nextId := st.nextId + 1)
  }

  /** Every timestamp already stored is earlier than the store's clock. */
  ghost predicate ClockAhead(st: Store) {
    && (forall i :: 0 <= i < |st.proxies| && st.proxies[i].lastUsed.Some? ==> st.proxies[i].lastUsed.value < st.clock)
    && (forall i :: 0 <= i < |st.links| ==> st.links[i].createdAt < st.clock)
    && (forall i :: 0 <= i < |st.results| ==> st.results[i].checkTime < st.clock)
  }

  // ------------------------------------------------------------------ users

  function FindUser(users: seq<User>, telegramId: string): (i: int)
    ensures -1 <= i < |users|
    ensures i >= 0 ==> users[i].telegramId == telegramId
    ensures i >= 0 ==> forall k :: 0 <= k < i ==> users[k].telegramId != telegramId
    ensures i == -1 ==> forall k :: 0 <= k < |users| ==> users[k].telegramId != telegramId
  {
    if users == [] then -1
    else if users[|users| - 1].telegramId == telegramId && FindUser(users[..|users| - 1], telegramId) == -1 then |users| - 1
    else FindUser(users[..|users| - 1], telegramId)
  }

  /** An upsert's update part: only the profile fields that were given are written. */
  function ApplyProfile(u: User, p: Profile): User {
    u.(username := if p.username.Some? then p.username else u.username,
       firstName := if p.firstName.Some? then p.firstName else u.firstName,
       lastName := if p.lastName.Some? then p.lastName else u.lastName)
  }

  /**
   `getOrCreateUser`: the user with this messaging id, created on first
   contact; an existing user keeps its id and its place in the store.
   */
  function GetOrCreateUser(st: Store, telegramId: string, profile: Profile): (r: (User, Store))
    ensures r.0.telegramId == telegramId
    ensures r.0 in r.1.users
    ensures r.1.links == st.links && r.1.proxies == st.proxies
    ensures r.1.schedules == st.schedules && r.1.results == st.results
    ensures FindUser(st.users, telegramId) >= 0 ==>
              |r.1.users| == |st.users| && r.0.id == st.users[FindUser(st.users, telegramId)].id
    ensures FindUser(st.users, telegramId) == -1 ==>
              r.1.users == st.users + [r.0] && r.0.id == FreshId(st)
  {
    var i := FindUser(st.users, telegramId);
    if i >= 0 then
      var u := ApplyProfile(st.users[i], profile);
      assert st.users[i := u][i] == u;
      (u, st.(users := st.users[i := u]))
    else
      var u := User(FreshId(st), telegramId, profile.username, profile.firstName, profile.lastName);
      (u, Advance(st).(users := st.users + [u]))
  }

  /** Looking up a known user with no profile changes nothing. */
  lemma GetKnownUser(st: Store, telegramId: string)
    requires FindUser(st.users, telegramId) >= 0
    ensures GetOrCreateUser(st, telegramId, NoProfile) == (st.users[FindUser(st.users, telegramId)], st)
  {
    var i := FindUser(st.users, telegramId);
    assert ApplyProfile(st.users[i], NoProfile) == st.users[i];
    assert st.users[i := st.users[i]] == st.users;
  }

  /** Looking the same messaging id up again, with any profile, finds the user the first lookup returned. */
  lemma LookupAgain(st: Store, telegramId: string, profile: Profile, later: Profile)
    ensures var (u, st1) := GetOrCreateUser(st, telegramId, profile);
            && FindUser(st1.users, telegramId) >= 0
            && GetOrCreateUser(st1, telegramId, later).0.id == u.id
            && GetOrCreateUser(st1, telegramId, later).1.users == st1.users[FindUser(st1.users, telegramId) := GetOrCreateUser(st1, telegramId, later).0]
  {
    var (u, st1) := GetOrCreateUser(st, telegramId, profile);
    var i := FindUser(st.users, telegramId);
    var at := if i >= 0 then i else |st.users|;
    assert st1.users[at] == u;
    assert forall k :: 0 <= k < at ==> st1.users[k] == st.users[k];
  }

  // ------------------------------------------------------------------ app links

  predicate CreatedDesc(a: AppLink, b: AppLink) {
    a.createdAt >= b.createdAt
  }

  lemma CreatedDescTotal()
    ensures TotalPreorder(CreatedDesc)
  {
  }

  /** The `where: { userId }` clause of the link queries. */
  function LinkOwner(userId: string): AppLink -> bool {
    (l: AppLink) => l.userId == userId
  }

  /** `getUserAppLinks`: all of the user's links and only them, newest first. */
  function GetUserAppLinks(st: Store, userId: string): (r: seq<AppLink>)
    ensures forall k :: 0 <= k < |r| ==> r[k] in st.links && r[k].userId == userId
    ensures forall k :: 0 <= k < |st.links| && st.links[k].userId == userId ==> st.links[k] in r
    ensures multiset(r) == multiset(Filter(st.links, LinkOwner(userId)))
    ensures forall i, j :: 0 <= i < j < |r| ==> r[i].createdAt >= r[j].createdAt
  {
    var mine := Filter(st.links, LinkOwner(userId));
    CreatedDescTotal();
    SortBySorted(mine, CreatedDesc);
    var r := SortBy(mine, CreatedDesc);
    forall x | x in r ensures x in mine { SortByMembers(mine, CreatedDesc, x); }
    forall x | x in mine ensures x in r { SortByMembers(mine, CreatedDesc, x); }
    r
  }

  /** `addAppLink`: one new link, stamped with the store's clock. */
  function AddAppLink(st: Store, userId: string, url: string, packageName: string, appName: Option<string>): (r: Store)
    ensures |r.links| == |st.links| + 1 && r.links[..|st.links|] == st.links
    ensures r.links[|st.links|] == AppLink(FreshId(st), userId, url, packageName, appName, st.clock)
    ensures r.users == st.users && r.proxies == st.proxies
    ensures r.schedules == st.schedules && r.results == st.results
    ensures ClockAhead(st) ==> ClockAhead(r)
  {
    Advance(st).(links := st.links + [AppLink(FreshId(st), userId, url, packageName, appName, st.clock)])
  }

  /** True when a record has this id and belongs to this user. */
  predicate LinkHit(l: AppLink, id: string, userId: string) {
    l.id == id && l.userId == userId
  }

  /** `deleteAppLink(id, userId)`: removes only a link matching both keys. */
  function DeleteAppLink(st: Store, id: string, userId: string): (r: Option<Store>)
    ensures r.None? <==> !Any(st.links, (l: AppLink) => LinkHit(l, id, userId))
    ensures r.Some? ==> forall l :: l in r.value.links <==> l in st.links && !LinkHit(l, id, userId)
    ensures r.Some? ==> r.value.users == st.users && r.value.proxies == st.proxies
    ensures r.Some? ==> r.value.schedules == st.schedules && r.value.results == st.results
  {
    if !Any(st.links, (l: AppLink) => LinkHit(l, id, userId)) then None
    else Some(st.(links := Filter(st.links, (l: AppLink) => !LinkHit(l, id, userId))))
  }

  /** `updateAppLink(id, userId, {url, packageName})`: rewrites only a link matching both keys. */
  function UpdateAppLink(st: Store, id: string, userId: string, url: string, packageName: string): (r: Option<Store>)
    ensures r.None? <==> !Any(st.links, (l: AppLink) => LinkHit(l, id, userId))
    ensures r.Some? ==> |r.value.links| == |st.links|
    ensures r.Some? ==> forall k :: 0 <= k < |st.links| ==>
              r.value.links[k] == if LinkHit(st.links[k], id, userId)
                                  then st.links[k].(url := url, packageName := packageName)
                                  else st.links[k]
    ensures r.Some? ==> r.value.users == st.users && r.value.proxies == st.proxies
    ensures r.Some? ==> r.value.schedules == st.schedules && r.value.results == st.results
  {
    if !Any(st.links, (l: AppLink) => LinkHit(l, id, userId)) then None
    else Some(st.(links := UpdateWhere(st.links, (l: AppLink) => LinkHit(l, id, userId),
                                       (l: AppLink) => l.(url := url, packageName := packageName))))
  }

  // ------------------------------------------------------------------ proxies

  /**
   Ascending order of `lastUsed`. Where a never-used proxy (null) sorts is the
   database's choice, so it is a parameter.
   */
  predicate LastUsedLe(nullsFirst: bool, a: Proxy, b: Proxy) {
    match (a.lastUsed, b.lastUsed)
    case (None, None) => true
    case (None, Some(_)) => nullsFirst
    case (Some(_), None) => !nullsFirst
    case (Some(x), Some(y)) => x <= y
  }

  lemma LastUsedTotal(nullsFirst: bool)
    ensures TotalPreorder((a: Proxy, b: Proxy) => LastUsedLe(nullsFirst, a, b))
  {
  }

  predicate ActiveOf(p: Proxy, userId: string) {
    p.userId == userId && p.isActive
  }

  /** The `where: { userId, isActive: true }` clause of the proxy queries. */
  function ActiveProxyOf(userId: string): Proxy -> bool {
    (p: Proxy) => ActiveOf(p, userId)
  }

  /** `getUserProxies`: the user's active proxies and only them, least recently used first. */
  function GetUserProxies(st: Store, userId: string, nullsFirst: bool): (r: seq<Proxy>)
    ensures forall k :: 0 <= k < |r| ==> r[k] in st.proxies && ActiveOf(r[k], userId)
    ensures forall k :: 0 <= k < |st.proxies| && ActiveOf(st.proxies[k], userId) ==> st.proxies[k] in r
    ensures multiset(r) == multiset(Filter(st.proxies, ActiveProxyOf(userId)))
    ensures forall i, j :: 0 <= i < j < |r| ==> LastUsedLe(nullsFirst, r[i], r[j])
  {
    var mine := Filter(st.proxies, ActiveProxyOf(userId));
    var le := (a: Proxy, b: Proxy) => LastUsedLe(nullsFirst, a, b);
    LastUsedTotal(nullsFirst);
    SortBySorted(mine, le);
    var r := SortBy(mine, le);
    forall x | x in r ensures x in st.proxies && ActiveOf(x, userId) {
      SortByMembers(mine, le, x);
      assert x in mine;
    }
    forall x | x in mine ensures x in r { SortByMembers(mine, le, x); }
    assert SortedBy(r, le);
    forall i, j | 0 <= i < j < |r| ensures LastUsedLe(nullsFirst, r[i], r[j]) {
      assert le(r[i], r[j]);
    }
    r
  }

  /** `addProxy`: one new active, never-used proxy. */
  function AddProxy(st: Store, userId: string, p: ParsedProxy, ptype: ProxyType): (r: Store)
    ensures |r.proxies| == |st.proxies| + 1 && r.proxies[..|st.proxies|] == st.proxies
    ensures r.proxies[|st.proxies|] == Proxy(FreshId(st), userId, p.ipAddress, p.port, p.username, p.password, ptype, true, None)
    ensures r.users == st.users && r.links == st.links
    ensures r.schedules == st.schedules && r.results == st.results
    ensures ClockAhead(st) ==> ClockAhead(r)
  {
    Advance(st).(proxies := st.proxies + [Proxy(FreshId(st), userId, p.ipAddress, p.port, p.username, p.password, ptype, true, None)])
  }

  predicate ProxyHit(p: Proxy, id: string, userId: string) {
    p.id == id && p.userId == userId
  }

  /** `deleteProxy(id, userId)`: removes only a proxy matching both keys. */
  function DeleteProxy(st: Store, id: string, userId: string): (r: Option<Store>)
    ensures r.None? <==> !Any(st.proxies, (p: Proxy) => ProxyHit(p, id, userId))
    ensures r.Some? ==> forall p :: p in r.value.proxies <==> p in st.proxies && !ProxyHit(p, id, userId)
    ensures r.Some? ==> r.value.users == st.users && r.value.links == st.links
    ensures r.Some? ==> r.value.schedules == st.schedules && r.value.results == st.results
  {
    if !Any(st.proxies, (p: Proxy) => ProxyHit(p, id, userId)) then None
    else Some(st.(proxies := Filter(st.proxies, (p: Proxy) => !ProxyHit(p, id, userId))))
  }

  /**
   The data of `updateProxy(id, userId, {ipAddress, port, username, password})`.
   The store skips a field whose value is `undefined`, so an absent username or
   password leaves the stored one in place.
   */
  function PatchProxy(p: Proxy, q: ParsedProxy): Proxy {
    p.(ipAddress := q.ipAddress, port := q.port,
       username := if q.username.Some? then q.username else p.username,
       password := if q.password.Some? then q.password else p.password)
  }

  /** `updateProxy(id, userId, data)`: rewrites only a proxy matching both keys. */
  function UpdateProxy(st: Store, id: string, userId: string, q: ParsedProxy): (r: Option<Store>)
    ensures r.None? <==> !Any(st.proxies, (p: Proxy) => ProxyHit(p, id, userId))
    ensures r.Some? ==> |r.value.proxies| == |st.proxies|
    ensures r.Some? ==> forall k :: 0 <= k < |st.proxies| ==>
              r.value.proxies[k] == if ProxyHit(st.proxies[k], id, userId) then PatchProxy(st.proxies[k], q) else st.proxies[k]
    ensures r.Some? ==> r.value.users == st.users && r.value.links == st.links
    ensures r.Some? ==> r.value.schedules == st.schedules && r.value.results == st.results
  {
    if !Any(st.proxies, (p: Proxy) => ProxyHit(p, id, userId)) then None
    else Some(st.(proxies := UpdateWhere(st.proxies, (p: Proxy) => ProxyHit(p, id, userId),
                                         (p: Proxy) => PatchProxy(p, q))))
  }

  /**
   `updateProxyLastUsed(id)`: stamps the proxy with this id with the clock
   (keyed by id alone); every other proxy is left as it was.
   */
  function UpdateProxyLastUsed(st: Store, id: string): (r: Option<Store>)
    ensures r.None? <==> !Any(st.proxies, (p: Proxy) => p.id == id)
    ensures r.Some? ==> |r.value.proxies| == |st.proxies| && r.value.clock > st.clock
    ensures r.Some? ==> forall k :: 0 <= k < |st.proxies| ==>
              r.value.proxies[k] == if st.proxies[k].id == id then st.proxies[k].(lastUsed := Some(st.clock)) else st.proxies[k]
    ensures r.Some? ==> r.value.users == st.users && r.value.links == st.links
    ensures r.Some? ==> r.value.schedules == st.schedules && r.value.results == st.results
    ensures r.Some? && ClockAhead(st) ==> ClockAhead(r.value)
  {
    if !Any(st.proxies, (p: Proxy) => p.id == id) then None
    else Some(st.(proxies := UpdateWhere(st.proxies, (p: Proxy) => p.id == id,
                                         (p: Proxy) => p.(lastUsed := Some(st.clock))),
                  clock := st.clock + 1))
  }

  // ------------------------------------------------------------------ schedules

  /** Lexicographic order of character codes, the order of `orderBy: { time: "asc" }`. */
  predicate StrLe(a: string, b: string) {
    a == [] || (b != [] && (a[0] < b[0] || (a[0] == b[0] && StrLe(a[1..], b[1..]))))
  }

  lemma {:induction false} StrLeTotal(a: string, b: string)
    ensures StrLe(a, b) || StrLe(b, a)
  {
    if a != [] && b != [] && a[0] == b[0] {
      StrLeTotal(a[1..], b[1..]);
    }
  }

  lemma {:induction false} StrLeTrans(a: string, b: string, c: string)
    requires StrLe(a, b) && StrLe(b, c)
    ensures StrLe(a, c)
  {
    if a != [] && b != [] && c != [] && a[0] == b[0] && b[0] == c[0] {
      StrLeTrans(a[1..], b[1..], c[1..]);
    }
  }

  predicate TimeLe(a: CheckSchedule, b: CheckSchedule) {
    StrLe(a.time, b.time)
  }

  lemma TimeLeTotal()
    ensures TotalPreorder(TimeLe)
  {
    forall a, b ensures TimeLe(a, b) || TimeLe(b, a) {
      StrLeTotal(a.time, b.time);
    }
    forall a, b, c | TimeLe(a, b) && TimeLe(b, c) ensures TimeLe(a, c) {
      StrLeTrans(a.time, b.time, c.time);
    }
  }

  /** The `where: { userId }` clause of the schedule queries. */
  function ScheduleOwner(userId: string): CheckSchedule -> bool {
    (s: CheckSchedule) => s.userId == userId
  }

  /** `getUserCheckSchedules`: all of the user's schedules, active or not, earliest time first. */
  function GetUserCheckSchedules(st: Store, userId: string): (r: seq<CheckSchedule>)
    ensures forall k :: 0 <= k < |r| ==> r[k] in st.schedules && r[k].userId == userId
    ensures forall k :: 0 <= k < |st.schedules| && st.schedules[k].userId == userId ==> st.schedules[k] in r
    ensures multiset(r) == multiset(Filter(st.schedules, ScheduleOwner(userId)))
    ensures forall i, j :: 0 <= i < j < |r| ==> StrLe(r[i].time, r[j].time)
  {
    var mine := Filter(st.schedules, ScheduleOwner(userId));
    TimeLeTotal();
    SortBySorted(mine, TimeLe);
    var r := SortBy(mine, TimeLe);
    forall x | x in r ensures x in mine { SortByMembers(mine, TimeLe, x); }
    forall x | x in mine ensures x in r { SortByMembers(mine, TimeLe, x); }
    r
  }

  /** `addCheckSchedule`: one new schedule, active by default. */
  function AddCheckSchedule(st: Store, userId: string, time: string): (r: Store)
    ensures |r.schedules| == |st.schedules| + 1 && r.schedules[..|st.schedules|] == st.schedules
    ensures r.schedules[|st.schedules|] == CheckSchedule(FreshId(st), userId, time, true)
    ensures r.users == st.users && r.links == st.links
    ensures r.proxies == st.proxies && r.results == st.results
  {
    Advance(st).(schedules := st.schedules + [CheckSchedule(FreshId(st), userId, time, true)])
  }

  predicate ScheduleHit(s: CheckSchedule, id: string, userId: string) {
    s.id == id && s.userId == userId
  }

  /** `deleteCheckSchedule(id, userId)`: removes only a schedule matching both keys. */
  function DeleteCheckSchedule(st: Store, id: string, userId: string): (r: Option<Store>)
    ensures r.None? <==> !Any(st.schedules, (s: CheckSchedule) => ScheduleHit(s, id, userId))
    ensures r.Some? ==> forall s :: s in r.value.schedules <==> s in st.schedules && !ScheduleHit(s, id, userId)
    ensures r.Some? ==> r.value.users == st.users && r.value.links == st.links
    ensures r.Some? ==> r.value.proxies == st.proxies && r.value.results == st.results
    ensures r.Some? ==> r.value == st.(schedules := r.value.schedules)
  {
    if !Any(st.schedules, (s: CheckSchedule) => ScheduleHit(s, id, userId)) then None
    else Some(st.(schedules := Filter(st.schedules, (s: CheckSchedule) => !ScheduleHit(s, id, userId))))
  }

  /** The data of an `updateCheckSchedule` call: a new time, or a new active flag. */
  datatype SchedulePatch = SetTime(time: string) | SetActive(active: bool)

  function PatchSchedule(s: CheckSchedule, patch: SchedulePatch): CheckSchedule {
    match patch
    case SetTime(t) => s.(time := t)
    case SetActive(b) => s.(isActive := b)
  }

  /** `updateCheckSchedule(id, userId, data)`: rewrites only a schedule matching both keys. */
  function UpdateCheckSchedule(st: Store, id: string, userId: string, patch: SchedulePatch): (r: Option<Store>)
    ensures r.None? <==> !Any(st.schedules, (s: CheckSchedule) => ScheduleHit(s, id, userId))
    ensures r.Some? ==> |r.value.schedules| == |st.schedules|
    ensures r.Some? ==> forall k :: 0 <= k < |st.schedules| ==>
              r.value.schedules[k] == if ScheduleHit(st.schedules[k], id, userId)
                                      then PatchSchedule(st.schedules[k], patch) else st.schedules[k]
    ensures r.Some? ==> r.value.users == st.users && r.value.links == st.links
    ensures r.Some? ==> r.value.proxies == st.proxies && r.value.results == st.results
    ensures r.Some? ==> r.value == st.(schedules := r.value.schedules)
  {
    if !Any(st.schedules, (s: CheckSchedule) => ScheduleHit(s, id, userId)) then None
    else Some(st.(schedules := UpdateWhere(st.schedules, (s: CheckSchedule) => ScheduleHit(s, id, userId),
                                           (s: CheckSchedule) => PatchSchedule(s, patch))))
  }

  /** The user has an active schedule at exactly this time. */
  predicate HasActiveScheduleAt(st: Store, userId: string, time: string) {
    exists k :: 0 <= k < |st.schedules| && st.schedules[k].userId == userId
                && st.schedules[k].time == time && st.schedules[k].isActive
  }

  /** `getUsersWithSchedule(time)`: exactly the users with an active schedule at `time`. */
  function GetUsersWithSchedule(st: Store, time: string): (r: seq<User>)
    ensures forall k :: 0 <= k < |r| ==> r[k] in st.users && HasActiveScheduleAt(st, r[k].id, time)
    ensures forall k :: 0 <= k < |st.users| && HasActiveScheduleAt(st, st.users[k].id, time) ==> st.users[k] in r
  {
    Filter(st.users, (u: User) => HasActiveScheduleAt(st, u.id, time))
  }

  // ------------------------------------------------------------------ check results

  /** `addCheckResult`: appends exactly one record, stamped with the clock; nothing else changes. */
  function AddCheckResult(st: Store, appLinkId: string, isAvailable: bool,
                          proxyId: Option<string>, errorMessage: Option<string>): (r: Store)
    ensures |r.results| == |st.results| + 1 && r.results[..|st.results|] == st.results
    ensures r.results[|st.results|] == CheckResult(FreshId(st), appLinkId, proxyId, isAvailable, errorMessage, st.clock)
    ensures r.users == st.users && r.links == st.links
    ensures r.proxies == st.proxies && r.schedules == st.schedules
    ensures r.clock > st.clock
    ensures ClockAhead(st) ==> ClockAhead(r)
  {
    Advance(st).(results := st.results + [CheckResult(FreshId(st), appLinkId, proxyId, isAvailable, errorMessage, st.clock)])
  }

  predicate CheckTimeDesc(a: CheckResult, b: CheckResult) {
    a.checkTime >= b.checkTime
  }

  lemma CheckTimeDescTotal()
    ensures TotalPreorder(CheckTimeDesc)
  {
  }

  /** Keeps the first result of each link, dropping links already in `seen`. */
  function DistinctByLink(s: seq<CheckResult>, seen: set<string>): (r: seq<CheckResult>)
    ensures |r| <= |s|
    ensures forall x :: x in r ==> x in s && x.appLinkId !in seen
  {
    if s == [] then []
    else if s[0].appLinkId in seen then DistinctByLink(s[1..], seen)
    else [s[0]] + DistinctByLink(s[1..], seen + {s[0].appLinkId})
  }

  /** No two results in `r` belong to the same link. */
  predicate UniqueLinks(r: seq<CheckResult>) {
    forall i, j :: 0 <= i < j < |r| ==> r[i].appLinkId != r[j].appLinkId
  }

  lemma {:induction false} DistinctByLinkUnique(s: seq<CheckResult>, seen: set<string>)
    ensures UniqueLinks(DistinctByLink(s, seen))
  {
    if s != [] && s[0].appLinkId in seen {
      DistinctByLinkUnique(s[1..], seen);
    } else if s != [] {
      var seen' := seen + {s[0].appLinkId};
      var t := DistinctByLink(s[1..], seen');
      DistinctByLinkUnique(s[1..], seen');
      ConsUnique(s[0], t, seen');
    }
  }

  lemma ConsUnique(x: CheckResult, t: seq<CheckResult>, seen: set<string>)
    requires UniqueLinks(t) && x.appLinkId in seen
    requires forall y :: y in t ==> y.appLinkId !in seen
    ensures UniqueLinks([x] + t)
  {
    var r := [x] + t;
    forall i, j | 0 <= i < j < |r| ensures r[i].appLinkId != r[j].appLinkId {
      assert r[j] == t[j - 1];
      if i > 0 {
        assert r[i] == t[i - 1];
      }
    }
  }

  lemma {:induction false} DistinctByLinkCovers(s: seq<CheckResult>, seen: set<string>, c: CheckResult)
    requires c in s && c.appLinkId !in seen
    ensures exists x :: x in DistinctByLink(s, seen) && x.appLinkId == c.appLinkId
  {
    if s[0].appLinkId in seen {
      DistinctByLinkCovers(s[1..], seen, c);
    } else if c.appLinkId != s[0].appLinkId {
      DistinctByLinkCovers(s[1..], seen + {s[0].appLinkId}, c);
      var x :| x in DistinctByLink(s[1..], seen + {s[0].appLinkId}) && x.appLinkId == c.appLinkId;
      assert x in DistinctByLink(s, seen);
    } else {
      assert s[0] in DistinctByLink(s, seen);
    }
  }

  /** On results ordered newest first, the kept result of a link is its newest one. */
  lemma {:induction false} DistinctByLinkNewest(s: seq<CheckResult>, seen: set<string>, x: CheckResult, c: CheckResult)
    requires forall i, j :: 0 <= i < j < |s| ==> CheckTimeDesc(s[i], s[j])
    requires x in DistinctByLink(s, seen) && c in s && c.appLinkId == x.appLinkId
    ensures c.checkTime <= x.checkTime
  {
    if s[0].appLinkId in seen {
      assert c != s[0];
      DistinctByLinkNewest(s[1..], seen, x, c);
    } else if x == s[0] {
      if c != s[0] {
        var j :| 0 <= j < |s| && s[j] == c;
        assert CheckTimeDesc(s[0], s[j]);
      }
    } else {
      var seen' := seen + {s[0].appLinkId};
      assert x in DistinctByLink(s[1..], seen');
      assert c != s[0];
      DistinctByLinkNewest(s[1..], seen', x, c);
    }
  }

  /**
   `getLatestCheckResults`: the user's results newest first, the first one of
   each link kept, at most as many as the user has links.
   */
  function GetLatestCheckResults(st: Store, userId: string): (r: seq<CheckResult>)
    ensures UniqueLinks(r)
    ensures forall x :: x in r ==> x in st.results && OwnsLink(st, userId, x.appLinkId)
    ensures forall x, c :: x in r && c in st.results && c.appLinkId == x.appLinkId ==> c.checkTime <= x.checkTime
    ensures forall c :: c in st.results && OwnsLink(st, userId, c.appLinkId) ==>
                          exists x :: x in r && x.appLinkId == c.appLinkId
  {
    var ids := GetUserLinkIds(st, userId);
    var sorted := UserResultsNewestFirst(st, userId, ids);
    var distinct := DistinctByLink(sorted, {});
    LatestFacts(st, userId, sorted);
    LatestFits(st, userId, ids, sorted);
    Limit(distinct, |ids|)
  }

  /** `slice(0, n)`: the first `n` elements, or all of them when there are fewer. */
  function Limit<T>(s: seq<T>, n: nat): (r: seq<T>)
    ensures |r| == if |s| < n then |s| else n
    ensures r == s[..|r|]
    ensures |s| <= n ==> r == s
  {
    s[..if n < |s| then n else |s|]
  }

  /** There are no more latest results than the user has links, so the cut keeps them all. */
  lemma LatestFits(st: Store, userId: string, ids: seq<string>, sorted: seq<CheckResult>)
    requires forall x :: x in ids <==> OwnsLink(st, userId, x)
    requires forall x :: x in sorted <==> x in st.results && OwnsLink(st, userId, x.appLinkId)
    requires SortedBy(sorted, CheckTimeDesc)
    ensures |DistinctByLink(sorted, {})| <= |ids|
  {
    LatestFacts(st, userId, sorted);
    DistinctFitsLinks(DistinctByLink(sorted, {}), ids);
  }

  /** The results of the links in `ids`, newest first. */
  function UserResultsNewestFirst(st: Store, userId: string, ids: seq<string>): (r: seq<CheckResult>)
    requires forall x :: x in ids <==> OwnsLink(st, userId, x)
    ensures forall x :: x in r <==> x in st.results && OwnsLink(st, userId, x.appLinkId)
    ensures SortedBy(r, CheckTimeDesc)
  {
    var candidates := Filter(st.results, (c: CheckResult) => c.appLinkId in ids);
    CheckTimeDescTotal();
    SortBySorted(candidates, CheckTimeDesc);
    var sorted := SortBy(candidates, CheckTimeDesc);
    forall x | x in sorted ensures x in st.results && OwnsLink(st, userId, x.appLinkId) {
      SortByMembers(candidates, CheckTimeDesc, x);
    }
    forall x | x in st.results && OwnsLink(st, userId, x.appLinkId) ensures x in sorted {
      SortByMembers(candidates, CheckTimeDesc, x);
    }
    sorted
  }

  lemma LatestFacts(st: Store, userId: string, sorted: seq<CheckResult>)
    requires forall x :: x in sorted <==> x in st.results && OwnsLink(st, userId, x.appLinkId)
    requires SortedBy(sorted, CheckTimeDesc)
    ensures var r := DistinctByLink(sorted, {});
            && UniqueLinks(r)
            && (forall x :: x in r ==> x in st.results && OwnsLink(st, userId, x.appLinkId))
            && (forall x, c :: x in r && c in st.results && c.appLinkId == x.appLinkId ==> c.checkTime <= x.checkTime)
            && (forall c :: c in st.results && OwnsLink(st, userId, c.appLinkId) ==>
                              exists x :: x in r && x.appLinkId == c.appLinkId)
  {
    var r := DistinctByLink(sorted, {});
    DistinctByLinkUnique(sorted, {});
    forall x, c | x in r && c in st.results && c.appLinkId == x.appLinkId
      ensures c.checkTime <= x.checkTime
    {
      DistinctByLinkNewest(sorted, {}, x, c);
    }
    forall c | c in st.results && OwnsLink(st, userId, c.appLinkId)
      ensures exists x :: x in r && x.appLinkId == c.appLinkId
    {
      DistinctByLinkCovers(sorted, {}, c);
    }
  }

  /** The user owns a link with this id. */
  predicate OwnsLink(st: Store, userId: string, linkId: string) {
    exists k :: 0 <= k < |st.links| && st.links[k].userId == userId && st.links[k].id == linkId
  }

  /** Ids of the user's links, in store order (the `select: { id: true }` query). */
  function GetUserLinkIds(st: Store, userId: string): (r: seq<string>)
    ensures forall x :: x in r <==> OwnsLink(st, userId, x)
  {
    var mine := Filter(st.links, (l: AppLink) => l.userId == userId);
    var r := seq(|mine|, i requires 0 <= i < |mine| => mine[i].id);
    forall x | x in r ensures OwnsLink(st, userId, x) {
      var i :| 0 <= i < |r| && r[i] == x;
      assert mine[i] in st.links;
    }
    forall x | OwnsLink(st, userId, x) ensures x in r {
      var k :| 0 <= k < |st.links| && st.links[k].userId == userId && st.links[k].id == x;
      assert st.links[k] in mine;
      var i :| 0 <= i < |mine| && mine[i] == st.links[k];
      assert r[i] == x;
    }
    r
  }

  /** Distinct link ids drawn from `ids` number at most `|ids|`. */
  lemma DistinctFitsLinks(distinct: seq<CheckResult>, ids: seq<string>)
    requires UniqueLinks(distinct)
    requires forall x :: x in distinct ==> x.appLinkId in ids
    ensures |distinct| <= |ids|
  {
    var keys := set k | 0 <= k < |distinct| :: distinct[k].appLinkId;
    var idSet := set x | x in ids;
    assert keys <= idSet;
    SubsetSize(keys, idSet);
    SetOfSeqSize(ids);
    DistinctKeysSize(distinct);
  }

  lemma SubsetSize(a: set<string>, b: set<string>)
    requires a <= b
    ensures |a| <= |b|
  {
    assert b == a + (b - a);
  }

  lemma SetOfSeqSize(s: seq<string>)
    ensures |set x | x in s| <= |s|
  {
    if s != [] {
      SetOfSeqSize(s[1..]);
      assert (set x | x in s) == (set x | x in s[1..]) + {s[0]};
    }
  }

  lemma DistinctKeysSize(d: seq<CheckResult>)
    requires UniqueLinks(d)
    ensures |set k | 0 <= k < |d| :: d[k].appLinkId| == |d|
  {
    if d != [] {
      var last := |d| - 1;
      DistinctKeysSize(d[..last]);
      assert (set k | 0 <= k < |d| :: d[k].appLinkId)
          == (set k | 0 <= k < |d[..last]| :: d[..last][k].appLinkId) + {d[last].appLinkId};
    }
  }
}

=== FILE: rotation.dfy ===
/**
 Proxy rotation: the least recently used active proxy of a user is handed
 out and stamped as used, so that repeated calls go round the user's pool.
 */
module Rotation {
  import opened Types
  import opened Seqs
  import opened Repository

  /** Proxy ids are a primary key: no two stored proxies share one. */
  ghost predicate UniqueProxyIds(st: Store) {
    forall i, j :: 0 <= i < j < |st.proxies| ==> st.proxies[i].id != st.proxies[j].id
  }

  /** The user has no active proxy at all. */
  predicate NoActiveProxy(st: Store, userId: string) {
    forall k :: 0 <= k < |st.proxies| ==> !ActiveOf(st.proxies[k], userId)
  }

  /**
   `ProxyManager.getNextProxy`: the head of `getUserProxies`, whose `lastUsed`
   is then stamped with the clock. The proxy handed back is the record as it
   was read, before the stamp.
   */
  function NextProxy(st: Store, userId: string, nullsFirst: bool): (r: (Option<Proxy>, Store))
    ensures r.0.None? <==> NoActiveProxy(st, userId)
    ensures r.0.None? ==> r.1 == st
    ensures r.0.Some? ==> r.0.value in st.proxies && ActiveOf(r.0.value, userId)
    ensures r.0.Some? ==> forall k :: 0 <= k < |st.proxies| && ActiveOf(st.proxies[k], userId) ==>
                            LastUsedLe(nullsFirst, r.0.value, st.proxies[k])
    ensures r.0.Some? ==> |r.1.proxies| == |st.proxies| && r.1.clock > st.clock
    ensures r.0.Some? ==> forall k :: 0 <= k < |st.proxies| ==>
                            r.1.proxies[k] == if st.proxies[k].id == r.0.value.id
                                              then st.proxies[k].(lastUsed := Some(st.clock))
                                              else st.proxies[k]
    ensures r.1.users == st.users && r.1.links == st.links
    ensures r.1.schedules == st.schedules && r.1.results == st.results
    ensures ClockAhead(st) ==> ClockAhead(r.1)
  {
    var ps := GetUserProxies(st, userId, nullsFirst);
    if ps == [] then
      (None, st)
    else
      HeadIsStored(st, userId, nullsFirst, ps);
      HeadIsLeast(st, userId, nullsFirst, ps);
      (Some(ps[0]), UpdateProxyLastUsed(st, ps[0].id).value)
  }

  /** The head of a non-empty `getUserProxies` is a stored active proxy, so it can be stamped. */
  lemma HeadIsStored(st: Store, userId: string, nullsFirst: bool, ps: seq<Proxy>)
    requires ps == GetUserProxies(st, userId, nullsFirst) && ps != []
    ensures ps[0] in st.proxies && ActiveOf(ps[0], userId) && !NoActiveProxy(st, userId)
    ensures UpdateProxyLastUsed(st, ps[0].id).Some?
  {
    var i :| 0 <= i < |st.proxies| && st.proxies[i] == ps[0];
    assert st.proxies[i].id == ps[0].id;
    assert ActiveOf(st.proxies[i], userId);
  }

  lemma HeadIsLeast(st: Store, userId: string, nullsFirst: bool, ps: seq<Proxy>)
    requires ps == GetUserProxies(st, userId, nullsFirst) && ps != []
    ensures forall k :: 0 <= k < |st.proxies| && ActiveOf(st.proxies[k], userId) ==>
              LastUsedLe(nullsFirst, ps[0], st.proxies[k])
  {
    forall k | 0 <= k < |st.proxies| && ActiveOf(st.proxies[k], userId)
      ensures LastUsedLe(nullsFirst, ps[0], st.proxies[k])
    {
      var j :| 0 <= j < |ps| && ps[j] == st.proxies[k];
      if j > 0 {
        assert LastUsedLe(nullsFirst, ps[0], ps[j]);
      }
    }
  }

  /**
   `findFirst` over the user's active proxies ordered by `lastUsed`: the first
   proxy of `ps` that is active, belongs to the user and is used no later
   than any other such proxy.
   */
  function FindLeastUsed(ps: seq<Proxy>, userId: string, nullsFirst: bool): (r: Option<Proxy>)
    ensures r.None? <==> forall k :: 0 <= k < |ps| ==> !ActiveOf(ps[k], userId)
    ensures r.Some? ==> r.value in ps && ActiveOf(r.value, userId)
    ensures r.Some? ==> forall k :: 0 <= k < |ps| && ActiveOf(ps[k], userId) ==> LastUsedLe(nullsFirst, r.value, ps[k])
  {
    if ps == [] then None
    else
      var rest := FindLeastUsed(ps[1..], userId, nullsFirst);
      assert forall k :: 1 <= k < |ps| ==> ps[k] == ps[1..][k - 1];
      if !ActiveOf(ps[0], userId) then rest
      else if rest.Some? && !LastUsedLe(nullsFirst, ps[0], rest.value) then rest
      else Some(ps[0])
  }

  /**
   `ProxyService.getNextProxy`: one `findFirst` for the user's least recently
   used active proxy, which is then stamped with the clock. A failing query
   or update (`fails`) is caught and yields no proxy, with the store left as
   it was.
   */
  function ServiceNextProxy(st: Store, userId: string, nullsFirst: bool, fails: bool): (r: (Option<Proxy>, Store))
    ensures r.0.None? <==> fails || NoActiveProxy(st, userId)
    ensures r.0.None? ==> r.1 == st
    ensures r.0.Some? ==> r.0.value in st.proxies && ActiveOf(r.0.value, userId)
    ensures r.0.Some? ==> forall k :: 0 <= k < |st.proxies| && ActiveOf(st.proxies[k], userId) ==>
                            LastUsedLe(nullsFirst, r.0.value, st.proxies[k])
    ensures r.0.Some? ==> |r.1.proxies| == |st.proxies| && r.1.clock > st.clock
    ensures r.0.Some? ==> forall k :: 0 <= k < |st.proxies| ==>
                            r.1.proxies[k] == if st.proxies[k].id == r.0.value.id
                                              then st.proxies[k].(lastUsed := Some(st.clock))
                                              else st.proxies[k]
    ensures r.1.users == st.users && r.1.links == st.links
    ensures r.1.schedules == st.schedules && r.1.results == st.results
    ensures ClockAhead(st) ==> ClockAhead(r.1)
  {
    var pick := if fails then None else FindLeastUsed(st.proxies, userId, nullsFirst);
    if pick.None? then (None, st)
    else
      StoredIdFound(st.proxies, pick.value);
      (pick, UpdateProxyLastUsed(st, pick.value.id).value)
  }

  /** A stored proxy's id is found among the stored proxies. */
  lemma StoredIdFound(ps: seq<Proxy>, p: Proxy)
    requires p in ps
    ensures Any(ps, (q: Proxy) => q.id == p.id)
  {
    var i :| 0 <= i < |ps| && ps[i] == p;
    assert ps[i].id == p.id;
  }

  /**
   The service and the manager agree: both find a proxy or neither does, and
   the two proxies were last used at the same time.
   */
  lemma ServiceMatchesManager(st: Store, userId: string, nullsFirst: bool)
    ensures ServiceNextProxy(st, userId, nullsFirst, false).0.None? <==> NextProxy(st, userId, nullsFirst).0.None?
    ensures ServiceNextProxy(st, userId, nullsFirst, false).0.Some? ==>
              ServiceNextProxy(st, userId, nullsFirst, false).0.value.lastUsed == NextProxy(st, userId, nullsFirst).0.value.lastUsed
  {
    var a := ServiceNextProxy(st, userId, nullsFirst, false).0;
    var b := NextProxy(st, userId, nullsFirst).0;
    if a.Some? {
      LeastStampsAgree(st.proxies, userId, nullsFirst, a.value, b.value);
    }
  }

  /** Two active proxies of the user that are each used no later than every other were used at the same time. */
  lemma LeastStampsAgree(ps: seq<Proxy>, userId: string, nullsFirst: bool, a: Proxy, b: Proxy)
    requires a in ps && b in ps && ActiveOf(a, userId) && ActiveOf(b, userId)
    requires forall k :: 0 <= k < |ps| && ActiveOf(ps[k], userId) ==> LastUsedLe(nullsFirst, a, ps[k])
    requires forall k :: 0 <= k < |ps| && ActiveOf(ps[k], userId) ==> LastUsedLe(nullsFirst, b, ps[k])
    ensures a.lastUsed == b.lastUsed
  {
    var i :| 0 <= i < |ps| && ps[i] == a;
    var j :| 0 <= j < |ps| && ps[j] == b;
    assert LastUsedLe(nullsFirst, a, ps[j]);
    assert LastUsedLe(nullsFirst, b, ps[i]);
  }

  /** When no two of the user's active proxies share a stamp, the service and the manager make the very same call. */
  lemma ServiceIsManagerOnDistinctStamps(st: Store, userId: string, nullsFirst: bool)
    requires UniqueProxyIds(st) && StampsDistinct(st, userId)
    ensures ServiceNextProxy(st, userId, nullsFirst, false) == NextProxy(st, userId, nullsFirst)
  {
    ServiceMatchesManager(st, userId, nullsFirst);
    var a := ServiceNextProxy(st, userId, nullsFirst, false).0;
    var b := NextProxy(st, userId, nullsFirst).0;
    if a.Some? {
      var i :| 0 <= i < |st.proxies| && st.proxies[i] == a.value;
      var j :| 0 <= j < |st.proxies| && st.proxies[j] == b.value;
      assert i == j;
    }
  }

  /** No two of the user's active proxies were last used at the same time. */
  ghost predicate StampsDistinct(st: Store, userId: string) {
    forall i, j :: 0 <= i < j < |st.proxies| && ActiveOf(st.proxies[i], userId) && ActiveOf(st.proxies[j], userId) ==>
                     st.proxies[i].lastUsed != st.proxies[j].lastUsed
  }

  // ------------------------------------------------------------------ fairness

  /** Ids of the user's active proxies. */
  ghost function ActiveIds(st: Store, userId: string): set<string> {
    set k | 0 <= k < |st.proxies| && ActiveOf(st.proxies[k], userId) :: st.proxies[k].id
  }

  /**
   A run of consecutive `getNextProxy` calls for one user: call `i` turns
   store `sts[i]` into `sts[i + 1]` and hands out `picks[i]`.
   */
  ghost predicate IsRun(userId: string, nullsFirst: bool, sts: seq<Store>, picks: seq<Option<Proxy>>) {
    && |sts| == |picks| + 1
    && forall i {:trigger NextProxy(sts[i], userId, nullsFirst)} ::
         0 <= i < |picks| ==> NextProxy(sts[i], userId, nullsFirst) == (picks[i], sts[i + 1])
  }

  /**
   The proxies picked since time `c0` are exactly those whose stamp is at
   least `c0`; every stamp is older than the clock.
   */
  ghost predicate PickedSince(st: Store, userId: string, c0: int, picked: set<string>) {
    && UniqueProxyIds(st)
    && ClockAhead(st)
    && c0 <= st.clock
    && picked <= ActiveIds(st, userId)
    && forall k :: 0 <= k < |st.proxies| && ActiveOf(st.proxies[k], userId) ==>
         (st.proxies[k].id in picked <==> st.proxies[k].lastUsed.Some? && st.proxies[k].lastUsed.value >= c0)
  }

  /** After a call, the picked proxy holds the newest stamp of all the store's proxies. */
  lemma PickedIsNewest(st: Store, userId: string, nullsFirst: bool)
    requires UniqueProxyIds(st) && ClockAhead(st)
    requires !NoActiveProxy(st, userId)
    ensures var (p, st1) := NextProxy(st, userId, nullsFirst);
            forall k :: 0 <= k < |st1.proxies| && st1.proxies[k].id != p.value.id && st1.proxies[k].lastUsed.Some? ==>
              st1.proxies[k].lastUsed.value < st.clock
    ensures var (p, st1) := NextProxy(st, userId, nullsFirst);
            forall k :: 0 <= k < |st1.proxies| && st1.proxies[k].id == p.value.id ==>
              st1.proxies[k].lastUsed == Some(st.clock)
  {
    var (p, st1) := NextProxy(st, userId, nullsFirst);
    forall k | 0 <= k < |st1.proxies| && st1.proxies[k].id != p.value.id && st1.proxies[k].lastUsed.Some?
      ensures st1.proxies[k].lastUsed.value < st.clock
    {
      assert st1.proxies[k] == st.proxies[k];
    }
  }

  /** `st1` is `st` with the proxy `id` stamped by the clock, and a later clock. */
  ghost predicate StampedFrom(st: Store, st1: Store, id: string) {
    && |st1.proxies| == |st.proxies|
    && st1.clock > st.clock
    && forall k :: 0 <= k < |st.proxies| ==>
         st1.proxies[k] == if st.proxies[k].id == id then st.proxies[k].(lastUsed := Some(st.clock)) else st.proxies[k]
  }

  lemma NextProxyStamps(st: Store, userId: string, nullsFirst: bool)
    requires !NoActiveProxy(st, userId)
    ensures NextProxy(st, userId, nullsFirst).0.Some?
    ensures StampedFrom(st, NextProxy(st, userId, nullsFirst).1, NextProxy(st, userId, nullsFirst).0.value.id)
  {
  }

  /** With nulls first, a call hands out a proxy that was not picked since `c0`. */
  lemma FreshPick(st: Store, userId: string, c0: int, picked: set<string>)
    requires PickedSince(st, userId, c0, picked)
    requires |picked| < |ActiveIds(st, userId)|
    ensures NextProxy(st, userId, true).0.Some?
    ensures NextProxy(st, userId, true).0.value.id !in picked
    ensures NextProxy(st, userId, true).0.value.id in ActiveIds(st, userId)
  {
    PoolNotEmpty(st, userId, picked);
    LeastIsUnpicked(st, userId, c0, picked, NextProxy(st, userId, true).0.value);
  }

  /** More active ids than picked ones means the user has an active proxy. */
  lemma PoolNotEmpty(st: Store, userId: string, picked: set<string>)
    requires |picked| < |ActiveIds(st, userId)|
    ensures !NoActiveProxy(st, userId)
  {
    var x :| x in ActiveIds(st, userId);
  }

  /**
   A proxy stamped no later than every active one, with nulls first, was not
   picked since `c0` when some active proxy was not.
   */
  lemma LeastIsUnpicked(st: Store, userId: string, c0: int, picked: set<string>, p: Proxy)
    requires PickedSince(st, userId, c0, picked)
    requires |picked| < |ActiveIds(st, userId)|
    requires p in st.proxies && ActiveOf(p, userId)
    requires forall k :: 0 <= k < |st.proxies| && ActiveOf(st.proxies[k], userId) ==> LastUsedLe(true, p, st.proxies[k])
    ensures p.id !in picked && p.id in ActiveIds(st, userId)
  {
    var missing := SetGap(picked, ActiveIds(st, userId));
    var m :| 0 <= m < |st.proxies| && ActiveOf(st.proxies[m], userId) && st.proxies[m].id == missing;
    var i :| 0 <= i < |st.proxies| && st.proxies[i] == p;
    assert LastUsedLe(true, p, st.proxies[m]);
    assert st.proxies[i].id in ActiveIds(st, userId);
  }

  lemma SetGap(a: set<string>, b: set<string>) returns (x: string)
    requires a <= b && |a| < |b|
    ensures x in b && x !in a
  {
    var d := b - a;
    assert b == a + d;
    assert |d| > 0;
    x :| x in d;
  }

  /** Stamping an active proxy adds it to the set picked since `c0`. */
  lemma StampRecordsPick(st: Store, st1: Store, userId: string, c0: int, picked: set<string>, id: string)
    requires PickedSince(st, userId, c0, picked)
    requires StampedFrom(st, st1, id) && id in ActiveIds(st, userId)
    requires st1.links == st.links && st1.results == st.results
    ensures ActiveIds(st1, userId) == ActiveIds(st, userId)
    ensures PickedSince(st1, userId, c0, picked + {id})
  {
    SameShape(st, st1, userId, id);
    forall k | 0 <= k < |st1.proxies| && ActiveOf(st1.proxies[k], userId)
      ensures st1.proxies[k].id in picked + {id} <==> st1.proxies[k].lastUsed.Some? && st1.proxies[k].lastUsed.value >= c0
    {
      assert ActiveOf(st.proxies[k], userId);
    }
    forall a, b | 0 <= a < b < |st1.proxies| ensures st1.proxies[a].id != st1.proxies[b].id {
      assert st.proxies[a].id != st.proxies[b].id;
    }
    forall k | 0 <= k < |st1.proxies| && st1.proxies[k].lastUsed.Some?
      ensures st1.proxies[k].lastUsed.value < st1.clock
    {
    }
  }

  /** A stamp changes neither ids nor who owns which proxy nor which are active. */
  lemma SameShape(st: Store, st1: Store, userId: string, id: string)
    requires StampedFrom(st, st1, id)
    ensures ActiveIds(st1, userId) == ActiveIds(st, userId)
  {
    forall x | x in ActiveIds(st, userId) ensures x in ActiveIds(st1, userId) {
      var k :| 0 <= k < |st.proxies| && ActiveOf(st.proxies[k], userId) && st.proxies[k].id == x;
      assert ActiveOf(st1.proxies[k], userId) && st1.proxies[k].id == x;
    }
    forall x | x in ActiveIds(st1, userId) ensures x in ActiveIds(st, userId) {
      var k :| 0 <= k < |st1.proxies| && ActiveOf(st1.proxies[k], userId) && st1.proxies[k].id == x;
      assert ActiveOf(st.proxies[k], userId) && st.proxies[k].id == x;
    }
  }

  /** One call with nulls first hands out a proxy not yet picked, and records it. */
  lemma RotateStep(st: Store, userId: string, c0: int, picked: set<string>)
    requires PickedSince(st, userId, c0, picked)
    requires |picked| < |ActiveIds(st, userId)|
    ensures var p := NextProxy(st, userId, true).0;
            var st1 := NextProxy(st, userId, true).1;
            && p.Some? && p.value.id !in picked && p.value.id in ActiveIds(st, userId)
            && ActiveIds(st1, userId) == ActiveIds(st, userId)
            && PickedSince(st1, userId, c0, picked + {p.value.id})
  {
    FreshPick(st, userId, c0, picked);
    NextProxyStamps(st, userId, true);
    var p := NextProxy(st, userId, true).0;
    var st1 := NextProxy(st, userId, true).1;
    StampRecordsPick(st, st1, userId, c0, picked, p.value.id);
  }

  /** Every pick is an active proxy of the pool, none of them picked before. */
  ghost predicate FreshPicks(picks: seq<Option<Proxy>>, pool: set<string>, picked: set<string>) {
    forall i :: 0 <= i < |picks| ==> picks[i].Some? && picks[i].value.id in pool && picks[i].value.id !in picked
  }

  /** The id of a pick; a call that found no proxy has none. */
  function PickId(o: Option<Proxy>): string {
    match o
    case Some(p) => p.id
    case None => ""
  }

  /** No proxy is picked twice. */
  ghost predicate DistinctPicks(picks: seq<Option<Proxy>>) {
    forall i, j :: 0 <= i < j < |picks| ==> PickId(picks[i]) != PickId(picks[j])
  }

  lemma {:induction false} RunFrom(userId: string, sts: seq<Store>, picks: seq<Option<Proxy>>,
                                   k: nat, c0: int, picked: set<string>)
    requires IsRun(userId, true, sts, picks) && k <= |picks|
    requires PickedSince(sts[k], userId, c0, picked)
    requires |picked| + (|picks| - k) <= |ActiveIds(sts[k], userId)|
    ensures FreshPicks(picks[k..], ActiveIds(sts[k], userId), picked)
    ensures DistinctPicks(picks[k..])
    decreases |picks| - k
  {
    if k < |picks| {
      var st := sts[k];
      assert NextProxy(st, userId, true) == (picks[k], sts[k + 1]);
      RotateStep(st, userId, c0, picked);
      var id := picks[k].value.id;
      AddFresh(picked, id);
      RunFrom(userId, sts, picks, k + 1, c0, picked + {id});
      SuffixCons(picks, k);
      ConsPicks(picks[k], picks[k + 1..], picks[k..], ActiveIds(st, userId), picked);
    }
  }

  lemma AddFresh(a: set<string>, x: string)
    requires x !in a
    ensures |a + {x}| == |a| + 1
  {
  }

  lemma ConsPicks(p: Option<Proxy>, rest: seq<Option<Proxy>>, picks: seq<Option<Proxy>>,
                  pool: set<string>, picked: set<string>)
    requires picks == [p] + rest
    requires p.Some? && p.value.id in pool && p.value.id !in picked
    requires FreshPicks(rest, pool, picked + {p.value.id})
    requires DistinctPicks(rest)
    ensures FreshPicks(picks, pool, picked)
    ensures DistinctPicks(picks)
  {
    forall i | 0 <= i < |picks|
      ensures picks[i].Some? && picks[i].value.id in pool && picks[i].value.id !in picked
    {
      if i > 0 {
        assert picks[i] == rest[i - 1];
      }
    }
    forall i, j | 0 <= i < j < |picks| ensures PickId(picks[i]) != PickId(picks[j]) {
      assert picks[j] == rest[j - 1];
      if i > 0 {
        assert picks[i] == rest[i - 1];
      }
    }
  }

  /**
   Fairness: when never-used proxies sort first, as many consecutive calls as
   the user has active proxies hand out each of them exactly once.
   */
  lemma RotationIsFair(userId: string, sts: seq<Store>, picks: seq<Option<Proxy>>)
    requires IsRun(userId, true, sts, picks)
    requires UniqueProxyIds(sts[0]) && ClockAhead(sts[0])
    requires |picks| == |ActiveIds(sts[0], userId)|
    ensures FreshPicks(picks, ActiveIds(sts[0], userId), {})
    ensures DistinctPicks(picks)
    ensures forall x :: x in ActiveIds(sts[0], userId) ==> exists i :: 0 <= i < |picks| && PickId(picks[i]) == x
  {
    RunFrom(userId, sts, picks, 0, sts[0].clock, {});
    assert picks[0..] == picks by {
      assert |picks[0..]| == |picks|;
    }
    PicksCoverPool(picks, ActiveIds(sts[0], userId));
  }

  /** As many distinct picks from a pool as it has members cover the whole pool. */
  lemma PicksCoverPool(picks: seq<Option<Proxy>>, pool: set<string>)
    requires FreshPicks(picks, pool, {}) && DistinctPicks(picks) && |picks| == |pool|
    ensures forall x :: x in pool ==> exists i :: 0 <= i < |picks| && PickId(picks[i]) == x
  {
    var got := IdsOf(picks, |picks|);
    PicksCount(picks, |picks|);
    SetFull(got, pool);
    forall x | x in pool ensures exists i :: 0 <= i < |picks| && PickId(picks[i]) == x {
      assert x in got;
    }
  }

  /** The ids of the first `n` picks. */
  ghost function IdsOf(picks: seq<Option<Proxy>>, n: nat): set<string>
    requires n <= |picks|
  {
    set i | 0 <= i < n :: PickId(picks[i])
  }

  lemma {:induction false} PicksCount(picks: seq<Option<Proxy>>, n: nat)
    requires n <= |picks|
    requires DistinctPicks(picks)
    ensures |IdsOf(picks, n)| == n
  {
    if n > 0 {
      PicksCount(picks, n - 1);
      IdsOfStep(picks, n);
      LastIsNew(picks, n);
    }
  }

  /** The ids of the first `n` picks are those of the first `n - 1` and the `n`-th. */
  lemma IdsOfStep(picks: seq<Option<Proxy>>, n: nat)
    requires 0 < n <= |picks|
    ensures IdsOf(picks, n) == IdsOf(picks, n - 1) + {PickId(picks[n - 1])}
  {
  }

  /** With distinct picks, the `n`-th pick's id is not among the earlier ones. */
  lemma LastIsNew(picks: seq<Option<Proxy>>, n: nat)
    requires 0 < n <= |picks| && DistinctPicks(picks)
    ensures PickId(picks[n - 1]) !in IdsOf(picks, n - 1)
  {
  }

  lemma SetFull(a: set<string>, b: set<string>)
    requires a <= b && |a| == |b|
    ensures a == b
  {
    if a != b {
      var x :| x in b && x !in a;
      SubsetSize(a, b - {x});
    }
  }

  /**
   With never-used proxies sorted last, a never-used active proxy is never
   handed out while the user has some other active proxy that has been used.
   */
  lemma {:induction false} NullsLastStarves(userId: string, sts: seq<Store>, picks: seq<Option<Proxy>>, k: nat, q: Proxy)
    requires IsRun(userId, false, sts, picks) && k <= |picks|
    requires StarvedAt(sts[k], userId, q)
    ensures forall i :: k <= i < |picks| ==> picks[i] != Some(q)
    decreases |picks| - k
  {
    if k < |picks| {
      RunStarveStep(userId, sts, picks, k, q);
      NullsLastStarves(userId, sts, picks, k + 1, q);
    }
  }

  lemma RunStarveStep(userId: string, sts: seq<Store>, picks: seq<Option<Proxy>>, k: nat, q: Proxy)
    requires IsRun(userId, false, sts, picks) && k < |picks|
    requires StarvedAt(sts[k], userId, q)
    ensures picks[k] != Some(q) && StarvedAt(sts[k + 1], userId, q)
  {
    assert NextProxy(sts[k], userId, false) == (picks[k], sts[k + 1]);
    StarveStep(sts[k], userId, q);
  }

  /** `q` is active and never used, and some other active proxy of the user has been used. */
  ghost predicate StarvedAt(st: Store, userId: string, q: Proxy) {
    && UniqueProxyIds(st) && ClockAhead(st)
    && q in st.proxies && ActiveOf(q, userId) && q.lastUsed.None?
    && exists u :: 0 <= u < |st.proxies| && ActiveOf(st.proxies[u], userId) && st.proxies[u].lastUsed.Some?
  }

  /** One call with nulls last passes over `q` and leaves it starved. */
  lemma StarveStep(st: Store, userId: string, q: Proxy)
    requires StarvedAt(st, userId, q)
    ensures NextProxy(st, userId, false).0 != Some(q)
    ensures StarvedAt(NextProxy(st, userId, false).1, userId, q)
  {
    var u :| 0 <= u < |st.proxies| && ActiveOf(st.proxies[u], userId) && st.proxies[u].lastUsed.Some?;
    assert !NoActiveProxy(st, userId);
    NextProxyStamps(st, userId, false);
    var p := NextProxy(st, userId, false).0.value;
    assert LastUsedLe(false, p, st.proxies[u]);
    StampKeepsStarved(st, NextProxy(st, userId, false).1, userId, q, p, u);
  }

  lemma StampKeepsStarved(st: Store, st1: Store, userId: string, q: Proxy, p: Proxy, u: nat)
    requires StarvedAt(st, userId, q)
    requires StampedFrom(st, st1, p.id) && st1.links == st.links && st1.results == st.results
    requires u < |st.proxies| && ActiveOf(st.proxies[u], userId) && st.proxies[u].lastUsed.Some?
    requires p in st.proxies && LastUsedLe(false, p, st.proxies[u])
    ensures p != q && StarvedAt(st1, userId, q)
  {
    UsedBeforeUnused(p, st.proxies[u], q);
    var iq :| 0 <= iq < |st.proxies| && st.proxies[iq] == q;
    var ip :| 0 <= ip < |st.proxies| && st.proxies[ip] == p;
    assert ip != iq;
    StarveKeeps(st, st1, userId, q, iq, u, p.id);
  }

  /** With nulls last, a proxy ordered before a used one is not a never-used one. */
  lemma UsedBeforeUnused(p: Proxy, v: Proxy, q: Proxy)
    requires LastUsedLe(false, p, v) && v.lastUsed.Some? && q.lastUsed.None?
    ensures p != q
  {
  }

  lemma StarveKeeps(st: Store, st1: Store, userId: string, q: Proxy, iq: nat, u: nat, id: string)
    requires UniqueProxyIds(st) && ClockAhead(st)
    requires StampedFrom(st, st1, id)
    requires st1.links == st.links && st1.results == st.results
    requires iq < |st.proxies| && st.proxies[iq] == q && q.lastUsed.None? && id != q.id
    requires u < |st.proxies| && ActiveOf(st.proxies[u], userId) && st.proxies[u].lastUsed.Some?
    ensures UniqueProxyIds(st1) && ClockAhead(st1)
    ensures q in st1.proxies
    ensures exists k :: 0 <= k < |st1.proxies| && ActiveOf(st1.proxies[k], userId) && st1.proxies[k].lastUsed.Some?
  {
    assert st1.proxies[iq] == q;
    assert ActiveOf(st1.proxies[u], userId) && st1.proxies[u].lastUsed.Some?;
    forall a, b | 0 <= a < b < |st1.proxies| ensures st1.proxies[a].id != st1.proxies[b].id {
      assert st.proxies[a].id != st.proxies[b].id;
    }
  }
}

=== FILE: schedule_rules.dfy ===
/**
 The schedule dialog of the scheduler commands: a per-chat dialog state, the
 typed-time step of adding or editing a schedule, and the callbacks that
 toggle and delete schedules. Each handler maps the store and the dialog map
 to the new store, the new dialog map and the reply it sends (reduced to which
 message it is).
 */
module ScheduleRules {
  import opened Types
  import opened Text
  import opened Seqs
  import opened Repository
  import opened Keyboard
  import opened Callbacks

  /** What the chat's next text message means: `add_schedule`, or `edit_schedule` of one schedule. */
  datatype Dialog = AddingSchedule | EditingSchedule(scheduleId: string)

  datatype Reply =
    | Ignored | Cancelled | BadTime | AtCap | TimeTaken | Added | AddFailed | Updated | UpdateFailed
    | NotFound | Toggled(nowActive: bool) | Deleted | DeleteFailed
    | AllDeleted(count: nat) | DeleteAllFailed | Prompted | Shown

  datatype Outcome = Outcome(store: Store, dialogs: map<string, Dialog>, reply: Reply)

  /** The user has a schedule at `time`, other than the one with id `except` when that is given. */
  predicate TimeTakenBy(st: Store, userId: string, time: string, except: Option<string>) {
    exists k :: 0 <= k < |st.schedules| && st.schedules[k].userId == userId && st.schedules[k].time == time
                && (except.None? || st.schedules[k].id != except.value)
  }

  /** The user has a schedule with this id. */
  predicate Owns(st: Store, userId: string, id: string) {
    exists k :: 0 <= k < |st.schedules| && ScheduleHit(st.schedules[k], id, userId)
  }

  /** The number of the user's schedules, active or not. */
  function ScheduleCount(st: Store, userId: string): nat {
    Count(st.schedules, ScheduleOwner(userId))
  }

  /** The length of `getUserCheckSchedules` is the number of the user's schedules. */
  lemma ListedCount(st: Store, userId: string)
    ensures |GetUserCheckSchedules(st, userId)| == ScheduleCount(st, userId)
  {
    var r := GetUserCheckSchedules(st, userId);
    assert |multiset(r)| == |r|;
  }

  // ------------------------------------------------------------------ typed times

  /**
   The time typed in an `add_schedule` dialog, once it has passed the format
   check. A user who already has the maximum number of schedules, inactive
   ones included, is refused; so is a time the user already has; otherwise
   one active schedule is created at that time, unless the insert throws
   (`insertFails`), which is reported and creates nothing.
   */
  function AddTime(st: Store, chatId: string, time: string, profile: Profile, insertFails: bool): (r: (Store, Reply))
    ensures var (u, st1) := GetOrCreateUser(st, chatId, profile);
            && (r.1 == AtCap <==> ScheduleCount(st1, u.id) >= MaxSchedulesPerUser)
            && (r.1 == TimeTaken <==> ScheduleCount(st1, u.id) < MaxSchedulesPerUser && TimeTakenBy(st1, u.id, time, None))
            && (r.1 == Added <==> ScheduleCount(st1, u.id) < MaxSchedulesPerUser && !TimeTakenBy(st1, u.id, time, None)
                                  && !insertFails)
            && (r.1 == AddFailed <==> ScheduleCount(st1, u.id) < MaxSchedulesPerUser && !TimeTakenBy(st1, u.id, time, None)
                                      && insertFails)
            && (r.1 != Added ==> r.0 == st1)
            && (r.1 == Added ==> r.0.schedules == st1.schedules + [CheckSchedule(FreshId(st1), u.id, time, true)])
            && r.0.users == st1.users
    ensures r.0.links == st.links && r.0.proxies == st.proxies && r.0.results == st.results
  {
    var (u, st1) := GetOrCreateUser(st, chatId, profile);
    var mine := GetUserCheckSchedules(st1, u.id);
    ListedCount(st1, u.id);
    if |mine| >= MaxSchedulesPerUser then (st1, AtCap)
    else
      var i := FindIndex(mine, (s: CheckSchedule) => s.time == time);
      assert i >= 0 <==> TimeTakenBy(st1, u.id, time, None) by {
        if TimeTakenBy(st1, u.id, time, None) {
          var k :| 0 <= k < |st1.schedules| && st1.schedules[k].userId == u.id && st1.schedules[k].time == time;
          assert st1.schedules[k] in mine;
        }
      }
      if i >= 0 then (st1, TimeTaken)
      else if insertFails then (st1, AddFailed)
      else
        var st2 := AddCheckSchedule(st1, u.id, time);
        assert st2.schedules == st1.schedules + [CheckSchedule(FreshId(st1), u.id, time, true)];
        (st2, Added)
  }

  /**
   The time typed in an `edit_schedule` dialog, once it has passed the format
   check. It is refused when another of the user's schedules already has it,
   but the schedule's own time may be typed again. The update is scoped to
   the user, so an id that is not the user's fails.
   */
  function EditTime(st: Store, chatId: string, scheduleId: string, time: string): (r: (Store, Reply))
    ensures var (u, st1) := GetOrCreateUser(st, chatId, NoProfile);
            && (r.1 == TimeTaken <==> TimeTakenBy(st1, u.id, time, Some(scheduleId)))
            && (r.1 == UpdateFailed <==> !TimeTakenBy(st1, u.id, time, Some(scheduleId)) && !Owns(st1, u.id, scheduleId))
            && (r.1 == Updated <==> !TimeTakenBy(st1, u.id, time, Some(scheduleId)) && Owns(st1, u.id, scheduleId))
            && (r.1 != Updated ==> r.0 == st1)
            && (r.1 == Updated ==> |r.0.schedules| == |st1.schedules|)
            && (r.1 == Updated ==> forall k :: 0 <= k < |st1.schedules| ==>
                  r.0.schedules[k] == if ScheduleHit(st1.schedules[k], scheduleId, u.id)
                                      then st1.schedules[k].(time := time) else st1.schedules[k])
            && r.0.users == st1.users
    ensures r.0.links == st.links && r.0.proxies == st.proxies && r.0.results == st.results
  {
    var (u, st1) := GetOrCreateUser(st, chatId, NoProfile);
    var mine := GetUserCheckSchedules(st1, u.id);
    var i := FindIndex(mine, (s: CheckSchedule) => s.time == time && s.id != scheduleId);
    assert i >= 0 <==> TimeTakenBy(st1, u.id, time, Some(scheduleId)) by {
      if TimeTakenBy(st1, u.id, time, Some(scheduleId)) {
        var k :| 0 <= k < |st1.schedules| && st1.schedules[k].userId == u.id && st1.schedules[k].time == time
                 && st1.schedules[k].id != scheduleId;
        assert st1.schedules[k] in mine;
      }
    }
    if i >= 0 then (st1, TimeTaken)
    else
      match UpdateCheckSchedule(st1, scheduleId, u.id, SetTime(time))
      case None => (st1, UpdateFailed)
      case Some(st2) => (st2, Updated)
  }

  /**
   `handleUserInput`: only a permitted sender's text, in a chat with an open
   dialog, is read. The cancel text closes the dialog; any other text is
   trimmed and must pass the time-format check (an abstract predicate here)
   before the dialog's step runs. The dialog closes exactly when the cancel
   text arrives or the step succeeds; on every refusal, and when the insert
   of an added schedule throws, it stays open.
   */
  function ScheduleInput(st: Store, dialogs: map<string, Dialog>, chatId: string, text: Option<string>,
                         profile: Profile, permitted: bool, validTime: string -> bool, insertFails: bool): (r: Outcome)
    ensures !permitted || !Truthy(text) || chatId !in dialogs ==> r == Outcome(st, dialogs, Ignored)
    ensures r.dialogs == dialogs || r.dialogs == dialogs - {chatId}
    ensures (chatId in dialogs && chatId !in r.dialogs) <==> r.reply in {Cancelled, Added, Updated}
    ensures r.reply == Cancelled <==> permitted && text == Some(CancelText) && chatId in dialogs
    ensures r.reply == BadTime <==> permitted && Truthy(text) && text.value != CancelText && chatId in dialogs
                                    && !validTime(Trim(text.value))
    ensures r.reply in {Ignored, Cancelled, BadTime} ==> r.store == st
    ensures r.store.links == st.links && r.store.proxies == st.proxies && r.store.results == st.results
  {
    if !permitted || !Truthy(text) || chatId !in dialogs then Outcome(st, dialogs, Ignored)
    else if text.value == CancelText then Outcome(st, dialogs - {chatId}, Cancelled)
    else
      var time := Trim(text.value);
      if !validTime(time) then Outcome(st, dialogs, BadTime)
      else
        var (st2, reply) := DialogStep(st, chatId, dialogs[chatId], time, profile, insertFails);
        Outcome(st2, if reply in {Added, Updated} then dialogs - {chatId} else dialogs, reply)
  }

  /** The step of the open dialog for a valid time: add a schedule, or move the one being edited. */
  function DialogStep(st: Store, chatId: string, d: Dialog, time: string, profile: Profile, insertFails: bool): (r: (Store, Reply))
    ensures r.1 in {AtCap, TimeTaken, Added, AddFailed, Updated, UpdateFailed}
    ensures d.AddingSchedule? ==> r.1 in {AtCap, TimeTaken, Added, AddFailed}
    ensures r.0.links == st.links && r.0.proxies == st.proxies && r.0.results == st.results
  {
    match d
    case AddingSchedule => AddTime(st, chatId, time, profile, insertFails)
    case EditingSchedule(id) => EditTime(st, chatId, id, time)
  }

  // ------------------------------------------------------------------ invariants of the typed times

  /** No user has two schedules at the same time. */
  ghost predicate TimesDistinct(st: Store) {
    forall i, j :: 0 <= i < j < |st.schedules| && st.schedules[i].userId == st.schedules[j].userId ==>
                     st.schedules[i].time != st.schedules[j].time
  }

  /** No two schedules share an id. */
  ghost predicate IdsDistinct(st: Store) {
    forall i, j :: 0 <= i < j < |st.schedules| ==> st.schedules[i].id != st.schedules[j].id
  }

  /** No user has more than the maximum number of schedules. */
  ghost predicate WithinCap(st: Store) {
    forall u :: ScheduleCount(st, u) <= MaxSchedulesPerUser
  }

  /** An add keeps each user's times distinct and each user within the cap. */
  lemma AddTimeKeeps(st: Store, chatId: string, time: string, profile: Profile, insertFails: bool)
    requires TimesDistinct(st) && WithinCap(st)
    ensures TimesDistinct(AddTime(st, chatId, time, profile, insertFails).0)
    ensures WithinCap(AddTime(st, chatId, time, profile, insertFails).0)
  {
    var (u, st1) := GetOrCreateUser(st, chatId, profile);
    var r := AddTime(st, chatId, time, profile, insertFails);
    if r.1 == Added {
      var x := CheckSchedule(FreshId(st1), u.id, time, true);
      assert ScheduleCount(st1, u.id) < MaxSchedulesPerUser;
      var s := r.0.schedules;
      assert s == st1.schedules + [x];
      forall i, j | 0 <= i < j < |s| && s[i].userId == s[j].userId ensures s[i].time != s[j].time {
        if j == |st1.schedules| {
          assert s[i] == st1.schedules[i];
        }
      }
      forall v ensures ScheduleCount(r.0, v) <= MaxSchedulesPerUser {
        FilterConcat(st1.schedules, [x], ScheduleOwner(v));
        assert [x][1..] == [];
        assert Filter([x], ScheduleOwner(v)) == if v == u.id then [x] else [];
        assert ScheduleCount(r.0, v) == ScheduleCount(st1, v) + if v == u.id then 1 else 0;
        assert ScheduleCount(st1, v) == ScheduleCount(st, v);
      }
    } else {
      forall v ensures ScheduleCount(r.0, v) <= MaxSchedulesPerUser {
        assert ScheduleCount(r.0, v) == ScheduleCount(st, v);
      }
    }
  }

  /** An edit keeps each user's times distinct, provided ids are unique, and changes no user's count. */
  lemma EditTimeKeeps(st: Store, chatId: string, scheduleId: string, time: string)
    requires TimesDistinct(st) && IdsDistinct(st)
    ensures TimesDistinct(EditTime(st, chatId, scheduleId, time).0)
    ensures IdsDistinct(EditTime(st, chatId, scheduleId, time).0)
    ensures forall v :: ScheduleCount(EditTime(st, chatId, scheduleId, time).0, v) == ScheduleCount(st, v)
  {
    var (u, st1) := GetOrCreateUser(st, chatId, NoProfile);
    var r := EditTime(st, chatId, scheduleId, time);
    if r.1 == Updated {
      var s, t := st1.schedules, r.0.schedules;
      forall i, j | 0 <= i < j < |t| && t[i].userId == t[j].userId ensures t[i].time != t[j].time {
        if ScheduleHit(s[j], scheduleId, u.id) {
          assert !ScheduleHit(s[i], scheduleId, u.id);
        }
      }
      forall v ensures ScheduleCount(r.0, v) == ScheduleCount(st, v) {
        FilterSameVerdicts(t, s, ScheduleOwner(v));
      }
    }
  }

  /** Every typed time keeps the two invariants of the schedule dialog: distinct times per user, and the cap. */
  lemma ScheduleInputKeeps(st: Store, dialogs: map<string, Dialog>, chatId: string, text: Option<string>,
                           profile: Profile, permitted: bool, validTime: string -> bool, insertFails: bool)
    requires TimesDistinct(st) && IdsDistinct(st) && WithinCap(st)
    ensures var r := ScheduleInput(st, dialogs, chatId, text, profile, permitted, validTime, insertFails);
            TimesDistinct(r.store) && WithinCap(r.store)
  {
    if permitted && Truthy(text) && chatId in dialogs && text.value != CancelText && validTime(Trim(text.value)) {
      var time := Trim(text.value);
      match dialogs[chatId]
      case AddingSchedule =>
        AddTimeKeeps(st, chatId, time, profile, insertFails);
      case EditingSchedule(id) =>
        EditTimeKeeps(st, chatId, id, time);
    }
  }

  // ------------------------------------------------------------------ toggling and deleting

  /**
   `toggle_schedule_<id>`, once the chat's user is known: the schedule is
   looked up among the user's own. An unknown id is reported and changes
   nothing; otherwise the active flag of the user's schedule with that id is
   set to the opposite of the one the found schedule had.
   */
  function Toggle(st: Store, userId: string, scheduleId: string): (r: (Store, Reply))
    ensures r.1 == NotFound <==> !Owns(st, userId, scheduleId)
    ensures r.1 == NotFound ==> r.0 == st
    ensures r.1 != NotFound ==> r.1.Toggled?
    ensures r.1.Toggled? ==> exists k :: 0 <= k < |st.schedules| && ScheduleHit(st.schedules[k], scheduleId, userId)
                                         && st.schedules[k].isActive == !r.1.nowActive
    ensures r.1.Toggled? ==> |r.0.schedules| == |st.schedules|
    ensures r.1.Toggled? ==> forall k :: 0 <= k < |st.schedules| ==>
              r.0.schedules[k] == if ScheduleHit(st.schedules[k], scheduleId, userId)
                                  then st.schedules[k].(isActive := r.1.nowActive) else st.schedules[k]
    ensures r.0.users == st.users && r.0.links == st.links && r.0.proxies == st.proxies && r.0.results == st.results
    ensures r.0 == st.(schedules := r.0.schedules)
  {
    var mine := GetUserCheckSchedules(st, userId);
    var i := FindIndex(mine, IdIs(scheduleId));
    FoundIffOwns(st, userId, scheduleId);
    if i < 0 then (st, NotFound)
    else
      var sel := mine[i];
      var up := UpdateCheckSchedule(st, scheduleId, userId, SetActive(!sel.isActive));
      (up.value, Toggled(!sel.isActive))
  }

  /** The `find` of `toggle_schedule_<id>`: a schedule with this id. */
  function IdIs(id: string): CheckSchedule -> bool {
    (s: CheckSchedule) => s.id == id
  }

  /** Looking the id up among the user's listed schedules finds one exactly when the user owns it. */
  lemma FoundIffOwns(st: Store, userId: string, scheduleId: string)
    ensures var mine := GetUserCheckSchedules(st, userId);
            var i := FindIndex(mine, IdIs(scheduleId));
            && (i >= 0 <==> Owns(st, userId, scheduleId))
            && (i >= 0 ==> exists k :: 0 <= k < |st.schedules| && st.schedules[k] == mine[i]
                                       && ScheduleHit(st.schedules[k], scheduleId, userId))
  {
    var mine := GetUserCheckSchedules(st, userId);
    var i := FindIndex(mine, IdIs(scheduleId));
    if i >= 0 {
      FoundIsOwned(st, userId, scheduleId, mine, i);
    }
    if Owns(st, userId, scheduleId) {
      OwnedIsListed(st, userId, scheduleId, mine);
    }
  }

  /** A listed schedule with the id is one of the store's, matching both keys. */
  lemma FoundIsOwned(st: Store, userId: string, scheduleId: string, mine: seq<CheckSchedule>, i: nat)
    requires forall k :: 0 <= k < |mine| ==> mine[k] in st.schedules && mine[k].userId == userId
    requires i < |mine| && mine[i].id == scheduleId
    ensures exists k :: 0 <= k < |st.schedules| && st.schedules[k] == mine[i] && ScheduleHit(st.schedules[k], scheduleId, userId)
  {
    var k :| 0 <= k < |st.schedules| && st.schedules[k] == mine[i];
    assert ScheduleHit(st.schedules[k], scheduleId, userId);
  }

  /** A schedule the user owns is listed, so the lookup finds its id. */
  lemma OwnedIsListed(st: Store, userId: string, scheduleId: string, mine: seq<CheckSchedule>)
    requires forall k :: 0 <= k < |st.schedules| && st.schedules[k].userId == userId ==> st.schedules[k] in mine
    requires Owns(st, userId, scheduleId)
    ensures exists j :: 0 <= j < |mine| && IdIs(scheduleId)(mine[j])
  {
    var k :| 0 <= k < |st.schedules| && ScheduleHit(st.schedules[k], scheduleId, userId);
    var j :| 0 <= j < |mine| && mine[j] == st.schedules[k];
    assert IdIs(scheduleId)(mine[j]);
  }

  /** With unique ids, toggling a schedule the user owns flips that one schedule and no other. */
  lemma ToggleOne(st: Store, userId: string, scheduleId: string, k0: nat)
    requires IdsDistinct(st)
    requires k0 < |st.schedules| && ScheduleHit(st.schedules[k0], scheduleId, userId)
    ensures Toggle(st, userId, scheduleId) ==
              (st.(schedules := st.schedules[k0 := st.schedules[k0].(isActive := !st.schedules[k0].isActive)]),
               Toggled(!st.schedules[k0].isActive))
  {
    var r := Toggle(st, userId, scheduleId);
    OnlyHitAt(st, userId, scheduleId, k0);
    assert Owns(st, userId, scheduleId);
    assert r.1.nowActive == !st.schedules[k0].isActive by {
      var k :| 0 <= k < |st.schedules| && ScheduleHit(st.schedules[k], scheduleId, userId)
               && st.schedules[k].isActive == !r.1.nowActive;
    }
    assert r.0.schedules == st.schedules[k0 := st.schedules[k0].(isActive := !st.schedules[k0].isActive)];
  }

  /** With unique ids, the schedule at `k0` is the only one with its id. */
  lemma OnlyHitAt(st: Store, userId: string, scheduleId: string, k0: nat)
    requires IdsDistinct(st)
    requires k0 < |st.schedules| && ScheduleHit(st.schedules[k0], scheduleId, userId)
    ensures forall j :: 0 <= j < |st.schedules| && ScheduleHit(st.schedules[j], scheduleId, userId) ==> j == k0
  {
    forall j | 0 <= j < |st.schedules| && j != k0 ensures !ScheduleHit(st.schedules[j], scheduleId, userId) {
      assert st.schedules[j].id != st.schedules[k0].id;
    }
  }

  /** Flipping one schedule's flag keeps the ids distinct. */
  lemma FlipKeepsIds(st: Store, k0: nat, v: bool)
    requires IdsDistinct(st) && k0 < |st.schedules|
    ensures IdsDistinct(st.(schedules := st.schedules[k0 := st.schedules[k0].(isActive := v)]))
  {
    var flipped := st.schedules[k0 := st.schedules[k0].(isActive := v)];
    forall i, j | 0 <= i < j < |flipped| ensures flipped[i].id != flipped[j].id {
      assert flipped[i].id == st.schedules[i].id && flipped[j].id == st.schedules[j].id;
    }
  }

  /** Toggling the schedule at `k0` twice restores it. */
  lemma ToggleTwiceAt(st: Store, userId: string, scheduleId: string, k0: nat)
    requires IdsDistinct(st)
    requires k0 < |st.schedules| && ScheduleHit(st.schedules[k0], scheduleId, userId)
    ensures Toggle(Toggle(st, userId, scheduleId).0, userId, scheduleId).0 == st
  {
    var x := st.schedules[k0];
    var flipped := st.schedules[k0 := x.(isActive := !x.isActive)];
    var s1 := st.(schedules := flipped);
    ToggleOne(st, userId, scheduleId, k0);
    FlipKeepsIds(st, k0, !x.isActive);
    ToggleOne(s1, userId, scheduleId, k0);
    assert flipped[k0].(isActive := !flipped[k0].isActive) == x;
    UpdateRestores(st.schedules, k0, x.(isActive := !x.isActive));
  }

  /** With unique ids, toggling the same schedule twice gives back the store it started from. */
  lemma ToggleTwice(st: Store, userId: string, scheduleId: string)
    requires IdsDistinct(st)
    ensures Toggle(Toggle(st, userId, scheduleId).0, userId, scheduleId).0 == st
  {
    if Owns(st, userId, scheduleId) {
      var k0 :| 0 <= k0 < |st.schedules| && ScheduleHit(st.schedules[k0], scheduleId, userId);
      ToggleTwiceAt(st, userId, scheduleId, k0);
    } else {
      assert Toggle(st, userId, scheduleId).0 == st;
    }
  }

  /** `delete_schedule_yes_<id>`: only a schedule of the user's with that id is removed; any other id fails. */
  function DeleteOne(st: Store, chatId: string, scheduleId: string): (r: (Store, Reply))
    ensures var (u, st1) := GetOrCreateUser(st, chatId, NoProfile);
            && (r.1 == Deleted <==> Owns(st1, u.id, scheduleId))
            && (r.1 != Deleted ==> r.1 == DeleteFailed && r.0 == st1)
            && (r.1 == Deleted ==> forall s :: s in r.0.schedules <==> s in st1.schedules && !ScheduleHit(s, scheduleId, u.id))
            && r.0.users == st1.users
    ensures r.0.links == st.links && r.0.proxies == st.proxies && r.0.results == st.results
  {
    var (u, st1) := GetOrCreateUser(st, chatId, NoProfile);
    match DeleteCheckSchedule(st1, scheduleId, u.id)
    case None => (st1, DeleteFailed)
    case Some(st2) => (st2, Deleted)
  }

  /** One of `rows` has this id. */
  predicate ListedId(rows: seq<CheckSchedule>, id: string) {
    exists k :: 0 <= k < |rows| && rows[k].id == id
  }

  /**
   The loop of `confirm_delete_all_schedules`: deletes each listed schedule
   by its id and the user's id, in order, stopping at the first delete that
   finds nothing (the store's "not found" error). Only the user's schedules
   are ever removed; when every delete succeeds, exactly the listed ones are.
   */
  function DeleteEach(st: Store, userId: string, rows: seq<CheckSchedule>): (r: (Store, bool))
    ensures forall s :: s in r.0.schedules ==> s in st.schedules
    ensures forall s :: s in st.schedules && s.userId != userId ==> s in r.0.schedules
    ensures r.1 ==> forall s :: s in r.0.schedules <==> s in st.schedules && !(s.userId == userId && ListedId(rows, s.id))
    ensures r.0.users == st.users && r.0.links == st.links && r.0.proxies == st.proxies && r.0.results == st.results
    decreases |rows|
  {
    if rows == [] then (st, true)
    else
      match DeleteCheckSchedule(st, rows[0].id, userId)
      case None => (st, false)
      case Some(st1) =>
        var r := DeleteEach(st1, userId, rows[1..]);
        assert forall id :: ListedId(rows, id) <==> rows[0].id == id || ListedId(rows[1..], id) by {
          forall id | ListedId(rows, id) && rows[0].id != id ensures ListedId(rows[1..], id) {
            var k :| 0 <= k < |rows| && rows[k].id == id;
            assert rows[1..][k - 1].id == id;
          }
          forall id | ListedId(rows[1..], id) ensures ListedId(rows, id) {
            var k :| 0 <= k < |rows[1..]| && rows[1..][k].id == id;
            assert rows[k + 1].id == id;
          }
        }
        r
  }

  /** Deleting listed schedules of the user, each with a distinct id, always succeeds. */
  lemma {:induction false} DeleteEachSucceeds(st: Store, userId: string, rows: seq<CheckSchedule>)
    requires forall i, j :: 0 <= i < j < |rows| ==> rows[i].id != rows[j].id
    requires forall k :: 0 <= k < |rows| ==> Owns(st, userId, rows[k].id)
    ensures DeleteEach(st, userId, rows).1
    decreases |rows|
  {
    if rows != [] {
      assert Owns(st, userId, rows[0].id);
      var st1 := DeleteCheckSchedule(st, rows[0].id, userId).value;
      forall k | 0 <= k < |rows[1..]| ensures Owns(st1, userId, rows[1..][k].id) {
        var j :| 0 <= j < |st.schedules| && ScheduleHit(st.schedules[j], rows[k + 1].id, userId);
        assert st.schedules[j] in st1.schedules;
        var m :| 0 <= m < |st1.schedules| && st1.schedules[m] == st.schedules[j];
      }
      DeleteEachSucceeds(st1, userId, rows[1..]);
    }
  }

  /**
   `confirm_delete_all_schedules`: every schedule the user has, active or not,
   is deleted and the count reported. Other users' schedules are never
   touched, whether or not every delete succeeds.
   */
  function DeleteAll(st: Store, chatId: string): (r: (Store, Reply))
    ensures var (u, st1) := GetOrCreateUser(st, chatId, NoProfile);
            && (r.1.AllDeleted? || r.1 == DeleteAllFailed)
            && (forall s :: s in r.0.schedules ==> s in st1.schedules)
            && (forall s :: s in st1.schedules && s.userId != u.id ==> s in r.0.schedules)
            && (r.1.AllDeleted? ==> r.1.count == ScheduleCount(st1, u.id))
            && (r.1.AllDeleted? ==> forall s :: s in r.0.schedules <==> s in st1.schedules && s.userId != u.id)
            && r.0.users == st1.users
    ensures r.0.links == st.links && r.0.proxies == st.proxies && r.0.results == st.results
  {
    var (u, st1) := GetOrCreateUser(st, chatId, NoProfile);
    var rows := GetUserCheckSchedules(st1, u.id);
    ListedCount(st1, u.id);
    var (st2, ok) := DeleteEach(st1, u.id, rows);
    assert forall s :: s in st1.schedules && s.userId == u.id ==> ListedId(rows, s.id) by {
      forall s | s in st1.schedules && s.userId == u.id ensures ListedId(rows, s.id) {
        var k :| 0 <= k < |st1.schedules| && st1.schedules[k] == s;
        var j :| 0 <= j < |rows| && rows[j] == s;
      }
    }
    (st2, if ok then AllDeleted(|rows|) else DeleteAllFailed)
  }

  /** With unique ids, deleting all of a user's schedules succeeds and leaves them none. */
  lemma DeleteAllClears(st: Store, chatId: string)
    requires IdsDistinct(st)
    ensures DeleteAll(st, chatId).1.AllDeleted?
    ensures ScheduleCount(DeleteAll(st, chatId).0, GetOrCreateUser(st, chatId, NoProfile).0.id) == 0
  {
    var (u, st1) := GetOrCreateUser(st, chatId, NoProfile);
    assert IdsDistinct(st1);
    var rows := GetUserCheckSchedules(st1, u.id);
    ListedDeletable(st1, u.id);
    DeleteEachSucceeds(st1, u.id, rows);
    var r := DeleteAll(st, chatId);
    FilterNone(r.0.schedules, ScheduleOwner(u.id));
  }

  /** The user's listed schedules are the user's own and carry distinct ids, when the store's ids are unique. */
  lemma ListedDeletable(st: Store, userId: string)
    requires IdsDistinct(st)
    ensures var rows := GetUserCheckSchedules(st, userId);
            && (forall i, j :: 0 <= i < j < |rows| ==> rows[i].id != rows[j].id)
            && (forall k :: 0 <= k < |rows| ==> Owns(st, userId, rows[k].id))
  {
    var rows := GetUserCheckSchedules(st, userId);
    ListedDistinct(st, userId);
    forall i, j | 0 <= i < j < |rows| ensures rows[i].id != rows[j].id {
      var a :| 0 <= a < |st.schedules| && st.schedules[a] == rows[i];
      var b :| 0 <= b < |st.schedules| && st.schedules[b] == rows[j];
      assert a != b;
    }
    forall k | 0 <= k < |rows| ensures Owns(st, userId, rows[k].id) {
      var a :| 0 <= a < |st.schedules| && st.schedules[a] == rows[k];
    }
  }

  /** Unique ids make the listed schedules distinct. */
  lemma ListedDistinct(st: Store, userId: string)
    requires IdsDistinct(st)
    ensures Distinct(GetUserCheckSchedules(st, userId))
  {
    assert Distinct(st.schedules);
    FilterDistinct(st.schedules, ScheduleOwner(userId));
    DistinctPermutation(Filter(st.schedules, ScheduleOwner(userId)), GetUserCheckSchedules(st, userId));
  }

  // ------------------------------------------------------------------ the callback handler

  /** The branches that only show a list or a menu, after looking the user up. */
  predicate LooksUpUser(b: ScheduleBranch) {
    b in {ListSchedules, EditScheduleList, DeleteScheduleMenu, SelectSchedule, SchedulesPage, BackToSchedules}
  }

  /**
   `handleCallbackQuery` of the schedule commands. Only the add and edit-time
   buttons open a dialog; only toggling, deleting one and deleting all change
   schedules; listing branches may create the chat's user; selecting a
   schedule the user does not have is reported; the rest only answer.
   */
  function ScheduleCallback(st: Store, dialogs: map<string, Dialog>, chatId: string, data: string): (r: Outcome)
    ensures RouteSchedules(data).None? ==> r == Outcome(st, dialogs, Ignored)
    ensures RouteSchedules(data) == Some((AddSchedule, "")) ==> r.dialogs == dialogs[chatId := AddingSchedule]
    ensures RouteSchedules(data).Some? && RouteSchedules(data).value.0 == EditScheduleTime ==>
              r.dialogs == dialogs[chatId := EditingSchedule(RouteSchedules(data).value.1)]
    ensures RouteSchedules(data).None? || RouteSchedules(data).value.0 !in {AddSchedule, EditScheduleTime} ==>
              r.dialogs == dialogs
    ensures RouteSchedules(data).None? || RouteSchedules(data).value.0 !in {ToggleSchedule, DeleteScheduleYes, ConfirmDeleteAllSchedules} ==>
              r.store.schedules == st.schedules
    ensures RouteSchedules(data).Some? && RouteSchedules(data).value.0 == SelectSchedule ==>
              var (u, st1) := GetOrCreateUser(st, chatId, NoProfile);
              r.reply == (if Owns(st1, u.id, RouteSchedules(data).value.1) then Shown else NotFound)
    ensures r.store.links == st.links && r.store.proxies == st.proxies && r.store.results == st.results
  {
    match RouteSchedules(data)
    case None => Outcome(st, dialogs, Ignored)
    case Some((b, arg)) =>
      var (u, st1) := GetOrCreateUser(st, chatId, NoProfile);
      match b
      case AddSchedule => Outcome(st, dialogs[chatId := AddingSchedule], Prompted)
      case EditScheduleTime => Outcome(st, dialogs[chatId := EditingSchedule(arg)], Prompted)
      case ToggleSchedule =>
        var (st2, reply) := Toggle(st1, u.id, arg);
        Outcome(st2, dialogs, reply)
      case DeleteScheduleYes =>
        var (st2, reply) := DeleteOne(st, chatId, arg);
        Outcome(st2, dialogs, reply)
      case ConfirmDeleteAllSchedules =>
        var (st2, reply) := DeleteAll(st, chatId);
        Outcome(st2, dialogs, reply)
      case SelectSchedule => Outcome(st1, dialogs, if Owns(st1, u.id, arg) then Shown else NotFound)
      case _ => Outcome(if LooksUpUser(b) then st1 else st, dialogs, Shown)
  }

  /** No schedule callback removes or alters a schedule of another user. */
  lemma CallbackSparesOthers(st: Store, dialogs: map<string, Dialog>, chatId: string, data: string, s: CheckSchedule)
    requires s in st.schedules && s.userId != GetOrCreateUser(st, chatId, NoProfile).0.id
    ensures s in ScheduleCallback(st, dialogs, chatId, data).store.schedules
  {
    var route := RouteSchedules(data);
    if route.Some? {
      var (b, arg) := route.value;
      if b == ToggleSchedule {
        ToggleRouteSpares(st, dialogs, chatId, data, arg, s);
      } else if b == DeleteScheduleYes {
        DeleteOneRouteSpares(st, dialogs, chatId, data, arg, s);
      } else if b == ConfirmDeleteAllSchedules {
        DeleteAllRouteSpares(st, dialogs, chatId, data, arg, s);
      }
    }
  }

  /** The toggle button keeps every schedule of another user. */
  lemma ToggleRouteSpares(st: Store, dialogs: map<string, Dialog>, chatId: string, data: string, arg: string, s: CheckSchedule)
    requires s in st.schedules && s.userId != GetOrCreateUser(st, chatId, NoProfile).0.id
    requires RouteSchedules(data) == Some((ToggleSchedule, arg))
    ensures s in ScheduleCallback(st, dialogs, chatId, data).store.schedules
  {
    var (u, st1) := GetOrCreateUser(st, chatId, NoProfile);
    ToggleSpares(st1, u.id, arg, s);
  }

  /** The confirmed delete button keeps every schedule of another user. */
  lemma DeleteOneRouteSpares(st: Store, dialogs: map<string, Dialog>, chatId: string, data: string, arg: string, s: CheckSchedule)
    requires s in st.schedules && s.userId != GetOrCreateUser(st, chatId, NoProfile).0.id
    requires RouteSchedules(data) == Some((DeleteScheduleYes, arg))
    ensures s in ScheduleCallback(st, dialogs, chatId, data).store.schedules
  {
    DeleteOneSpares(st, chatId, arg, s);
  }

  /** The confirmed delete-all button keeps every schedule of another user. */
  lemma DeleteAllRouteSpares(st: Store, dialogs: map<string, Dialog>, chatId: string, data: string, arg: string, s: CheckSchedule)
    requires s in st.schedules && s.userId != GetOrCreateUser(st, chatId, NoProfile).0.id
    requires RouteSchedules(data) == Some((ConfirmDeleteAllSchedules, arg))
    ensures s in ScheduleCallback(st, dialogs, chatId, data).store.schedules
  {
    DeleteAllSpares(st, chatId, s);
  }

  /** Deleting one schedule keeps every schedule of another user. */
  lemma DeleteOneSpares(st: Store, chatId: string, scheduleId: string, s: CheckSchedule)
    requires s in st.schedules && s.userId != GetOrCreateUser(st, chatId, NoProfile).0.id
    ensures s in DeleteOne(st, chatId, scheduleId).0.schedules
  {
  }

  /** Deleting all of a user's schedules keeps every schedule of another user. */
  lemma DeleteAllSpares(st: Store, chatId: string, s: CheckSchedule)
    requires s in st.schedules && s.userId != GetOrCreateUser(st, chatId, NoProfile).0.id
    ensures s in DeleteAll(st, chatId).0.schedules
  {
  }

  /** A toggle keeps every schedule of another user in place. */
  lemma ToggleSpares(st: Store, userId: string, scheduleId: string, s: CheckSchedule)
    requires s in st.schedules && s.userId != userId
    ensures s in Toggle(st, userId, scheduleId).0.schedules
  {
    var k :| 0 <= k < |st.schedules| && st.schedules[k] == s;
    var t := Toggle(st, userId, scheduleId);
    if t.1.Toggled? {
      assert t.0.schedules[k] == s;
    }
  }

  /** The toggle button of a schedule's menu toggles that schedule and opens no dialog. */
  lemma MenuToggleButton(st: Store, dialogs: map<string, Dialog>, chatId: string, id: string, isActive: bool)
    ensures var (u, st1) := GetOrCreateUser(st, chatId, NoProfile);
            var r := ScheduleCallback(st, dialogs, chatId, ScheduleMenu(id, isActive)[0][1].data);
            (r.store, r.reply) == Toggle(st1, u.id, id) && r.dialogs == dialogs
  {
    ScheduleMenuRoutes(id, isActive);
  }

  /** The edit button of a schedule's menu opens the edit dialog for that schedule. */
  lemma MenuEditButton(st: Store, dialogs: map<string, Dialog>, chatId: string, id: string, isActive: bool)
    ensures ScheduleCallback(st, dialogs, chatId, ScheduleMenu(id, isActive)[0][0].data)
            == Outcome(st, dialogs[chatId := EditingSchedule(id)], Prompted)
  {
    ScheduleMenuRoutes(id, isActive);
  }
}

=== FILE: seqs.dfy ===
/**
 Sequence operations used to model the store's `where` and `orderBy`
 clauses: an order-preserving filter, and an insertion sort parameterised by
 a comparison, with its sortedness and permutation guarantees. Elements the
 comparison ties stay in store order.
 */
module Seqs {

  /** The elements satisfying `p`, in their original order. */
  function Filter<T(!new)>(s: seq<T>, p: T -> bool): (r: seq<T>)
    ensures |r| <= |s|
    ensures forall x :: x in r <==> x in s && p(x)
  {
    if s == [] then []
    else if p(s[0]) then [s[0]] + Filter(s[1..], p)
    else Filter(s[1..], p)
  }

  /** Filtering distributes over concatenation, so relative order is kept. */
  lemma {:induction false} FilterConcat<T(!new)>(a: seq<T>, b: seq<T>, p: T -> bool)
    ensures Filter(a + b, p) == Filter(a, p) + Filter(b, p)
    decreases |a|
  {
    if a == [] {
      assert a + b == b;
    } else {
      var ab := a + b;
      assert ab != [] && ab[0] == a[0] && ab[1..] == a[1..] + b;
      FilterConcat(a[1..], b, p);
      if p(a[0]) {
        assert Filter(ab, p) == [a[0]] + Filter(a[1..] + b, p);
        assert Filter(a, p) == [a[0]] + Filter(a[1..], p);
      } else {
        assert Filter(ab, p) == Filter(a[1..] + b, p);
        assert Filter(a, p) == Filter(a[1..], p);
      }
    }
  }

  /** Nothing is removed when every element passes. */
  lemma {:induction false} FilterAll<T(!new)>(s: seq<T>, p: T -> bool)
    requires forall x :: x in s ==> p(x)
    ensures Filter(s, p) == s
    decreases |s|
  {
    if s != [] {
      FilterAll(s[1..], p);
    }
  }

  /** Everything is removed when no element passes. */
  lemma FilterNone<T(!new)>(s: seq<T>, p: T -> bool)
    requires forall x :: x in s ==> !p(x)
    ensures Filter(s, p) == []
  {
    if Filter(s, p) != [] {
      assert Filter(s, p)[0] in Filter(s, p);
    }
  }

  /** Sequences that `p` judges alike, position by position, keep equally many elements. */
  lemma {:induction false} FilterSameVerdicts<T(!new)>(a: seq<T>, b: seq<T>, p: T -> bool)
    requires |a| == |b|
    requires forall k :: 0 <= k < |a| ==> p(a[k]) == p(b[k])
    ensures |Filter(a, p)| == |Filter(b, p)|
    decreases |a|
  {
    if a != [] {
      FilterSameVerdicts(a[1..], b[1..], p);
    }
  }

  /** A suffix is its first element followed by the rest. */
  lemma SuffixCons<T>(s: seq<T>, k: nat)
    requires k < |s|
    ensures s[k..] == [s[k]] + s[k + 1..]
  {
  }

  /** Rewrites, in place, the elements `hit` selects; the rest are kept. */
  function UpdateWhere<T>(s: seq<T>, hit: T -> bool, f: T -> T): (r: seq<T>)
    ensures |r| == |s|
    ensures forall i :: 0 <= i < |s| ==> r[i] == (if hit(s[i]) then f(s[i]) else s[i])
  {
    seq(|s|, i requires 0 <= i < |s| => if hit(s[i]) then f(s[i]) else s[i])
  }

  /** True when some element satisfies `p`. */
  predicate Any<T>(s: seq<T>, p: T -> bool) {
    exists i :: 0 <= i < |s| && p(s[i])
  }

  /** Number of elements satisfying `p`. */
  function Count<T(!new)>(s: seq<T>, p: T -> bool): nat {
    |Filter(s, p)|
  }

  /** `le` is total and transitive, so it can order any sequence. */
  ghost predicate TotalPreorder<T(!new)>(le: (T, T) -> bool) {
    && (forall a, b :: le(a, b) || le(b, a))
    && (forall a, b, c :: le(a, b) && le(b, c) ==> le(a, c))
  }

  predicate SortedBy<T>(s: seq<T>, le: (T, T) -> bool) {
    forall i, j :: 0 <= i < j < |s| ==> le(s[i], s[j])
  }

  /** Inserts `x` before the first element it does not exceed. */
  function Insert<T>(x: T, s: seq<T>, le: (T, T) -> bool): (r: seq<T>)
    ensures multiset(r) == multiset(s) + multiset{x}
    ensures |r| == |s| + 1
  {
    if s == [] || le(x, s[0]) then [x] + s
    else
      assert s == [s[0]] + s[1..];
      [s[0]] + Insert(x, s[1..], le)
  }

  /** The sequence reordered by `le`: the same elements, as a multiset. */
  function SortBy<T>(s: seq<T>, le: (T, T) -> bool): (r: seq<T>)
    ensures multiset(r) == multiset(s)
    ensures |r| == |s|
  {
    if s == [] then []
    else
      assert s == [s[0]] + s[1..];
      Insert(s[0], SortBy(s[1..], le), le)
  }

  lemma {:induction false} InsertSorted<T(!new)>(x: T, s: seq<T>, le: (T, T) -> bool)
    requires TotalPreorder(le)
    requires SortedBy(s, le)
    ensures SortedBy(Insert(x, s, le), le)
    decreases |s|
  {
    var r := Insert(x, s, le);
    if s == [] {
    } else if le(x, s[0]) {
      forall i, j | 0 <= i < j < |r|
        ensures le(r[i], r[j])
      {
        if i > 0 {
          assert r[i] == s[i - 1] && r[j] == s[j - 1];
        } else {
          assert r[j] == s[j - 1];
          if j > 1 {
            assert le(s[0], s[j - 1]);
          }
        }
      }
    } else {
      assert le(s[0], x);
      InsertSorted(x, s[1..], le);
      var t := Insert(x, s[1..], le);
      assert r == [s[0]] + t;
      forall i, j | 0 <= i < j < |r|
        ensures le(r[i], r[j])
      {
        if i > 0 {
          assert r[i] == t[i - 1] && r[j] == t[j - 1];
        } else {
          assert r[j] == t[j - 1];
          assert t[j - 1] in multiset(t);
          assert t[j - 1] == x || t[j - 1] in multiset(s[1..]);
          if t[j - 1] != x {
            var k :| 0 <= k < |s[1..]| && s[1..][k] == t[j - 1];
            assert le(s[0], s[k + 1]);
          }
        }
      }
    }
  }

  /** Under a total preorder the result is sorted. */
  lemma {:induction false} SortBySorted<T(!new)>(s: seq<T>, le: (T, T) -> bool)
    requires TotalPreorder(le)
    ensures SortedBy(SortBy(s, le), le)
    decreases |s|
  {
    if s != [] {
      SortBySorted(s[1..], le);
      InsertSorted(s[0], SortBy(s[1..], le), le);
    }
  }

  /** The head of a sorted permutation is a least element of the input. */
  lemma {:induction false} SortByHeadLeast<T(!new)>(s: seq<T>, le: (T, T) -> bool)
    requires TotalPreorder(le)
    requires |s| > 0
    ensures SortBy(s, le)[0] in s
    ensures forall x :: x in s ==> le(SortBy(s, le)[0], x)
  {
    var r := SortBy(s, le);
    SortBySorted(s, le);
    assert r[0] in multiset(r);
    forall x | x in s
      ensures le(r[0], x)
    {
      assert x in multiset(s);
      assert x in multiset(r);
      var k :| 0 <= k < |r| && r[k] == x;
      if k > 0 {
        assert le(r[0], r[k]);
      }
    }
  }

  /** Membership is preserved in both directions. */
  lemma SortByMembers<T>(s: seq<T>, le: (T, T) -> bool, x: T)
    ensures x in SortBy(s, le) <==> x in s
  {
    var r := SortBy(s, le);
    assert x in r <==> x in multiset(r);
    assert x in s <==> x in multiset(s);
  }

  /** `Array.prototype.find`, as the index of the first element satisfying `p`, or -1. */
  function FindIndex<T>(s: seq<T>, p: T -> bool): (i: int)
    ensures -1 <= i < |s|
    ensures i >= 0 ==> p(s[i]) && forall k :: 0 <= k < i ==> !p(s[k])
    ensures i == -1 ==> forall k :: 0 <= k < |s| ==> !p(s[k])
  {
    if s == [] then -1
    else if p(s[0]) then 0
    else
      var j := FindIndex(s[1..], p);
      if j == -1 then -1 else j + 1
  }

  /** No element occurs twice. */
  ghost predicate Distinct<T>(s: seq<T>) {
    forall i, j :: 0 <= i < j < |s| ==> s[i] != s[j]
  }

  /** Occurring at most once is a property of the multiset of the elements. */
  lemma {:induction false} DistinctByCount<T>(s: seq<T>)
    ensures Distinct(s) <==> forall x :: multiset(s)[x] <= 1
    decreases |s|
  {
    if s != [] {
      var t := s[1..];
      assert s == [s[0]] + t;
      DistinctByCount(t);
      if Distinct(s) {
        assert Distinct(t) by {
          forall i, j | 0 <= i < j < |t| ensures t[i] != t[j] { assert t[i] == s[i + 1] && t[j] == s[j + 1]; }
        }
        assert s[0] !in t;
        forall x ensures multiset(s)[x] <= 1 {
          assert multiset(s)[x] == multiset([s[0]])[x] + multiset(t)[x];
        }
      }
      if forall x :: multiset(s)[x] <= 1 {
        forall x ensures multiset(t)[x] <= 1 {
          assert multiset(s)[x] == multiset([s[0]])[x] + multiset(t)[x];
        }
        assert multiset(s)[s[0]] == 1 + multiset(t)[s[0]];
        assert s[0] !in t;
        forall i, j | 0 <= i < j < |s| ensures s[i] != s[j] {
          if i == 0 { assert s[j] == t[j - 1]; } else { assert s[i] == t[i - 1] && s[j] == t[j - 1]; }
        }
      }
    }
  }

  /** A reordering of a sequence without repeats has none either. */
  lemma DistinctPermutation<T>(a: seq<T>, b: seq<T>)
    requires multiset(a) == multiset(b) && Distinct(a)
    ensures Distinct(b)
  {
    DistinctByCount(a);
    DistinctByCount(b);
  }

  /** Filtering a sequence without repeats leaves none. */
  lemma {:induction false} FilterDistinct<T(!new)>(s: seq<T>, p: T -> bool)
    requires Distinct(s)
    ensures Distinct(Filter(s, p))
    decreases |s|
  {
    if s != [] {
      var t := s[1..];
      assert Distinct(t) by {
        forall i, j | 0 <= i < j < |t| ensures t[i] != t[j] { assert t[i] == s[i + 1] && t[j] == s[j + 1]; }
      }
      FilterDistinct(t, p);
      assert s[0] !in t;
    }
  }

  /** Writing back the element an update replaced undoes the update. */
  lemma UpdateRestores<T>(s: seq<T>, k: nat, y: T)
    requires k < |s|
    ensures s[k := y][k := s[k]] == s
  {
  }

  /** `s.slice(0, n)`: the first `n` elements, or all of them when there are fewer. */
  function Take<T>(s: seq<T>, n: nat): (r: seq<T>)
    ensures |r| == if n < |s| then n else |s|
    ensures r == s[..|r|]
  {
    if n < |s| then s[..n] else s
  }

  /**
   The elements of `s` whose step succeeds, in order, when the step for the
   element at position `at + k` of the whole batch fails exactly if
   `fails(at + k)`.
   */
  function Succeeding<T>(s: seq<T>, at: nat, fails: nat -> bool): (r: seq<T>)
    ensures |r| <= |s|
    ensures (forall k :: at <= k < at + |s| ==> !fails(k)) ==> r == s
    decreases |s|
  {
    if s == [] then []
    else (if fails(at) then [] else [s[0]]) + Succeeding(s[1..], at + 1, fails)
  }
}

=== FILE: text.dfy ===
/**
 The JavaScript string operations the bot relies on, over `seq<char>`:
 `startsWith`, `replace` with a string pattern, `split` on one character,
 `join`, `trim`, decimal `toString`, `parseInt` and `padStart(2, "0")`.
 */
module Text {
  import opened Types

  predicate StartsWith(s: string, p: string) {
    |p| <= |s| && s[..|p|] == p
  }

  /** True when `p` occurs in `s` starting at position `i`. */
  predicate OccursAt(s: string, p: string, i: nat) {
    i + |p| <= |s| && s[i..i + |p|] == p
  }

  /** Position of the first occurrence of `p` in `s` at or after `from`. */
  function IndexOfFrom(s: string, p: string, from: nat): (r: int)
    requires from <= |s|
    ensures r == -1 || (from <= r <= |s| && OccursAt(s, p, r))
    ensures r == -1 ==> forall j :: from <= j <= |s| ==> !OccursAt(s, p, j)
    ensures r != -1 ==> forall j :: from <= j < r ==> !OccursAt(s, p, j)
    decreases |s| - from
  {
    if OccursAt(s, p, from) then from
    else if from == |s| then -1
    else IndexOfFrom(s, p, from + 1)
  }

  /** `s.replace(p, "")`: removes the first occurrence of `p`, if any. */
  function ReplaceFirst(s: string, p: string): string {
    var i := IndexOfFrom(s, p, 0);
    if i == -1 then s else s[..i] + s[i + |p|..]
  }

  /** Removing a prefix the string starts with leaves exactly the rest. */
  lemma ReplaceFirstOfPrefix(s: string, p: string)
    requires StartsWith(s, p)
    ensures ReplaceFirst(s, p) == s[|p|..]
  {
    assert OccursAt(s, p, 0);
  }

  lemma StartsWithConcat(p: string, x: string)
    ensures StartsWith(p + x, p)
    ensures (p + x)[|p|..] == x
  {
    assert (p + x)[..|p|] == p;
  }

  /** A callback built as `p + x` is decoded back to `x` by `replace(p, "")`. */
  lemma StripPrefixRoundTrip(p: string, x: string)
    ensures ReplaceFirst(p + x, p) == x
  {
    StartsWithConcat(p, x);
    ReplaceFirstOfPrefix(p + x, p);
  }

  // ---------------------------------------------------------------- split / join

  /** Position of the first `c` in `s`, or `|s|` when there is none. */
  function FirstIndex(s: string, c: char): (r: nat)
    ensures r <= |s|
    ensures r < |s| ==> s[r] == c
    ensures forall j :: 0 <= j < r ==> s[j] != c
  {
    if s == [] then 0
    else if s[0] == c then 0
    else 1 + FirstIndex(s[1..], c)
  }

  /** `s.split(c)` for a one-character separator: never empty, no piece holds `c`. */
  function Split(s: string, c: char): (r: seq<string>)
    ensures |r| >= 1
    ensures forall k :: 0 <= k < |r| ==> c !in r[k]
    decreases |s|
  {
    var i := FirstIndex(s, c);
    if i == |s| then [s]
    else [s[..i]] + Split(s[i + 1..], c)
  }

  /** `parts.join(c)`. */
  function Join(parts: seq<string>, c: char): string {
    if parts == [] then ""
    else if |parts| == 1 then parts[0]
    else parts[0] + [c] + Join(parts[1..], c)
  }

  lemma {:induction false} JoinSplit(s: string, c: char)
    ensures Join(Split(s, c), c) == s
    decreases |s|
  {
    var i := FirstIndex(s, c);
    if i < |s| {
      var rest := Split(s[i + 1..], c);
      assert Split(s, c) == [s[..i]] + rest;
      JoinSplit(s[i + 1..], c);
      JoinCons(s[..i], rest, c);
      PieceAround(s, i);
    } else {
      assert Split(s, c) == [s];
    }
  }

  /** A string is the part before position `i`, the character there, and the part after. */
  lemma PieceAround(s: string, i: nat)
    requires i < |s|
    ensures s[..i] + [s[i]] + s[i + 1..] == s
  {
    assert (s[..i] + [s[i]]) == s[..i + 1];
  }

  /** Joining a piece in front of at least one more puts the separator between them. */
  lemma JoinCons(a: string, rest: seq<string>, c: char)
    requires |rest| >= 1
    ensures Join([a] + rest, c) == a + [c] + Join(rest, c)
  {
    var parts := [a] + rest;
    assert parts[0] == a && parts[1..] == rest;
  }

  lemma FirstIndexOfJoin(a: string, c: char, b: string)
    requires c !in a
    ensures FirstIndex(a + [c] + b, c) == |a|
    decreases |a|
  {
    if a != [] {
      assert (a + [c] + b)[1..] == a[1..] + [c] + b;
      FirstIndexOfJoin(a[1..], c, b);
    }
  }

  lemma FirstIndexAbsent(a: string, c: char)
    requires c !in a
    ensures FirstIndex(a, c) == |a|
    decreases |a|
  {
    if a != [] {
      FirstIndexAbsent(a[1..], c);
    }
  }

  /** Splitting a join of `c`-free pieces recovers the pieces. */
  lemma {:induction false} SplitJoin(parts: seq<string>, c: char)
    requires |parts| >= 1
    requires forall k :: 0 <= k < |parts| ==> c !in parts[k]
    ensures Split(Join(parts, c), c) == parts
    decreases |parts|
  {
    if |parts| == 1 {
      FirstIndexAbsent(parts[0], c);
    } else {
      var a := parts[0];
      var b := Join(parts[1..], c);
      assert Join(parts, c) == a + [c] + b;
      FirstIndexOfJoin(a, c, b);
      assert (a + [c] + b)[..|a|] == a;
      assert (a + [c] + b)[|a| + 1..] == b;
      SplitJoin(parts[1..], c);
      assert parts == [a] + parts[1..];
    }
  }

  /** Number of occurrences of `c` in `s`. */
  function Occurrences(s: string, c: char): nat {
    if s == [] then 0 else (if s[0] == c then 1 else 0) + Occurrences(s[1..], c)
  }

  lemma {:induction false} OccurrencesConcat(a: string, b: string, c: char)
    ensures Occurrences(a + b, c) == Occurrences(a, c) + Occurrences(b, c)
    decreases |a|
  {
    if a != [] {
      assert (a + b)[1..] == a[1..] + b;
      OccurrencesConcat(a[1..], b, c);
    } else {
      assert a + b == b;
    }
  }

  lemma {:induction false} OccurrencesAbsent(a: string, c: char)
    requires c !in a
    ensures Occurrences(a, c) == 0
    decreases |a|
  {
    if a != [] {
      OccurrencesAbsent(a[1..], c);
    }
  }

  /** `s.split(c)` has one more piece than `s` has separators. */
  lemma {:induction false} SplitLength(s: string, c: char)
    ensures |Split(s, c)| == Occurrences(s, c) + 1
    decreases |s|
  {
    var i := FirstIndex(s, c);
    if i == |s| {
      OccurrencesAbsent(s, c);
    } else {
      SplitLength(s[i + 1..], c);
      assert s == s[..i] + ([c] + s[i + 1..]);
      OccurrencesConcat(s[..i], [c] + s[i + 1..], c);
      OccurrencesAbsent(s[..i], c);
      assert ([c] + s[i + 1..])[1..] == s[i + 1..];
    }
  }

  // ---------------------------------------------------------------- trim

  /** The characters `String.prototype.trim` removes: WhiteSpace and LineTerminator. */
  predicate IsWhitespace(ch: char) {
    || ch == '\t' || ch == '\n' || ch == '\U{000B}' || ch == '\U{000C}' || ch == '\r' || ch == ' '
    || ch == '\U{00A0}' || ch == '\U{1680}' || ('\U{2000}' <= ch <= '\U{200A}')
    || ch == '\U{2028}' || ch == '\U{2029}' || ch == '\U{202F}' || ch == '\U{205F}'
    || ch == '\U{3000}' || ch == '\U{FEFF}'
  }

  function TrimStart(s: string): (r: string)
    ensures |r| <= |s| && r == s[|s| - |r|..]
    ensures r == [] || !IsWhitespace(r[0])
    ensures s == [] || !IsWhitespace(s[0]) ==> r == s
  {
    if s != [] && IsWhitespace(s[0]) then TrimStart(s[1..]) else s
  }

  function TrimEnd(s: string): (r: string)
    ensures |r| <= |s| && r == s[..|r|]
    ensures r == [] || !IsWhitespace(r[|r| - 1])
    ensures s == [] || !IsWhitespace(s[|s| - 1]) ==> r == s
  {
    if s != [] && IsWhitespace(s[|s| - 1]) then TrimEnd(s[..|s| - 1]) else s
  }

  /** `s.trim()`: a contiguous slice of `s` with no whitespace at either end. */
  function Trim(s: string): (r: string)
    ensures |r| <= |s|
    ensures r == [] || (!IsWhitespace(r[0]) && !IsWhitespace(r[|r| - 1]))
  {
    TrimEnd(TrimStart(s))
  }

  /** A string without whitespace at either end is its own trim. */
  lemma TrimIdentity(s: string)
    requires s == [] || (!IsWhitespace(s[0]) && !IsWhitespace(s[|s| - 1]))
    ensures Trim(s) == s
  {
  }

  // ---------------------------------------------------------------- decimal numbers

  predicate IsDigit(ch: char) {
    '0' <= ch <= '9'
  }

  function DigitChar(d: nat): (ch: char)
    requires d < 10
    ensures IsDigit(ch)
  {
    ('0' as int + d) as char
  }

  /** `n.toString()`: the decimal digits of `n`, most significant first. */
  function NatToString(n: nat): (s: string)
    ensures |s| >= 1
    ensures forall k :: 0 <= k < |s| ==> IsDigit(s[k])
    decreases n
  {
    if n < 10 then [DigitChar(n)] else NatToString(n / 10) + [DigitChar(n % 10)]
  }

  /** The value of a string of decimal digits. */
  function DigitsValue(s: string): nat
    requires forall k :: 0 <= k < |s| ==> IsDigit(s[k])
  {
    if s == [] then 0
    else
      assert IsDigit(s[|s| - 1]);
      DigitsValue(s[..|s| - 1]) * 10 + (s[|s| - 1] as int - '0' as int) as nat
  }

  lemma {:induction false} DigitsValueOfNatToString(n: nat)
    ensures DigitsValue(NatToString(n)) == n
    decreases n
  {
    if n >= 10 {
      DigitsValueOfNatToString(n / 10);
      var s := NatToString(n);
      assert s[..|s| - 1] == NatToString(n / 10);
    }
  }

  /** Distinct numbers print differently, so printed counters are fresh ids. */
  lemma NatToStringInjective(a: nat, b: nat)
    requires NatToString(a) == NatToString(b)
    ensures a == b
  {
    DigitsValueOfNatToString(a);
    DigitsValueOfNatToString(b);
  }

  /** Length of the maximal run of digits at the start of `s`. */
  function DigitRun(s: string): (r: nat)
    ensures r <= |s|
    ensures forall k :: 0 <= k < r ==> IsDigit(s[k])
    ensures r == |s| || !IsDigit(s[r])
  {
    if s != [] && IsDigit(s[0]) then 1 + DigitRun(s[1..]) else 0
  }

  /**
   `parseInt(s)` in base ten: leading whitespace is skipped, an optional sign
   is read, then the longest run of digits; no digit at all is `NaN` (None).
   */
  function ParseInt(s: string): (r: Option<int>)
  {
    var t := TrimStart(s);
    var neg := t != [] && t[0] == '-';
    var u := if t != [] && (t[0] == '-' || t[0] == '+') then t[1..] else t;
    var n := DigitRun(u);
    if n == 0 then None
    else
      var v: int := DigitsValue(u[..n]);
      Some(if neg then -v else v)
  }

  /** Printing a count and parsing it back with `parseInt` gives the count. */
  lemma ParseIntOfNatToString(n: nat)
    ensures ParseInt(NatToString(n)) == Some(n)
  {
    var s := NatToString(n);
    assert TrimStart(s) == s;
    assert DigitRun(s) == |s| by {
      DigitRunAll(s);
    }
    assert s[..|s|] == s;
    DigitsValueOfNatToString(n);
  }

  lemma DigitRunAll(s: string)
    requires forall k :: 0 <= k < |s| ==> IsDigit(s[k])
    ensures DigitRun(s) == |s|
  {
    if s != [] {
      DigitRunAll(s[1..]);
    }
  }

  /** `s.padStart(2, "0")`: left-pads with zeros to two characters, never truncates. */
  function PadStart2(s: string): (r: string)
    ensures |s| >= 2 ==> r == s
    ensures |s| < 2 ==> |r| == 2 && r[2 - |s|..] == s && forall k :: 0 <= k < 2 - |s| ==> r[k] == '0'
  {
    if |s| == 0 then "00" else if |s| == 1 then "0" + s else s
  }

  /** ASCII `toLowerCase` (enough for the enum names that are lowered). */
  function LowerAscii(s: string): (r: string)
    ensures |r| == |s|
  {
    if s == [] then ""
    else
      var ch := s[0];
      var low := if 'A' <= ch <= 'Z' then (ch as int + 32) as char else ch;
      [low] + LowerAscii(s[1..])
  }
}

=== FILE: trigger.dfy ===
/**
 The minute tick of `Scheduler.init`: it formats the local time as `HH:MM`,
 asks the store for the users with an active schedule at that time, and
 starts the tick's check run for each of them without waiting for it. The
 runs are atomic with respect to each other, so the tick's effect is the
 runs one after another in some order; that order is an input, any
 arrangement of the dispatched users.
 */
module Trigger {
  import opened Types
  import opened Text
  import opened Repository
  import opened CheckRun

  // ------------------------------------------------------------------ the time string

  /** `n.toString().padStart(2, "0")` for `n` below 100: the tens digit, then the units digit. */
  lemma {:induction false} PaddedTwoDigits(n: nat)
    requires n < 100
    ensures PadStart2(NatToString(n)) == [DigitChar(n / 10), DigitChar(n % 10)]
  {
    if n >= 10 {
      assert NatToString(n / 10) == [DigitChar(n / 10)];
    }
  }

  /** The tick's `currentTime`: the hour and the minute of the clock, each as two digits, around a colon. */
  function CurrentTime(hours: nat, minutes: nat): (r: string)
    requires hours < 24 && minutes < 60
    ensures r == [DigitChar(hours / 10), DigitChar(hours % 10), ':', DigitChar(minutes / 10), DigitChar(minutes % 10)]
  {
    PaddedTwoDigits(hours);
    PaddedTwoDigits(minutes);
    PadStart2(NatToString(hours)) + ":" + PadStart2(NatToString(minutes))
  }

  /** Reading the two digit pairs of `currentTime` back gives the hour and the minute. */
  lemma CurrentTimeReadsBack(hours: nat, minutes: nat)
    requires hours < 24 && minutes < 60
    ensures var t := CurrentTime(hours, minutes);
            && |t| == 5 && t[2] == ':'
            && DigitsValue(t[..2]) == hours && DigitsValue(t[3..]) == minutes
  {
    TimeHalves(hours, minutes);
    PairValue(hours);
    PairValue(minutes);
  }

  /** The two halves of `currentTime` around the colon. */
  lemma TimeHalves(hours: nat, minutes: nat)
    requires hours < 24 && minutes < 60
    ensures var t := CurrentTime(hours, minutes);
            && |t| == 5 && t[2] == ':'
            && t[..2] == [DigitChar(hours / 10), DigitChar(hours % 10)]
            && t[3..] == [DigitChar(minutes / 10), DigitChar(minutes % 10)]
  {
  }

  /** A number below 100 written as two digits reads back as itself. */
  lemma PairValue(n: nat)
    requires n < 100
    ensures DigitsValue([DigitChar(n / 10), DigitChar(n % 10)]) == n
  {
    TwoDigitsValue(n / 10, n % 10);
  }

  lemma TwoDigitsValue(a: nat, b: nat)
    requires a < 10 && b < 10
    ensures DigitsValue([DigitChar(a), DigitChar(b)]) == 10 * a + b
  {
    var s := [DigitChar(a), DigitChar(b)];
    assert DigitChar(a) as int - '0' as int == a && DigitChar(b) as int - '0' as int == b;
    assert s[..1] == [DigitChar(a)] && s[..1][..0] == [];
    assert DigitsValue(s[..1]) == a;
  }

  /** Different minutes of the day give different time strings. */
  lemma CurrentTimeInjective(h1: nat, m1: nat, h2: nat, m2: nat)
    requires h1 < 24 && m1 < 60 && h2 < 24 && m2 < 60
    requires CurrentTime(h1, m1) == CurrentTime(h2, m2)
    ensures h1 == h2 && m1 == m2
  {
    CurrentTimeReadsBack(h1, m1);
    CurrentTimeReadsBack(h2, m2);
  }

  // ------------------------------------------------------------------ dispatch

  /** The user at index `k` of the store has an active schedule at `time`. */
  predicate ScheduledAt(st: Store, k: int, time: string)
    requires 0 <= k < |st.users|
  {
    HasActiveScheduleAt(st, st.users[k].id, time)
  }

  function TelegramIds(users: seq<User>): (r: seq<string>)
    ensures |r| == |users|
    ensures forall k :: 0 <= k < |r| ==> r[k] == users[k].telegramId
  {
    if users == [] then [] else [users[0].telegramId] + TelegramIds(users[1..])
  }

  /**
   The chats the tick starts a run for: the users with an active schedule at
   `time`, in the order the query returns them; none when the query throws.
   */
  function Dispatched(st: Store, time: string, queryFails: bool): (r: seq<string>)
    ensures queryFails ==> r == []
    ensures forall id :: id in r <==>
              !queryFails && exists k :: 0 <= k < |st.users| && st.users[k].telegramId == id && ScheduledAt(st, k, time)
  {
    if queryFails then []
    else
      var users := GetUsersWithSchedule(st, time);
      ScheduledIds(st, time, users);
      TelegramIds(users)
  }

  /** The chat ids of listed users, when the list holds exactly the users scheduled at `time`. */
  lemma ScheduledIds(st: Store, time: string, users: seq<User>)
    requires forall k :: 0 <= k < |users| ==> users[k] in st.users && HasActiveScheduleAt(st, users[k].id, time)
    requires forall k :: 0 <= k < |st.users| && HasActiveScheduleAt(st, st.users[k].id, time) ==> st.users[k] in users
    ensures forall id :: id in TelegramIds(users) <==>
              exists k :: 0 <= k < |st.users| && st.users[k].telegramId == id && ScheduledAt(st, k, time)
  {
    forall id ensures id in TelegramIds(users) ==>
        exists k :: 0 <= k < |st.users| && st.users[k].telegramId == id && ScheduledAt(st, k, time)
    {
      if id in TelegramIds(users) { ListedIsScheduled(st, time, users, id); }
    }
    forall id | exists k :: 0 <= k < |st.users| && st.users[k].telegramId == id && ScheduledAt(st, k, time)
      ensures id in TelegramIds(users)
    {
      var k :| 0 <= k < |st.users| && st.users[k].telegramId == id && ScheduledAt(st, k, time);
      ScheduledIsListed(st, time, users, k);
    }
  }

  /** A chat id of a listed user belongs to a user scheduled at `time`. */
  lemma ListedIsScheduled(st: Store, time: string, users: seq<User>, id: string)
    requires forall k :: 0 <= k < |users| ==> users[k] in st.users && HasActiveScheduleAt(st, users[k].id, time)
    requires id in TelegramIds(users)
    ensures exists k :: 0 <= k < |st.users| && st.users[k].telegramId == id && ScheduledAt(st, k, time)
  {
    var r := TelegramIds(users);
    var j :| 0 <= j < |r| && r[j] == id;
    var k :| 0 <= k < |st.users| && st.users[k] == users[j];
    assert ScheduledAt(st, k, time);
  }

  /** A user scheduled at `time` has its chat id among those of the listed users. */
  lemma ScheduledIsListed(st: Store, time: string, users: seq<User>, k: nat)
    requires forall k :: 0 <= k < |st.users| && HasActiveScheduleAt(st, st.users[k].id, time) ==> st.users[k] in users
    requires k < |st.users| && ScheduledAt(st, k, time)
    ensures st.users[k].telegramId in TelegramIds(users)
  {
    var j :| 0 <= j < |users| && users[j] == st.users[k];
    assert TelegramIds(users)[j] == st.users[k].telegramId;
  }

  /**
   The runs of the tick, one after another in `order`. The flags come back
   as they were, and a run that finds its user's flag clear sends at least
   one message, so when none of the users is already running each of the
   runs does its work.
   */
  function RunAll(envOf: string -> Env, w: World, order: seq<string>): (r: World)
    ensures r.schedulerRunning == w.schedulerRunning && r.commandRunning == w.commandRunning
    ensures |r.trace| >= |w.trace| && r.trace[..|w.trace|] == w.trace
    ensures (forall k :: 0 <= k < |order| ==> order[k] !in w.schedulerRunning) ==> |r.trace| >= |w.trace| + |order|
    decreases |order|
  {
    if order == [] then w
    else
      var first := RunCheck(envOf(order[0]), Scheduled, w, order[0]).0;
      assert order[0] !in w.schedulerRunning ==> |first.trace| > |w.trace|;
      var r := RunAll(envOf, first, order[1..]);
      assert r.trace[..|w.trace|] == r.trace[..|first.trace|][..|w.trace|];
      r
  }

  /**
   The tick at `hours:minutes`: the runs for the dispatched users, in the
   order the interleaving gives. A failing query starts nothing.
   */
  function Tick(envOf: string -> Env, w: World, hours: nat, minutes: nat, queryFails: bool, order: seq<string>): (r: World)
    requires hours < 24 && minutes < 60
    requires multiset(order) == multiset(Dispatched(w.store, CurrentTime(hours, minutes), queryFails))
    ensures queryFails ==> r == w
    ensures r.schedulerRunning == w.schedulerRunning && r.commandRunning == w.commandRunning
    ensures (forall id :: id in order ==> id !in w.schedulerRunning) ==>
              |r.trace| >= |w.trace| + |Dispatched(w.store, CurrentTime(hours, minutes), queryFails)|
  {
    if queryFails then
      assert order == [];
      w
    else
      assert |order| == |multiset(order)|;
      RunAll(envOf, w, order)
  }
}

=== FILE: types.dfy ===
/**
 Entities of the availability-checker bot: the rows the persistence layer
 stores for a user (links, proxies, schedules, check results) and the
 configuration limits the command handlers enforce.
 */
module Types {

  /** A value that may be absent (`null` / `undefined` in the bot). */
  datatype Option<+T> = None | Some(value: T) {
    function GetOr(default: T): T {
      match this
      case Some(v) => v
      case None => default
    }
  }

  /** JavaScript truthiness of an optional string: absent and "" are false. */
  predicate Truthy(o: Option<string>) {
    o.Some? && o.value != ""
  }

  /** `a || b` on optional strings: `a` when it is truthy, otherwise `b`. */
  function OrElse(a: Option<string>, b: string): string {
    if Truthy(a) then a.value else b
  }

  datatype ProxyType = HTTP | HTTPS | SOCKS5

  /** The enum member's name, as it appears in callback data and messages. */
  function ProxyTypeName(t: ProxyType): string {
    match t
    case HTTP => "HTTP"
    case HTTPS => "HTTPS"
    case SOCKS5 => "SOCKS5"
  }

  /** Optional profile fields sent along with `getOrCreateUser`. */
  datatype Profile = Profile(username: Option<string>, firstName: Option<string>, lastName: Option<string>)

  const NoProfile := Profile(None, None, None)

  datatype User = User(id: string, telegramId: string, username: Option<string>,
                       firstName: Option<string>, lastName: Option<string>)

  datatype AppLink = AppLink(id: string, userId: string, url: string, packageName: string,
                             appName: Option<string>, createdAt: int)

  /** `lastUsed` is a timestamp; `None` is a proxy that was never used. */
  datatype Proxy = Proxy(id: string, userId: string, ipAddress: string, port: string,
                         username: Option<string>, password: Option<string>,
                         ptype: ProxyType, isActive: bool, lastUsed: Option<int>)

  datatype CheckSchedule = CheckSchedule(id: string, userId: string, time: string, isActive: bool)

  datatype CheckResult = CheckResult(id: string, appLinkId: string, proxyId: Option<string>,
                                     isAvailable: bool, errorMessage: Option<string>, checkTime: int)

  /** Proxy fields parsed from user text, before they are stored. */
  datatype ParsedProxy = ParsedProxy(ipAddress: string, port: string,
                                     username: Option<string>, password: Option<string>)

  /** A Google Play link recognised in user text, with its package name. */
  datatype ParsedLink = ParsedLink(url: string, packageName: string)

  // Defaults of the configuration file (environment variables unset).
  const MaxLinksPerUser: int := 100
  const MaxProxiesPerUser: int := 50
  const MaxSchedulesPerUser: int := 5
  const RequestTimeout: int := 30000
  const DelayBetweenRequests: int := 2000
}
